=== FILE: README.md ===
# Notely core, modelled in Dafny

Notely is a note-taking web application. Notes hold rich-text content (a tree of blocks and text leaves). The application also offers:

- a plain-text projection of each note, used for search and for prompts to a language model;
- AI summarising, continuation, semantic search and voice transcription;
- Web Push notifications;
- a Progressive Web App share target and service worker.

This project models the logic of that core:

- **The plain-text projection.** `RichText` holds `extractPlainText`, which three routes carry as identical copies. `ShareTarget` holds the share route's one-level variant. A lemma proves the variant agrees with the projection on every note the share route builds.
- **The HTTP handlers.** Each handler in `NotesRoute`, `SearchRoute`, `SummarizeRoute`, `CompleteRoute`, `TranscribeRoute`, `PushSubscribeRoute`, `PushTestRoute` and `ShareTarget` covers:
  - its authentication gate;
  - its validation chain and the status code of every outcome;
  - the filter it hands to the database;
  - the ranking of semantic search: above 0.3, most similar first, stable on ties, at most ten, relevance `round(similarity * 100)`.
- **The database.** `Store.Db` is a class whose fields are the tables: users and push subscriptions as maps keyed by id and by endpoint, notes as a sequence in storage order. The upserts and updates are methods that state the whole new state.
- **The client state.** Each of these is a class whose fields are the component's or hook's state:
  - the notes list hook (`UseNotes.NotesHook`);
  - the editor's dirty/save/autosave flow (`NoteEditor.Editor`);
  - the slash-command menu (`SlashCommandMenu.Menu`);
  - the voice recorder's state machine and ten-minute timer (`VoiceRecorder.Recorder`);
  - the push hook (`UsePush.PushHook`).
- **The helpers.** These are:
  - the VAPID key conversion. It turns URL-safe base64 (section 5 of RFC 4648) into standard base64 (section 4), pads it as in section 3.2, and decodes it with `atob`. The decoder is modelled as the WHATWG forgiving-base64 decode and proved to invert a reference encoder.
  - the service worker's push defaults and its rule for picking which window to focus;
  - the sidebar's folder toggle;
  - the editor's prop filter.

The outside world appears as parameters. This covers the identity provider, the database's failures, `fetch`, blob storage, the speech, embedding and language models, and the push service. An awaited call is an `Http.Step` that either completes with a value or throws. A model call is a function from prompt to optional answer. Similarity is a given real number.

Modules:

- `Wrappers`, `Text`, `Listing` and `Http` are shared definitions.
- `Base64` holds the decoder and its reference encoder.
- Every other module corresponds to one source file.

Lemmas without a row below are proof steps for the lemmas that have one. Examples are `Listing.HeadTail`, `Base64.ModShift`, `Base64.MapPadded` and `SearchRoute.TwoSorted`. They state nothing about the application by themselves.

## Model

| member | source | states |
|---|---|---|
| Text.OrElse | src/app/api/notes/route.ts:87 | `s \|\| fallback` on a string: the string when it is present and non-empty, else the fallback; a non-empty fallback always gives a non-empty result |
| Text.SkipForward | src/app/api/notes/route.ts:129 | the first index at or after `i` that is not whitespace (or the end); everything skipped is whitespace |
| Text.SkipBackward | src/app/api/notes/route.ts:129 | walking back no further than `lo`, the end of the last non-whitespace character; everything skipped is whitespace |
| Text.Trim | src/app/api/notes/route.ts:129 | `trim()`: the result has no whitespace (ECMAScript WhiteSpace and LineTerminator) at either end, and is the input with only whitespace cut from its two ends |
| Text.TrimNoEdge | src/app/api/notes/route.ts:129 | a string with no whitespace at its ends is its own trim |
| Text.TrimEmptyIffBlank | src/app/api/ai/search/route.ts:28 | the trim is empty exactly when every character is whitespace |
| Text.TrimIdempotent | src/app/api/notes/route.ts:129 | trimming twice is trimming once |
| Text.Contains | src/components/editor/slash-command-menu.tsx:19-20 | `includes` is true exactly when the needle occurs at some position |
| Text.LowerChar | src/components/editor/slash-command-menu.tsx:19-20 | `toLowerCase` on one character: upper-case ASCII letters move down by 32, all else is unchanged |
| Text.Lower | src/components/editor/slash-command-menu.tsx:19-20 | lower-casing keeps the length and lower-cases every character in place |
| Text.ContainsEmpty | src/components/editor/slash-command-menu.tsx:18-21 | the empty search occurs in every text, with or without case folding |
| Text.LastIndexOf | src/components/editor/slash-command-menu.tsx:83 | `lastIndexOf`: -1 exactly when the character is absent, else an index holding it with no later occurrence |
| Text.NatToString | src/components/notes/voice-note-recorder.tsx:257 | the decimal text of a number: digits only, reading back as the number, no leading zero |
| Text.PadStart | src/components/notes/voice-note-recorder.tsx:257 | `padStart`: length is the larger of the width and the input's, ends with the input, pad characters in front |
| Text.Repeat | src/hooks/use-push.ts:8 | `repeat`: `n` copies of the character |
| Text.JoinContains | src/app/api/ai/search/route.ts:125 | every part occurs in the string `join(sep)` builds from the parts |
| RichText.ExtractAll | src/app/api/notes/route.ts:124 | `map(extractText)` succeeds exactly when every node's extraction does, and then lists them in order |
| RichText.ExtractText | src/app/api/notes/route.ts:121-127 | a node with a string `text` yields exactly that text; a failure (throw) comes only from a null node or a text-less node with a children array; a text-less node with a children array yields a text containing every child's text |
| RichText.ExtractPlainText | src/app/api/notes/route.ts:118-130 | "" for missing or non-array content; otherwise fails (throws) exactly when a block's extraction does, and on success is the top-level extractions joined by "\n" with its whitespace-only margins cut, so no whitespace at its ends (which is exactly `trim`, see `Text.Trim`) |
| RichText.LeafWins | src/app/api/notes/route.ts:122 | a node with a string `text` yields that text whatever its children |
| RichText.BareNodeIsEmpty | src/app/api/notes/route.ts:126 | a node with neither a string `text` nor a `children` array yields "" |
| RichText.ExtractTextFailsIffNull | src/app/api/notes/route.ts:121-127 | the extractor throws exactly when the traversal reaches a null node |
| RichText.JoinEmptyAppend | src/app/api/notes/route.ts:124 | joining with "" distributes over concatenation of the parts |
| RichText.ExtractAllAppend | src/app/api/notes/route.ts:124 | extracting a concatenation of node lists concatenates their extractions |
| RichText.ElementConcatenates | src/app/api/notes/route.ts:123-125 | an element's children concatenate with no separator, in order |
| RichText.WrapperIsTransparent | src/app/api/notes/route.ts:123-125 | wrapping a node in an element does not change its text |
| RichText.HelloWorldExample | src/app/api/notes/route.ts:118-130 | a paragraph of "Hello " and "world" projects to "Hello world" |
| RichText.TwoBlocksExample | src/app/api/notes/route.ts:129 | two paragraphs "A" and "B" project to "A\nB" |
| Listing.Filter | src/app/api/ai/search/route.ts:111 | `filter`: every kept element satisfies the predicate, every satisfying element is kept, nothing is kept more often than it occurs |
| Listing.FilterKeepsAll | src/app/api/ai/search/route.ts:111 | filtering with a predicate all elements satisfy returns the input |
| Listing.FilterKeepsLength | src/app/api/push/test/route.ts:52-53 | the filtered list is as long as the input exactly when every element satisfies the predicate |
| Listing.FilterFrom | src/hooks/use-notes.ts:70 | every kept element is an element of the input |
| Listing.FilterAppend | src/hooks/use-notes.ts:70 | filtering a concatenation concatenates the filtered parts: order is kept |
| Listing.Take | src/app/api/ai/search/route.ts:113 | `slice(0, n)`: the prefix of length `min(n, length)` |
| Listing.SortDesc | src/app/api/ai/search/route.ts:112 | the sort is a permutation of its input in non-increasing key order |
| Listing.SortDescStable | src/app/api/ai/search/route.ts:112 | stability: for every key value, the elements carrying it keep their input order |
| Listing.SortDescEqualKeys | src/app/api/ai/search/route.ts:112 | sorting a list whose keys are all equal leaves it unchanged |
| Listing.TakeSortedKeepsBest | src/app/api/ai/search/route.ts:113 | cutting a sorted list keeps the best: nothing dropped has a greater key than anything kept |
| Listing.Top | src/app/api/ai/search/route.ts:110-113 | filter-sort-slice: at most `n`, all satisfy the predicate, sorted, drawn from the input, and a satisfying element is left out only when `n` were kept, none with a smaller key |
| SearchRoute.QueryAcceptedIsTrimTest | src/app/api/ai/search/route.ts:28-30 | a query passes exactly when it is present and its trim is non-empty, i.e. it is not all whitespace |
| SearchRoute.QueryAccepted | src/app/api/ai/search/route.ts:28 | definition: a query is present and not all whitespace (its meaning is `SearchRoute.QueryAcceptedIsTrimTest`) |
| SearchRoute.TextMatch | src/app/api/ai/search/route.ts:51-58 | definition of the text search's `where`: the caller's, unarchived, query in title or plain text ignoring case |
| SearchRoute.TextMatchIgnoresQueryCase | src/app/api/ai/search/route.ts:55-56 | the case the query is typed in does not change which notes match |
| SearchRoute.TextSearch | src/app/api/ai/search/route.ts:49-68 | only the caller's unarchived notes whose title or plain text contains the query (ignoring case), newest first, at most 20, none left out newer than one kept |
| SearchRoute.EmbedInput | src/app/api/ai/search/route.ts:98-101 | the embedded text is the first 8000 characters of title, newline and plain text |
| SearchRoute.Candidate | src/app/api/ai/search/route.ts:74-78 | definition of the semantic candidate query's `where`: the caller's, unarchived, plain text not null |
| SearchRoute.Candidates | src/app/api/ai/search/route.ts:73-83 | every candidate is the caller's, unarchived and has a plain text; every such note is a candidate; nothing appears more often than it is stored |
| SearchRoute.ScoreAll | src/app/api/ai/search/route.ts:96-107 | `Promise.all`: succeeds exactly when every note's embedding does, and then scores every candidate in order |
| SearchRoute.Round | src/app/api/ai/search/route.ts:116 | `Math.round`: the integer within a half below and under a half above |
| SearchRoute.RankAll | src/app/api/ai/search/route.ts:114-117 | every ranked entry keeps its note and is scored `round(similarity * 100)`, in order |
| SearchRoute.TopMatches | src/app/api/ai/search/route.ts:110-113 | at most ten, all above 0.3, most similar first, drawn from the scored notes; a relevant note is left out only when ten at least as similar were kept |
| SearchRoute.Rank | src/app/api/ai/search/route.ts:110-117 | at most ten entries, each scored at least 30, each one of the scored notes |
| SearchRoute.Titles | src/app/api/ai/search/route.ts:125 | the titles of the ranked notes, in order |
| SearchRoute.ExplainPrompt | src/app/api/ai/search/route.ts:125 | the prompt starts with the quoted query and names every ranked title |
| SearchRoute.SemanticSearch | src/app/api/ai/search/route.ts:71-135 | no candidates gives an empty list with no model call; otherwise one embedding for the query and, when that succeeds, one per candidate; the results are exactly `Rank` of every candidate's score; it fails exactly when an embedding fails or the explanation fails; the language model runs once exactly when something ranks, on the prompt naming the results, and an empty ranking explains with "" |
| SearchRoute.Search | src/app/api/ai/search/route.ts:19-46 | 401 exactly without a user, 400 exactly for a missing or blank query, text search exactly when `useAi` is not true; the rejected paths call no model |
| SearchRoute.TopMatchesStable | src/app/api/ai/search/route.ts:112 | equally similar relevant notes keep their candidate order |
| SearchRoute.RelevanceScoreBounds | src/app/api/ai/search/route.ts:111-116 | a relevant similarity of at most 1 scores between 30 and 100 |
| SearchRoute.RoundMonotone | src/app/api/ai/search/route.ts:116 | rounding preserves order |
| SearchRoute.RankedScoresDescend | src/app/api/ai/search/route.ts:110-117 | relevance scores never increase down the ranked list |
| SearchRoute.ThresholdExample | src/app/api/ai/search/route.ts:110-117 | similarities 0.9, 0.5, 0.3, 0.1 rank the first two, scored 90 and 50 (0.3 is not above the threshold) |
| SearchRoute.ThresholdTop | src/app/api/ai/search/route.ts:110-113 | for those four similarities the top matches are the first two, in order |
| SearchRoute.ThresholdFilter | src/app/api/ai/search/route.ts:111 | for those four similarities the filter keeps exactly 0.9 and 0.5 |
| SearchRoute.TiesKeepCandidateOrder | src/app/api/ai/search/route.ts:111-113 | when all relevant similarities tie, the result is the first ten candidates in candidate order |
| NotesRoute.BuildWhere | src/app/api/notes/route.ts:19-38 | the clause: archived iff the filter is "archive"; "favorites" forces favourite and unarchived; folder and query only when non-empty |
| NotesRoute.WhereAgrees | src/app/api/notes/route.ts:19-38 | a clause built that way matches a note exactly when the note is selected by the filter's meaning |
| NotesRoute.Get | src/app/api/notes/route.ts:6-59 | 401 exactly without a user; otherwise exactly the selected notes, each once at most, newest first |
| NotesRoute.Post | src/app/api/notes/route.ts:62-115 | 401 exactly without a user, changing nothing; with a user, an absent user row is created with e-mail "" and a present one kept; a note is created exactly when the body parses and the content extracts, else 500; the new note has title `title \|\| "Untitled"`, the derived plain text, no summary, not favourite, not archived, both timestamps now; nothing else changes |
| Store.FindOwned | src/app/api/ai/summarize/route.ts:41-44 | the first note matching both id and owner, or none when no note does |
| Store.Db.UpsertUser | src/app/api/notes/route.ts:70-77 | an absent user is created with e-mail ""; a present one is left unchanged |
| Store.Db.CreateNote | src/app/api/notes/route.ts:85-105 | the new row is appended; nothing else changes; ids stay unique |
| Store.Db.UpdateSummary | src/app/api/ai/summarize/route.ts:40-45 | the note matching id and owner gets the summary and a new `updatedAt`; reports failure and changes nothing when none matches |
| Store.Db.UpsertSubscription | src/app/api/push/subscribe/route.ts:33-46 | the endpoint's row holds exactly the given keys and owner afterwards; other endpoints are untouched |
| SummarizeRoute.LongEnough | src/app/api/ai/summarize/route.ts:19 | `!plainText \|\| length < 50`, negated: a text passes exactly when it has at least 50 characters |
| SummarizeRoute.Prompt | src/app/api/ai/summarize/route.ts:36 | the prompt is the fixed instruction followed by the plain text |
| SummarizeRoute.Summarize | src/app/api/ai/summarize/route.ts:7-55 | 401 exactly without a user, 400 exactly for a short text, the model called exactly for a long one; the summary is stored only with a truthy `noteId`, only on the caller's note, and nothing else changes |
| SummarizeRoute.LengthBoundary | src/app/api/ai/summarize/route.ts:19-24 | 50 characters pass; 49 do not |
| CompleteRoute.Complete | src/app/api/ai/complete/route.ts:6-39 | 401 exactly without a user; a stream exactly when the body parses and extracts, with the prompt made of the instruction and the plain text |
| CompleteRoute.EmptyContentPrompt | src/app/api/ai/complete/route.ts:13-28 | content that is not an array (truthy or not) streams with the bare instruction as prompt |
| TranscribeRoute.Classify | src/app/api/ai/transcribe/route.ts:94-142 | quota exactly for status 429 or code "insufficient_quota"; rate limit exactly for "rate_limit_exceeded" with another status; then "audio" in the message; else processing failure |
| TranscribeRoute.TranscribeReply.Message | src/app/api/ai/transcribe/route.ts:14-142 | every reply but success carries a non-empty error text; the quota reply's mentions "quota" |
| TranscribeRoute.Transcribe | src/app/api/ai/transcribe/route.ts:10-143 | each rejection (no user, no file, too large, bad type) holds exactly under its condition in the route's order; success carries the transcript, language (default "unknown"), URL and size; an error classifies what was thrown |
| TranscribeRoute.SizeBoundary | src/app/api/ai/transcribe/route.ts:30-36 | exactly 10 MiB passes the size check; one byte more does not |
| TranscribeRoute.QuotaBeforeRateLimit | src/app/api/ai/transcribe/route.ts:102-121 | status 429 with code "rate_limit_exceeded" is still a quota failure |
| TranscribeRoute.ErrorStatuses | src/app/api/ai/transcribe/route.ts:94-142 | every error reply is 429 or 500, 429 exactly for quota and rate limit |
| PushSubscribeRoute.Subscribe | src/app/api/push/subscribe/route.ts:13-53 | 401, 500 and 400 each exactly under their conditions and changing nothing; on success the user exists and the endpoint's row holds exactly the given keys and owner |
| PushSubscribeRoute.WellFormed | src/app/api/push/subscribe/route.ts:22 | definition: a subscription with truthy endpoint, `p256dh` and `auth` |
| PushTestRoute.TestPayload | src/app/api/push/test/route.ts:25-38 | each field falls back to its default when falsy; an unparsable body counts as `{}`; no field is empty |
| PushTestRoute.PushTest | src/app/api/push/test/route.ts:14-62 | 401, 400, 404 exactly under their conditions; 500 exactly when every send is rejected; otherwise all sends and the rejected ones are counted, with fewer failures than sends; sends are made exactly when there are a user, both keys and a subscription, one per subscription in order, each carrying `TestPayload` of the body |
| ShareTarget.ChildText | src/app/share-target/route.ts:54 | a child's string `text`, else ""; throws on a null child |
| ShareTarget.ChildTexts | src/app/share-target/route.ts:53-55 | every child's text in order, failing exactly when a child is null |
| ShareTarget.BlockText | src/app/share-target/route.ts:50-58 | fails exactly on a null block or a null child in its children array; without a non-empty children array the block yields "" whatever its own `text`; otherwise the result contains every child's text |
| ShareTarget.BlockTexts | src/app/share-target/route.ts:50-58 | every block's one-level text in order, failing exactly when a block's does |
| ShareTarget.ShallowPlainText | src/app/share-target/route.ts:50-60 | fails exactly when a block's text does; on success the block texts joined by "\n" with whitespace-only margins cut and no whitespace at its ends, which is exactly their `trim` |
| ShareTarget.BlockTextAgrees | src/app/share-target/route.ts:50-60 | on a block of one-level shape the share route's extraction equals `extractText` |
| ShareTarget.ShallowAgreesWithFull | src/app/share-target/route.ts:50-60 | on such blocks the share route's plain text equals `extractPlainText` of the notes route |
| ShareTarget.SharedLines | src/app/share-target/route.ts:25-44 | one to three lines, the title first |
| ShareTarget.BuildBlocks | src/app/share-target/route.ts:25-48 | one block per shared line: an h2 holding the title, then a paragraph per further line; never empty, so the fallback cannot fire |
| ShareTarget.LineBlocksText | src/app/share-target/route.ts:25-60 | the built blocks have one-level shape and their plain text is the lines joined and trimmed |
| ShareTarget.Share | src/app/share-target/route.ts:5-81 | sign-in redirect and no change without a user; failure redirect and no change at all for an unparsable form; else the user row is ensured as in the notes route and one note is appended: title defaulting to "Shared item" (never empty), content an h2 of the title then one paragraph per further line, plain text the lines joined and trimmed and equal to the full extractor's, no summary, no folder, not favourite, not archived, both timestamps now; the redirect goes to it |
| ServiceWorker.OnPush | public/custom-sw.js:1-19 | missing data counts as `{}`; each field falls back to its default; a non-JSON payload shows nothing |
| ServiceWorker.OnNotificationClick | public/custom-sw.js:21-37 | the first focusable window showing the URL (default "/notes") is focused and none before it qualifies; else a window opens on that URL exactly when the browser allows it |
| ServiceWorker.Focusable | public/custom-sw.js:27 | definition: a window client showing the URL that has `focus` |
| AppSidebar.ToggleFolder | src/components/layout/app-sidebar.tsx:60-70 | the folder's membership flips; every other folder keeps its own |
| AppSidebar.ToggleTwice | src/components/layout/app-sidebar.tsx:60-70 | toggling the same folder twice restores the set |
| AppSidebar.ToggleCommutes | src/components/layout/app-sidebar.tsx:60-70 | toggles of different folders commute |
| PlateComponents.FilterPlateProps | src/components/editor/plate-components.tsx:7-31 | no internal prop survives; attributes, children and className are always present (undefined when absent); every other prop passes unchanged; nothing is invented |
| PlateComponents.FilterIdempotent | src/components/editor/plate-components.tsx:7-31 | filtering twice is filtering once |
| PlateComponents.LinkElement | src/components/editor/plate-components.tsx:150-164 | the anchor's attributes are exactly `href`, `target`, `rel`, `className`, the keys of `attributes` and the props neither internal nor kept; a later one wins: a passed prop keeps its value, then an `attributes` entry, then the written ones; unless overridden `href` is the element's URL read before filtering, `target` "_blank", `rel` "noopener noreferrer" and `className` the merged classes; the children are passed on |
| PlateComponents.PassedHrefWins | src/components/editor/plate-components.tsx:150-164 | a passed `href` replaces the element's URL, because the spread comes after it |
| PlateComponents.FilteredLinkHasNoElement | src/components/editor/plate-components.tsx:151-152 | the filtered props never hold `element`, so the URL must be read first |
| UseNotes.Params | src/hooks/use-notes.ts:16-18 | `filter` and `q` are in the query string exactly when truthy, and nothing else is |
| UseNotes.FetchError | src/hooks/use-notes.ts:20-26 | no error exactly on success; a non-ok reply gives "Failed to fetch notes"; a thrown `Error` its message; anything else "An error occurred" |
| UseNotes.ReplaceById | src/hooks/use-notes.ts:58-60 | same length; entries with the id become the new note, all others are unchanged in place |
| UseNotes.RemoveById | src/hooks/use-notes.ts:70 | a note remains exactly when it was there and has another id |
| UseNotes.FindById | src/hooks/use-notes.ts:78 | `find`: the first note with the id, or none exactly when no note has it |
| UseNotes.RemoveByIdAppend | src/hooks/use-notes.ts:70 | removal works piecewise, so the survivors keep their order |
| UseNotes.DeleteUndoesCreate | src/hooks/use-notes.ts:45-70 | deleting a note just prepended (with a fresh id) restores the list |
| UseNotes.DeleteAfterUpdate | src/hooks/use-notes.ts:58-70 | deleting after an update gives what deleting alone gives |
| UseNotes.UpdateTwice | src/hooks/use-notes.ts:58-60 | a second update of the same id overrides the first |
| UseNotes.DeleteIdempotent | src/hooks/use-notes.ts:70 | deleting twice is deleting once |
| UseNotes.NotesHook.constructor | src/hooks/use-notes.ts:7-9 | no notes, loading, no error |
| UseNotes.NotesHook.BeginFetch | src/hooks/use-notes.ts:12-13 | loading starts and the error clears; the list is kept |
| UseNotes.NotesHook.EndFetch | src/hooks/use-notes.ts:20-29 | the list is replaced only on success, the error set otherwise, loading ends either way |
| UseNotes.NotesHook.FetchNotes | src/hooks/use-notes.ts:11-30 | afterwards not loading, the error is the failure's message (none on success) and the list is the reply or the old list |
| UseNotes.NotesHook.CreateNote | src/hooks/use-notes.ts:36-47 | on success the server's note is prepended; otherwise nothing changes |
| UseNotes.NotesHook.UpdateNote | src/hooks/use-notes.ts:49-62 | on success every entry with the id becomes the server's note; otherwise nothing changes |
| UseNotes.NotesHook.DeleteNote | src/hooks/use-notes.ts:64-71 | an ok reply removes every entry with the id; otherwise nothing changes |
| UseNotes.NotesHook.ToggleFavorite | src/hooks/use-notes.ts:73-75 | the given flag is sent as it is; on success the reply replaces every entry with that id, otherwise the list is unchanged; loading and error are unchanged |
| UseNotes.NotesHook.ArchiveNote | src/hooks/use-notes.ts:77-82 | the negation of the listed note's archive flag is sent; an unknown id sends nothing and changes nothing; the list takes the reply exactly when a patch was sent and succeeded; loading and error are unchanged |
| UsePush.UrlBase64ToUint8Array | src/hooks/use-push.ts:7-16 | the array exists exactly when the padded, normalised key decodes, and holds exactly the decoded bytes |
| UsePush.Posts | src/hooks/use-push.ts:46-69 | definition: the subscription is posted once permission is granted and the existing one is found, or a new one is made from a decodable key |
| UsePush.SubscribeResult | src/hooks/use-push.ts:22-75 | missing key and missing support are errors with their messages; "denied" gives denied, another non-granted answer prompt; subscribed exactly when the subscription was posted; an error message exactly with the error status |
| UsePush.ResponseStatusIgnored | src/hooks/use-push.ts:63-69 | the subscribe route's status does not affect the result |
| UsePush.ExistingSkipsKey | src/hooks/use-push.ts:46-56 | with an existing subscription the key is never decoded, so even a malformed key subscribes |
| UsePush.PushHook.constructor | src/hooks/use-push.ts:19-20 | status idle, no error |
| UsePush.PushHook.Subscribe | src/hooks/use-push.ts:22-75 | the status and error left behind are those `SubscribeResult` describes |
| UsePush.PushHook.SendTest | src/hooks/use-push.ts:77-92 | a failure sets "Failed to send test notification"; the status never changes and success does not clear an earlier error |
| Base64.StripWhitespace | src/hooks/use-push.ts:10 | `atob`'s first step: the result has no ASCII whitespace, and input without any is unchanged |
| Base64.StripPadding | src/hooks/use-push.ts:10 | removes a prefix-preserving tail of at most two "=", only when the length is a multiple of four, and always removes a final "=" then, and both of two final "=" |
| Base64.Atob | src/hooks/use-push.ts:10 | `atob` (forgiving base64): succeeds exactly when, after whitespace and up to two final "=" are removed, the length is not 1 mod 4 and every character is in the alphabet |
| Base64.DecodeEncodeSextets | src/hooks/use-push.ts:10 | decoding the sextets of any bytes gives the bytes back |
| Base64.AtobEncode | src/hooks/use-push.ts:10 | `atob` inverts standard padded base64 (section 4 of RFC 4648) |
| Base64.StripPaddingOf | src/hooks/use-push.ts:8-10 | at most two "=" appended to alphabet characters up to a multiple of four are removed again |
| Base64.Padding | src/hooks/use-push.ts:8 | `(4 - len % 4) % 4`: fewer than four, and the padded length is a multiple of four |
| Base64.FromUrlSafe | src/hooks/use-push.ts:9 | maps the URL-safe alphabet onto the standard one ("-" and "_" join the alphabet) and undoes the URL-safe mapping on every character it can produce |
| Base64.MapChars | src/hooks/use-push.ts:9 | the two `replace` calls map each character in place and keep the length |
| Base64.UrlBase64ToBytes | src/hooks/use-push.ts:8-10 | a key of URL-safe or standard alphabet characters decodes exactly when its length is not 1 mod 4 |
| Base64.PaddedKeyDecodes | src/hooks/use-push.ts:8-10 | padding and mapping such a key, then `atob`, succeeds exactly when its length is not 1 mod 4 |
| Base64.UrlRoundTrip | src/hooks/use-push.ts:7-16 | the conversion decodes the unpadded URL-safe encoding (section 5 of RFC 4648) of any bytes back to those bytes |
| Base64.OneOverIsError | src/hooks/use-push.ts:8-10 | a key of length 1 mod 4 never decodes: the three "=" added cannot all be removed |
| NoteEditor.CreateTitle | src/components/notes/note-editor-client.tsx:68 | `title \|\| "Untitled"`: never empty, the title itself when non-empty |
| NoteEditor.SaveBranch | src/components/notes/note-editor-client.tsx:63-95 | create exactly for a new note without an id; update exactly when an id is set; neither otherwise |
| NoteEditor.Editor.constructor | src/components/notes/note-editor-client.tsx:23-31 | title, id and summary from the note; content the note's when it is an array or any other truthy value, else one empty paragraph; nothing unsaved, nothing pending |
| NoteEditor.Editor.TitleChange | src/components/notes/note-editor-client.tsx:109-112 | the title is set and the changes count as unsaved; notices, location, summary and both busy flags are unchanged |
| NoteEditor.Editor.ContentChange | src/components/notes/note-editor-client.tsx:114-117 | the content is set and the changes count as unsaved; notices, location, summary and both busy flags are unchanged |
| NoteEditor.Editor.AutosaveEffect | src/components/notes/note-editor-client.tsx:53-57 | with unsaved changes and an id the debounced call is replaced by one with the current data; otherwise nothing changes; location, summary and both busy flags are never touched |
| NoteEditor.Editor.FireAutosave | src/components/notes/note-editor-client.tsx:34-50 | the waiting call sends its own data when it has an id; a resolved request, even non-ok, clears the unsaved flag, a thrown one keeps it; location, summary and both busy flags are unchanged |
| NoteEditor.Editor.BeginSave | src/components/notes/note-editor-client.tsx:60 | saving starts; the pending call, location, summary and the summarising flag are unchanged |
| NoteEditor.Editor.FinishSave | src/components/notes/note-editor-client.tsx:62-106 | create sends title `\|\| "Untitled"` and on success adopts the id and navigates; update sends the current data; a failure shows an error and keeps the flag; with neither branch the flag clears; saving ends; the location changes only on a successful create; summary and the summarising flag are unchanged |
| NoteEditor.Editor.HandleSave | src/components/notes/note-editor-client.tsx:59-107 | the whole save from the state before it: create, update or neither as in `FinishSave`, with the request sent, the adopted id, the navigation and the notices of each branch; the unsaved flag is cleared unless the branch taken failed; afterwards not saving; title, content, pending call, summary and the summarising flag are unchanged |
| NoteEditor.Editor.AiSummarize | src/components/notes/note-editor-client.tsx:119-156 | without an id only "save first" is shown, nothing is sent and the summary and summarising flag are untouched; otherwise the id and content are posted, a successful summary is shown and summarising ends; the pending call, location and saving flag are unchanged |
| NoteEditor.EditThenAutosave | src/components/notes/note-editor-client.tsx:34-57 | an edit of a note with an id is sent by the autosave with the edited title, and a resolved request clears the flag |
| SlashCommandMenu.FilterItems | src/components/editor/slash-command-menu.tsx:18-21 | the filtered list is no longer than the menu |
| SlashCommandMenu.FilterItemsSelects | src/components/editor/slash-command-menu.tsx:18-21 | the filtered items are exactly the menu's items whose label or description contains the search, ignoring case |
| SlashCommandMenu.DropLast | src/components/editor/slash-command-menu.tsx:27-30 | deleting backwards `n` times leaves the text minus its last `n` characters (or nothing) |
| SlashCommandMenu.EmptySearchKeepsAll | src/components/editor/slash-command-menu.tsx:18-21 | an empty search keeps every item in menu order |
| SlashCommandMenu.Trigger | src/components/editor/slash-command-menu.tsx:78-90 | a search is found only after the last "/" before the cursor, when that slash starts the text or follows a space or line break |
| SlashCommandMenu.TriggerFinds | src/components/editor/slash-command-menu.tsx:83-92 | conversely, such a slash followed by slash-free text yields that text as the search |
| SlashCommandMenu.NoTriggerInsideWord | src/components/editor/slash-command-menu.tsx:89-90 | a slash glued to another character opens nothing |
| SlashCommandMenu.Menu.constructor | src/components/editor/slash-command-menu.tsx:11-13 | closed, empty search, first item selected |
| SlashCommandMenu.Menu.CheckForSlashCommand | src/components/editor/slash-command-menu.tsx:74-114 | a trigger opens the menu on its search with the first item selected; no trigger closes it and clears the search |
| SlashCommandMenu.Menu.ExecuteCommand | src/components/editor/slash-command-menu.tsx:23-71 | with an editor selection: search length + 1 characters deleted, the item's block type applied, menu closed and reset; without one nothing changes |
| SlashCommandMenu.Menu.KeyDown | src/components/editor/slash-command-menu.tsx:127-155 | closed: nothing changes; Escape closes and clears the search; the arrows move with wrap-around (up from 0 on an empty list gives -1); Enter/Tab apply the selected item only when the list is non-empty and the editor has a selection, else nothing changes; Backspace re-checks the trigger; other keys change nothing; only Enter/Tab touch the editor |
| SlashCommandMenu.Menu.MoveSelection | src/components/editor/slash-command-menu.tsx:135-146 | ArrowDown moves to the next item, from the last back to the first; ArrowUp to the previous, from the first to the last; nothing else changes |
| SlashCommandMenu.Menu.KeyUp | src/components/editor/slash-command-menu.tsx:117-125 | navigation keys of an open menu change nothing; any other key re-checks the trigger: a trigger opens the menu on its search with the first item selected, none closes it and clears the search |
| SlashCommandMenu.Menu.HoverItem | src/components/editor/slash-command-menu.tsx:213 | hovering an item selects it |
| SlashCommandMenu.Menu.PressItem | src/components/editor/slash-command-menu.tsx:209-212 | with an editor selection, pressing an item applies that item whatever is highlighted, removes the typed "/" and query from the text and closes and resets the menu; without one nothing changes |
| SlashCommandMenu.Menu.ClickOutside | src/components/editor/slash-command-menu.tsx:166-186 | when the menu is drawn (open with a non-empty list) it closes and the search clears; when it is not drawn the element is not mounted and nothing changes |
| SlashCommandMenu.Menu.ClampSelection | src/components/editor/slash-command-menu.tsx:180-184 | an index at or past the end moves to `max(0, length - 1)`; others stay |
| SlashCommandMenu.TypeAndPick | src/components/editor/slash-command-menu.tsx:74-155 | typing "/search" where it may open and pressing Enter removes the slash and search and applies the first match |
| VoiceRecorder.FailureToast | src/components/notes/voice-note-recorder.tsx:226-243 | "quota" or "429" in the message gives the quota notice first; else "rate limit" the rate-limit notice; else the message itself; a non-`Error` gives the generic notice |
| VoiceRecorder.FailureMessage | src/components/notes/voice-note-recorder.tsx:205-235 | a rejected reply always raises a non-empty message: its `error` when truthy, else "Transcription failed"; a thrown request keeps its own message |
| VoiceRecorder.ServerQuotaReplyIsQuotaNotice | src/components/notes/voice-note-recorder.tsx:205-236 | the transcription route's quota reply reaches the user as the quota notice |
| VoiceRecorder.FormatDuration | src/components/notes/voice-note-recorder.tsx:254-258 | minutes in canonical decimal (no leading zero), a colon, two digits: minutes * 60 + seconds reads back as the duration, with the seconds below 60 |
| VoiceRecorder.TwoDigits | src/components/notes/voice-note-recorder.tsx:257 | seconds below 60 padded to two characters are their tens and units digits |
| VoiceRecorder.DigitPairValue | src/components/notes/voice-note-recorder.tsx:257 | those two digits read back as the number |
| VoiceRecorder.WarningCountdown | src/components/notes/voice-note-recorder.tsx:398-404 | in every valid recorder state in which the warning shows (recording, past 540 s), the seconds remaining are between 0 and 59 |
| VoiceRecorder.Recorder.constructor | src/components/notes/voice-note-recorder.tsx:27-29 | idle, zero duration, no audio |
| VoiceRecorder.Recorder.StartRecording | src/components/notes/voice-note-recorder.tsx:86-140 | without the microphone only the denial notice is shown; otherwise recording starts with the timer, whose callback keeps the idle state it saw |
| VoiceRecorder.Recorder.StopRecordingSeen | src/components/notes/voice-note-recorder.tsx:142-162 | acts only when a recorder exists and the state it sees is recording: stopped, timer off, audio kept |
| VoiceRecorder.Recorder.Stop | src/components/notes/voice-note-recorder.tsx:142-162 | the stop button moves a recording to stopped with its audio |
| VoiceRecorder.Recorder.TickAsWritten | src/components/notes/voice-note-recorder.tsx:119-131 | as written: below the cap the duration grows by one; at the cap it stays at 600, the notice repeats and the recording goes on |
| VoiceRecorder.Recorder.Tick | src/components/notes/voice-note-recorder.tsx:119-131 | corrected: below the cap the duration grows by one; at the cap the recording stops with its audio and the notice once |
| VoiceRecorder.Recorder.Discard | src/components/notes/voice-note-recorder.tsx:179-187 | back to idle, duration 0, no audio |
| VoiceRecorder.Recorder.BeginTranscribe | src/components/notes/voice-note-recorder.tsx:189-192 | with audio, the request starts |
| VoiceRecorder.Recorder.FinishTranscribe | src/components/notes/voice-note-recorder.tsx:194-251 | success delivers the transcript, shows the language (default "auto") and resets to idle; failure shows its notice and returns to stopped with the audio kept |
| VoiceRecorder.AsWrittenOverrun | src/components/notes/voice-note-recorder.tsx:119-131 | as written, after 605 ticks it is still recording at 600 s with the notice shown five times |
| VoiceRecorder.CorrectedStopsAtCap | src/components/notes/voice-note-recorder.tsx:119-131 | corrected, the 601st tick stops the recording at 600 s with the notice shown once |

## Left out

- Network, storage and identity are parameters rather than calls. This covers the identity provider, the database, `fetch`, blob storage, the speech, embedding and language models, and the push service. Database calls always succeed except `Store.Db.UpdateSummary` on a missing row. A thrown `findMany`, `create` or `upsert` (a 500 or a failure redirect in the source) is not modelled.
- Floating point: similarity is an exact real, and `Math.round` is exact rounding of a real. Cosine similarity, the transcription route's `estimatedDuration` and the recorder's waveform sampling are not modelled.
- Timers: the debounce is a single pending slot in which the last call wins, and `FireAutosave` is its timer running out. The recorder's interval is one `Tick` per second. The slash menu's 10 ms `setTimeout` before re-checking the trigger is an immediate call.
- Case folding covers ASCII letters only. This applies to `toLowerCase` and to the database's case-insensitive `contains`.
- Lengths are counted in Dafny characters, not UTF-16 code units. This affects the 50-character summary minimum and the 8000-character embedding cut.
- Ties in `updatedAt` keep storage order. The database leaves their order unspecified; the model's sort is stable.
- JSON shapes: only "parses" and "does not parse" are modelled. A body that parses to a non-object, or a `query` that is not a string, is not. The `tags` of a created note and the `folder` and `tags` relations included in replies are left out.
- The share form's file entries are left out. Its fields are strings or absent.
- The system prompts of the model calls and the streaming of the completion are left out. `CompleteRoute.Complete` returns the prompt the stream is opened with.
- The share route's fallback for an empty block list is not modelled, because the heading is always pushed first.
- `PushTestRoute.PushTest` takes the caller's subscriptions as the list the database query returns. The JSON encoding of the payload is not modelled.
- `SearchRoute.SearchBody`: `useAi` is an optional boolean, so the truthiness of `if (useAi)` (src/app/api/ai/search/route.ts:32) is modelled only for `true`, `false` and an absent field; other JSON values are not.
- `TranscribeRoute`: an `audio` form entry that is a string rather than a file is not modelled; the entry is a file or absent (src/app/api/ai/transcribe/route.ts:20-48).
- `SearchRoute.TiesKeepCandidateOrder`: the candidate query (src/app/api/ai/search/route.ts:73-83) has no `orderBy`, so the database fixes no order; the model takes the candidates in storage order, and the tie lemma is about that order.
- `ServiceWorker.OnNotificationClick` does not model closing the notification or `waitUntil`. Whether a client has `focus` is a boolean of the client.
- `VoiceRecorder.Recorder.StopRecordingSeen`: the recorder's `onstop` event (src/components/notes/voice-note-recorder.tsx:104-112), which stores the audio, is taken as immediate, so the audio exists as soon as the state is stopped. The window in which the state is already "stopped" but no audio is stored yet, where the transcribe button returns without starting (:190), is not modelled.
- In the recorder, playback, the waveform animation, object URLs, recorded chunks, the MIME type choice and the `onCancel` callback are left out. The recorder keeps only whether audio exists.
- The slash menu's screen position is left out. The editor is reduced to the text before the cursor and the list of applied block types, so the per-type node insertions of `executeCommand` appear only as the block type applied. `SlashCommandMenu.Menu.constructor` takes the item list as a parameter, and the application's list is the constant `Items`, taken from `src/components/editor/slash-menu.tsx`.
- The note editor's "coming soon" completion button, which only shows a notice, is not modelled. `router.replace` is the editor's `location` field.
- `UsePush.PushHook.SendTest`: the error body it parses on a failed reply is not modelled, since its message is discarded.
- `SlashCommandMenu.FilterItems` states only the length bound in its own contract. Membership in both directions is `SlashCommandMenu.FilterItemsSelects`.
- `PlateComponents.LinkElement`: spreading a value that is not a plain object adds no attributes. Spreading a string, which would add its indexed characters, is not modelled.
- `Listing.Filter` states membership and a multiset bound in its contract. That every kept element is an input element is `Listing.FilterFrom`, and order preservation is `Listing.FilterAppend`.

## Findings

| source | as written | input that shows it | evidently intended | confidence | as-written member | corrected member |
|---|---|---|---|---|---|---|
| src/components/notes/voice-note-recorder.tsx:119-131 | The one-second interval calls the `stopRecording` of the render in which recording started. That function's `state` is still "idle", so at 600 s its guard fails and nothing stops. The duration stays at 600, the "Maximum duration" notice repeats every second, and recording continues. | A recording left running for 605 seconds | The recording stops at 600 s, with the timer cleared, the audio kept and the notice shown once | high; not executed | VoiceRecorder.AsWrittenOverrun | VoiceRecorder.CorrectedStopsAtCap |

=== FILE: app_sidebar.dfy ===
/** The sidebar's folder tree: which folders are expanded. */
module AppSidebar {

  /** `toggleFolder`: the folder's membership in the expanded set flips. */
  function ToggleFolder(expanded: set<string>, folderId: string): (r: set<string>)
    ensures folderId in r <==> folderId !in expanded
    ensures forall f :: f != folderId ==> (f in r <==> f in expanded)
  {
    if folderId in expanded then expanded - {folderId} else expanded + {folderId}
  }

  /** Toggling the same folder twice restores the set. */
  lemma ToggleTwice(expanded: set<string>, folderId: string)
    ensures ToggleFolder(ToggleFolder(expanded, folderId), folderId) == expanded
  {
  }

  /** Toggles of different folders commute. */
  lemma ToggleCommutes(expanded: set<string>, a: string, b: string)
    ensures ToggleFolder(ToggleFolder(expanded, a), b) == ToggleFolder(ToggleFolder(expanded, b), a)
  {
  }
}

=== FILE: base64.dfy ===
/**
 * Base64 as the browser's `atob` decodes it (the "forgiving-base64 decode"
 * algorithm of the WHATWG Infra Standard), the encoder it inverts, and the
 * URL-safe variant the push hook converts from.
 */
module Base64 {
  import opened Wrappers

  type Byte = b: int | 0 <= b < 256

  // ---------------------------------------------------------------------
  // The alphabet
  // ---------------------------------------------------------------------

  /** ASCII whitespace: tab, line feed, form feed, carriage return, space. */
  predicate IsAsciiWhitespace(c: char) {
    c == '\t' || c == '\n' || c == '\U{000C}' || c == '\r' || c == ' '
  }

  predicate IsAlphabet(c: char) {
    ('A' <= c <= 'Z') || ('a' <= c <= 'z') || ('0' <= c <= '9') || c == '+' || c == '/'
  }

  predicate AllAlphabet(s: string) {
    forall i :: 0 <= i < |s| ==> IsAlphabet(s[i])
  }

  /** The six-bit value of an alphabet character. */
  function SextetOf(c: char): (v: nat)
    requires IsAlphabet(c)
    ensures v < 64
  {
    if 'A' <= c <= 'Z' then c as int - 'A' as int
    else if 'a' <= c <= 'z' then c as int - 'a' as int + 26
    else if '0' <= c <= '9' then c as int - '0' as int + 52
    else if c == '+' then 62
    else 63
  }

  /** The alphabet character of a six-bit value; `SextetOf` inverts it. */
  function CharOf(v: nat): (c: char)
    requires v < 64
    ensures IsAlphabet(c) && SextetOf(c) == v
  {
    if v < 26 then ('A' as int + v) as char
    else if v < 52 then ('a' as int + v - 26) as char
    else if v < 62 then ('0' as int + v - 52) as char
    else if v == 62 then '+'
    else '/'
  }

  predicate AllSextets(v: seq<nat>) {
    forall i :: 0 <= i < |v| ==> v[i] < 64
  }

  function Sextets(s: string): (v: seq<nat>)
    requires AllAlphabet(s)
    ensures |v| == |s| && AllSextets(v)
  {
    if s == [] then [] else [SextetOf(s[0])] + Sextets(s[1..])
  }

  function Chars(v: seq<nat>): (s: string)
    requires AllSextets(v)
    ensures |s| == |v| && AllAlphabet(s)
  {
    if v == [] then [] else [CharOf(v[0])] + Chars(v[1..])
  }

  lemma {:induction false} SextetsOfChars(v: seq<nat>)
    requires AllSextets(v)
    ensures Sextets(Chars(v)) == v
  {
    if v != [] {
      SextetsOfChars(v[1..]);
      assert Chars(v)[1..] == Chars(v[1..]);
    }
  }

  // ---------------------------------------------------------------------
  // Bits
  // ---------------------------------------------------------------------

  /**
   * One group: two, three or four sextets make one, two or three bytes,
   * the leftover low bits of a short group being dropped.
   */
  function DecodeGroup(v: seq<nat>): (b: seq<Byte>)
    requires 2 <= |v| <= 4 && AllSextets(v)
    ensures |b| == |v| - 1
  {
    if |v| == 2 then [v[0] * 4 + v[1] / 16]
    else if |v| == 3 then [v[0] * 4 + v[1] / 16, (v[1] % 16) * 16 + v[2] / 4]
    else [v[0] * 4 + v[1] / 16, (v[1] % 16) * 16 + v[2] / 4, (v[2] % 4) * 64 + v[3]]
  }

  /** One group: one, two or three bytes make two, three or four sextets, a short group padded with zero bits. */
  function EncodeGroup(b: seq<Byte>): (v: seq<nat>)
    requires 1 <= |b| <= 3
    ensures |v| == |b| + 1 && AllSextets(v)
  {
    if |b| == 1 then [b[0] / 4, (b[0] % 4) * 16]
    else if |b| == 2 then [b[0] / 4, (b[0] % 4) * 16 + b[1] / 16, (b[1] % 16) * 4]
    else [b[0] / 4, (b[0] % 4) * 16 + b[1] / 16, (b[1] % 16) * 4 + b[2] / 64, b[2] % 64]
  }

  /** Sextets to bytes, four at a time. */
  function DecodeSextets(v: seq<nat>): (b: seq<Byte>)
    requires AllSextets(v) && |v| % 4 != 1
    decreases |v|
  {
    if |v| == 0 then []
    else if |v| <= 4 then DecodeGroup(v)
    else DecodeGroup(v[..4]) + DecodeSextets(v[4..])
  }

  /** Bytes to sextets, three at a time. */
  function EncodeSextets(b: seq<Byte>): (v: seq<nat>)
    ensures AllSextets(v)
    ensures |v| % 4 == (if |b| % 3 == 0 then 0 else |b| % 3 + 1)
    ensures |v| == 0 <==> |b| == 0
    decreases |b|
  {
    if |b| == 0 then []
    else if |b| <= 3 then EncodeGroup(b)
    else
      var tail := EncodeSextets(b[3..]);
      ModShift(|tail|, |b| - 3);
      EncodeGroup(b[..3]) + tail
  }

  lemma ModShift(x: nat, y: nat)
    ensures (x + 4) % 4 == x % 4 && (y + 3) % 3 == y % 3
  {
  }

  /** The bits of one, two or three bytes survive the trip through a group of sextets. */
  lemma GroupRoundTrip(b: seq<Byte>)
    requires 1 <= |b| <= 3
    ensures DecodeGroup(EncodeGroup(b)) == b
  {
    if |b| == 1 {
      RoundTripOfOne(b);
    } else if |b| == 2 {
      RoundTripOfTwo(b);
    } else {
      RoundTripOfThree(b);
    }
  }

  lemma RoundTripOfOne(b: seq<Byte>)
    requires |b| == 1
    ensures DecodeGroup(EncodeGroup(b)) == b
  {
    var b0 := b[0];
    BitsOfOne(b0);
    var v := EncodeGroup(b);
    assert v == [b0 / 4, (b0 % 4) * 16];
    var d := DecodeGroup(v);
    assert d == [v[0] * 4 + v[1] / 16];
    assert d[0] == b0;
  }

  lemma RoundTripOfTwo(b: seq<Byte>)
    requires |b| == 2
    ensures DecodeGroup(EncodeGroup(b)) == b
  {
    var b0, b1 := b[0], b[1];
    BitsOfTwo(b0, b1);
    var v := EncodeGroup(b);
    var d := DecodeGroup(v);
    assert d[0] == b0 && d[1] == b1;
  }

  lemma RoundTripOfThree(b: seq<Byte>)
    requires |b| == 3
    ensures DecodeGroup(EncodeGroup(b)) == b
  {
    var b0, b1, b2 := b[0], b[1], b[2];
    BitsOfThree(b0, b1, b2);
    var v := EncodeGroup(b);
    var d := DecodeGroup(v);
    assert d[0] == b0 && d[1] == b1 && d[2] == b2;
  }

  lemma BitsOfThree(b0: Byte, b1: Byte, b2: Byte)
    ensures (b0 / 4) * 4 + ((b0 % 4) * 16 + b1 / 16) / 16 == b0
    ensures (((b0 % 4) * 16 + b1 / 16) % 16) * 16 + ((b1 % 16) * 4 + b2 / 64) / 4 == b1
    ensures (((b1 % 16) * 4 + b2 / 64) % 4) * 64 + b2 % 64 == b2
  {
  }

  lemma BitsOfTwo(b0: Byte, b1: Byte)
    ensures (b0 / 4) * 4 + ((b0 % 4) * 16 + b1 / 16) / 16 == b0
    ensures (((b0 % 4) * 16 + b1 / 16) % 16) * 16 + ((b1 % 16) * 4) / 4 == b1
  {
  }

  lemma BitsOfOne(b0: Byte)
    ensures (b0 / 4) * 4 + ((b0 % 4) * 16) / 16 == b0
  {
  }

  /** The two parts of a concatenation are recovered by slicing it where they meet. */
  lemma SliceAppend<T>(x: seq<T>, y: seq<T>)
    ensures (x + y)[..|x|] == x && (x + y)[|x|..] == y
  {
  }

  lemma {:induction false} DecodeEncodeSextets(b: seq<Byte>)
    ensures |EncodeSextets(b)| % 4 != 1
    ensures DecodeSextets(EncodeSextets(b)) == b
    decreases |b|
  {
    if 1 <= |b| <= 3 {
      GroupRoundTrip(b);
    } else if |b| > 3 {
      DecodeEncodeSextets(b[3..]);
      DecodeEncodeStep(b);
    }
  }

  lemma DecodeEncodeStep(b: seq<Byte>)
    requires |b| > 3
    requires DecodeSextets(EncodeSextets(b[3..])) == b[3..]
    ensures DecodeSextets(EncodeSextets(b)) == b
  {
    var head := EncodeGroup(b[..3]);
    var tail := EncodeSextets(b[3..]);
    var v := EncodeSextets(b);
    assert v == head + tail;
    SliceAppend(head, tail);
    GroupRoundTrip(b[..3]);
    assert DecodeSextets(v) == DecodeGroup(v[..4]) + DecodeSextets(v[4..]);
    assert DecodeSextets(v) == b[..3] + b[3..];
    SliceAppend(b[..3], b[3..]);
    assert b[..3] + b[3..] == b;
  }

  // ---------------------------------------------------------------------
  // atob and the encoder
  // ---------------------------------------------------------------------

  function StripWhitespace(s: string): (r: string)
    ensures forall i :: 0 <= i < |r| ==> !IsAsciiWhitespace(r[i])
    ensures (forall i :: 0 <= i < |s| ==> !IsAsciiWhitespace(s[i])) ==> r == s
  {
    if s == [] then []
    else if IsAsciiWhitespace(s[0]) then StripWhitespace(s[1..])
    else [s[0]] + StripWhitespace(s[1..])
  }

  /** When the length is a multiple of four, one or two final '=' are removed. */
  function StripPadding(s: string): (r: string)
    ensures |s| - 2 <= |r| <= |s| && r == s[..|r|]
    ensures forall i :: |r| <= i < |s| ==> s[i] == '='
    ensures |r| < |s| ==> |s| % 4 == 0
    ensures |s| % 4 == 0 && |s| >= 1 && s[|s| - 1] == '=' ==> |r| < |s|
    ensures |s| % 4 == 0 && |s| >= 2 && s[|s| - 1] == '=' && s[|s| - 2] == '=' ==> |r| == |s| - 2
  {
    if |s| % 4 == 0 && |s| >= 2 && s[|s| - 1] == '=' && s[|s| - 2] == '=' then s[..|s| - 2]
    else if |s| % 4 == 0 && |s| >= 1 && s[|s| - 1] == '=' then s[..|s| - 1]
    else s
  }

  /**
   * `atob`: whitespace is dropped, padding stripped; a length of the form
   * 4k+1 or a character outside the alphabet is an error (`None`);
   * otherwise the decoded bytes.
   */
  function Atob(s: string): (r: Option<seq<Byte>>)
    ensures r.Some? <==>
              |StripPadding(StripWhitespace(s))| % 4 != 1 && AllAlphabet(StripPadding(StripWhitespace(s)))
  {
    var t := StripPadding(StripWhitespace(s));
    if |t| % 4 == 1 || !AllAlphabet(t) then None
    else Some(DecodeSextets(Sextets(t)))
  }

  /** The number of '=' the padded encoding of `n` bytes ends with. */
  function PadCount(n: nat): nat {
    if n % 3 == 0 then 0 else 3 - n % 3
  }

  /** Standard base64 with padding. */
  function Encode(b: seq<Byte>): (s: string)
    ensures |s| % 4 == 0
  {
    Chars(EncodeSextets(b)) + seq(PadCount(|b|), _ => '=')
  }

  /** `atob` inverts the encoder. */
  lemma AtobEncode(b: seq<Byte>)
    ensures Atob(Encode(b)) == Some(b)
  {
    var v := EncodeSextets(b);
    var body := Chars(v);
    var s := Encode(b);
    assert forall i :: 0 <= i < |s| ==> !IsAsciiWhitespace(s[i]) by {
      forall i | 0 <= i < |s| ensures !IsAsciiWhitespace(s[i]) {
        if i < |body| { assert s[i] == body[i]; } else { assert s[i] == '='; }
      }
    }
    assert StripWhitespace(s) == s;
    StripPaddingOfEncode(b);
    DecodeEncodeSextets(b);
    SextetsOfChars(v);
  }

  /** Stripping the padding of an encoding leaves its sextet characters. */
  lemma StripPaddingOfEncode(b: seq<Byte>)
    ensures StripPadding(Encode(b)) == Chars(EncodeSextets(b))
  {
    var body := Chars(EncodeSextets(b));
    var p := PadCount(|b|);
    assert Encode(b) == body + seq(p, _ => '=');
    StripPaddingOf(body, p);
  }

  /** `StripPadding` removes the '=' appended to alphabet characters, when there are at most two. */
  lemma StripPaddingOf(body: string, p: nat)
    requires AllAlphabet(body) && p <= 2 && (|body| + p) % 4 == 0
    requires p > 0 ==> body != []
    ensures StripPadding(body + seq(p, _ => '=')) == body
  {
    var s := body + seq(p, _ => '=');
    if p == 0 {
      assert s == body;
      if |s| >= 1 {
        assert !IsAlphabet('=');
        assert s[|s| - 1] == body[|body| - 1];
      }
    } else if p == 1 {
      assert s[..|s| - 1] == body;
      assert s[|s| - 2] == body[|body| - 1];
    } else {
      assert s[..|s| - 2] == body;
    }
  }

  // ---------------------------------------------------------------------
  // URL-safe base64
  // ---------------------------------------------------------------------

  /** The '=' characters appended: enough to reach a multiple of four. */
  function Padding(n: nat): (p: nat)
    ensures p < 4 && (n + p) % 4 == 0
  {
    (4 - n % 4) % 4
  }

  /**
   * `.replace(/-/g, "+").replace(/_/g, "/")` on one character: it maps the
   * URL-safe alphabet onto the standard one and undoes `ToUrlSafe` on every
   * character `ToUrlSafe` can produce.
   */
  function FromUrlSafe(c: char): (r: char)
    ensures IsAlphabet(r) <==> IsAlphabet(c) || c == '-' || c == '_'
    ensures c != '+' && c != '/' ==> ToUrlSafe(r) == c
  {
    if c == '-' then '+' else if c == '_' then '/' else c
  }

  function ToUrlSafe(c: char): char {
    if c == '+' then '-' else if c == '/' then '_' else c
  }

  function MapChars(s: string, f: char -> char): (r: string)
    ensures |r| == |s| && forall i :: 0 <= i < |s| ==> r[i] == f(s[i])
  {
    if s == [] then [] else [f(s[0])] + MapChars(s[1..], f)
  }

  /**
   * `urlBase64ToUint8Array` up to the copy into an array: pad with '=',
   * map the URL-safe characters back, decode with `atob`.
   */
  function UrlBase64ToBytes(s: string): (r: Option<seq<Byte>>)
    ensures (forall i :: 0 <= i < |s| ==> IsAlphabet(FromUrlSafe(s[i]))) ==> (r.Some? <==> |s| % 4 != 1)
  {
    var r := Atob(MapChars(s + seq(Padding(|s|), _ => '='), FromUrlSafe));
    if forall i :: 0 <= i < |s| ==> IsAlphabet(FromUrlSafe(s[i])) then
      PaddedKeyDecodes(s);
      r
    else r
  }

  /**
   * A key made of URL-safe (or standard) alphabet characters, padded and
   * mapped, decodes exactly when its length is not 1 mod 4: up to two '='
   * are stripped again, while the three added to a 4k+1 key leave one.
   */
  lemma PaddedKeyDecodes(s: string)
    requires forall i :: 0 <= i < |s| ==> IsAlphabet(FromUrlSafe(s[i]))
    ensures Atob(MapChars(s + seq(Padding(|s|), _ => '='), FromUrlSafe)).Some? <==> |s| % 4 != 1
  {
    var p := Padding(|s|);
    var body := MapChars(s, FromUrlSafe);
    MapPadded(s, p);
    assert AllAlphabet(body);
    PaddedDecodes(body, p);
  }

  /** The same, for the key already mapped onto the standard alphabet. */
  lemma PaddedDecodes(body: string, p: nat)
    requires AllAlphabet(body) && p == Padding(|body|)
    ensures Atob(body + seq(p, _ => '=')).Some? <==> |body| % 4 != 1
  {
    if |body| % 4 == 1 {
      assert p == 3;
      AlphabetHasNoWhitespace(body);
      OneOverFails(body);
    } else {
      assert p <= 2 && (p > 0 ==> body != []);
      PaddedBodyDecodes(body, p);
    }
  }

  /** Alphabet characters padded with at most two '=' to a multiple of four decode. */
  lemma PaddedBodyDecodes(body: string, p: nat)
    requires AllAlphabet(body) && p <= 2 && (|body| + p) % 4 == 0
    requires p > 0 ==> body != []
    ensures Atob(body + seq(p, _ => '=')).Some?
  {
    AlphabetHasNoWhitespace(body);
    PaddedHasNoWhitespace(body, p);
    StripPaddingOf(body, p);
  }

  /** Whitespace-free 4k+1 characters and three '=' never decode. */
  lemma OneOverFails(body: string)
    requires forall i :: 0 <= i < |body| ==> !IsAsciiWhitespace(body[i])
    requires |body| % 4 == 1
    ensures Atob(body + seq(3, _ => '=')).None?
  {
    PaddedHasNoWhitespace(body, 3);
    OneLeftOver(body);
  }

  /** Three '=' after 4k+1 alphabet characters: two are stripped and one is left, outside the alphabet. */
  lemma OneLeftOver(body: string)
    requires |body| % 4 == 1
    ensures !AllAlphabet(StripPadding(body + seq(3, _ => '=')))
  {
    var mapped := body + seq(3, _ => '=');
    assert mapped[|mapped| - 1] == '=' && mapped[|mapped| - 2] == '=' && mapped[|mapped| - 3] == '=';
    var t := StripPadding(mapped);
    assert t == mapped[..|mapped| - 2];
    assert t[|t| - 1] == '=';
  }

  /** Alphabet characters and '=' hold no whitespace for `atob` to drop. */
  lemma PaddedHasNoWhitespace(body: string, p: nat)
    requires forall i :: 0 <= i < |body| ==> !IsAsciiWhitespace(body[i])
    ensures StripWhitespace(body + seq(p, _ => '=')) == body + seq(p, _ => '=')
  {
    var mapped := body + seq(p, _ => '=');
    forall i | 0 <= i < |mapped| ensures !IsAsciiWhitespace(mapped[i]) {
      if i < |body| { assert mapped[i] == body[i]; } else { assert mapped[i] == '='; }
    }
  }

  /** Alphabet characters are not whitespace. */
  lemma AlphabetHasNoWhitespace(body: string)
    requires AllAlphabet(body)
    ensures forall i :: 0 <= i < |body| ==> !IsAsciiWhitespace(body[i])
  {
    forall i | 0 <= i < |body| ensures !IsAsciiWhitespace(body[i]) {
      assert IsAlphabet(body[i]);
    }
  }

  /** Mapping the padded key is mapping the key, then the '=' (which the mapping keeps). */
  lemma MapPadded(s: string, p: nat)
    ensures MapChars(s + seq(p, _ => '='), FromUrlSafe) == MapChars(s, FromUrlSafe) + seq(p, _ => '=')
  {
    var padded := s + seq(p, _ => '=');
    var mapped := MapChars(padded, FromUrlSafe);
    var want := MapChars(s, FromUrlSafe) + seq(p, _ => '=');
    forall i | 0 <= i < |mapped| ensures mapped[i] == want[i] {
      if i < |s| { assert padded[i] == s[i]; } else { assert padded[i] == '='; }
    }
  }

  /** Unpadded URL-safe base64, the form in which VAPID public keys are published. */
  function UrlEncode(b: seq<Byte>): string {
    MapChars(Chars(EncodeSextets(b)), ToUrlSafe)
  }

  /** Decoding the unpadded URL-safe encoding of any bytes gives the bytes back. */
  lemma UrlRoundTrip(b: seq<Byte>)
    ensures UrlBase64ToBytes(UrlEncode(b)) == Some(b)
  {
    var body := Chars(EncodeSextets(b));
    var u := UrlEncode(b);
    assert Padding(|u|) == PadCount(|b|);
    var padded := u + seq(Padding(|u|), _ => '=');
    var back := MapChars(padded, FromUrlSafe);
    assert back == Encode(b) by {
      forall i | 0 <= i < |back| ensures back[i] == Encode(b)[i] {
        if i < |body| {
          assert padded[i] == ToUrlSafe(body[i]);
        }
      }
    }
    AtobEncode(b);
  }

  /** A 4k+1-character input without whitespace never decodes: the three '=' added leave one behind. */
  lemma OneOverIsError(s: string)
    requires |s| % 4 == 1
    requires forall i :: 0 <= i < |s| ==> !IsAsciiWhitespace(s[i])
    ensures UrlBase64ToBytes(s).None?
  {
    var body := MapChars(s, FromUrlSafe);
    assert Padding(|s|) == 3;
    MapPadded(s, 3);
    forall i | 0 <= i < |body| ensures !IsAsciiWhitespace(body[i]) {
      assert body[i] == FromUrlSafe(s[i]);
    }
    OneOverFails(body);
  }
}

=== FILE: complete_route.dfy ===
/**
 * `POST /api/ai/complete`: asks the language model to continue the note's
 * plain text and streams the answer back. The streamed text itself is the
 * model's; what the route decides is the prompt.
 */
module CompleteRoute {
  import opened Wrappers
  import opened Text
  import opened Http
  import RichText

  datatype CompleteReply = Unauthorized | Streaming(prompt: string) | Failed {
    function Status(): int {
      match this
      case Unauthorized => 401
      case Streaming(_) => 200
      case Failed => 500
    }
  }

  const CompletePrefix := "Continue this text naturally:\n\n"

  /**
   * The handler: 401 without a user; 500 when the body does not parse or
   * the extractor throws; otherwise a stream for the prompt made of the
   * fixed instruction followed by the note's plain text.
   */
  function Complete(userId: Option<string>, body: Body<RichText.Content>): (r: CompleteReply)
    ensures r.Unauthorized? <==> !SignedIn(userId)
    ensures r.Streaming? <==>
              SignedIn(userId) && body.Parsed? && RichText.ExtractPlainText(body.value).Some?
    ensures r.Streaming? ==>
              StartsWith(r.prompt, CompletePrefix) &&
              r.prompt[|CompletePrefix|..] == RichText.ExtractPlainText(body.value).value
  {
    if !SignedIn(userId) then Unauthorized
    else if body.Unparsable? then Failed
    else
      match RichText.ExtractPlainText(body.value)
      case None => Failed
      case Some(plainText) => Streaming(CompletePrefix + plainText)
  }

  /** Missing or non-array content still streams, with the bare instruction as prompt. */
  lemma EmptyContentPrompt(userId: string, truthy: bool)
    requires userId != ""
    ensures Complete(Some(userId), Parsed(RichText.NotArray(truthy))) == Streaming(CompletePrefix)
  {
    assert CompletePrefix + "" == CompletePrefix;
  }
}

=== FILE: http.dfy ===
/** Request bodies and the session identity as the route handlers see them. */
module Http {
  import opened Wrappers
  import Text

  /** `await request.json()` (or `formData()`): it either fails to parse or yields a value. */
  datatype Body<T> = Unparsable | Parsed(value: T)

  /** `if (!userId)`: the identity provider's user id is missing or empty. */
  predicate SignedIn(userId: Option<string>) {
    Text.Truthy(userId)
  }

  /**
   * A thrown value as the catch block inspects it: `status` is present when
   * the value is an object with a `status` property (an API error), `code`
   * its `code`, `message` present when the value is an `Error`.
   */
  datatype Thrown = Thrown(status: Option<int>, code: Option<string>, message: Option<string>)

  /** An awaited call (a request, a storage or service call): it completes with a value or throws. */
  datatype Step<T> = Done(value: T) | Threw(error: Thrown)

  /** A `fetch` that resolved: its `ok` flag and what `response.json()` gives. */
  datatype Response<T> = Response(ok: bool, json: Step<T>)

  /** The request resolved with an ok status and a body that parsed. */
  predicate Succeeded<T>(r: Step<Response<T>>) {
    r.Done? && r.value.ok && r.value.json.Done?
  }

  function Payload<T>(r: Step<Response<T>>): T
    requires Succeeded(r)
  {
    r.value.json.value
  }
}

=== FILE: listing.dfy ===
/**
 * Sequence operations shared by the list-producing code paths: `filter`,
 * `slice(0, n)` and a stable sort in descending order of a numeric key
 * (JavaScript's `Array.prototype.sort` is stable; the store's
 * `orderBy: { updatedAt: "desc" }` is modelled with the same sort).
 */
module Listing {

  /** A non-empty sequence is its head followed by its tail. */
  lemma HeadTail<T>(s: seq<T>)
    requires s != []
    ensures [s[0]] + s[1..] == s
  {
  }

  /** The tail of a concatenation whose first part is not empty. */
  lemma TailOfAppend<T>(a: seq<T>, b: seq<T>)
    requires a != []
    ensures (a + b)[0] == a[0] && (a + b)[1..] == a[1..] + b
  {
  }

  /** Cutting a sequence in two: the halves rejoin to it, and their elements together are its elements. */
  lemma SplitAt<T>(s: seq<T>, k: nat)
    requires k <= |s|
    ensures s[..k] + s[k..] == s
    ensures multiset(s) == multiset(s[..k]) + multiset(s[k..])
  {
    assert s[..k] + s[k..] == s;
  }

  /** Concatenation is associative. */
  lemma AppendAssoc<T>(a: seq<T>, b: seq<T>, c: seq<T>)
    ensures a + (b + c) == (a + b) + c
  {
  }

  /** `s.filter(p)`. */
  function Filter<T>(s: seq<T>, p: T -> bool): (r: seq<T>)
    ensures |r| <= |s|
    ensures forall i :: 0 <= i < |r| ==> p(r[i])
    ensures forall i :: 0 <= i < |s| && p(s[i]) ==> s[i] in r
    ensures multiset(r) <= multiset(s)
  {
    if s == [] then []
    else
      var t := s[1..];
      var rest := Filter(t, p);
      HeadTail(s);
      var r := if p(s[0]) then [s[0]] + rest else rest;
      forall i | 0 <= i < |s| && p(s[i]) ensures s[i] in r {
        if i > 0 {
          assert s[i] == t[i - 1];
        }
      }
      r
  }

  /** `s.slice(0, n)`. */
  function Take<T>(s: seq<T>, n: nat): (r: seq<T>)
    ensures |r| == if |s| <= n then |s| else n
    ensures r == s[..|r|]
  {
    if |s| <= n then s else s[..n]
  }

  /** `s` is in non-increasing order of `key`. */
  ghost predicate SortedDesc<T>(s: seq<T>, key: T -> real) {
    forall i, j :: 0 <= i < j < |s| ==> key(s[i]) >= key(s[j])
  }

  /**
   * Inserts `x` into a sorted `s` in front of the first element whose key
   * is not greater than its own; the insertion step of a stable sort that
   * processes the input from its end.
   */
  function InsertDesc<T>(x: T, s: seq<T>, key: T -> real): (r: seq<T>)
    requires SortedDesc(s, key)
    ensures |r| == |s| + 1
    ensures forall i :: 0 <= i < |r| ==> r[i] == x || r[i] in s
    ensures SortedDesc(r, key)
  {
    if s == [] || key(s[0]) <= key(x) then
      SortedCons(x, s, key);
      [x] + s
    else
      var t := InsertDesc(x, s[1..], key);
      forall j | 0 <= j < |t| ensures key(s[0]) >= key(t[j]) {
        if t[j] != x {
          var k :| 0 <= k < |s[1..]| && s[1..][k] == t[j];
          assert s[k + 1] == t[j];
        }
      }
      SortedCons(s[0], t, key);
      [s[0]] + t
  }

  /** Putting in front of a sorted sequence an element whose key is at least all of its keys keeps it sorted. */
  lemma SortedCons<T>(x: T, t: seq<T>, key: T -> real)
    requires SortedDesc(t, key)
    requires forall j :: 0 <= j < |t| ==> key(x) >= key(t[j])
    ensures SortedDesc([x] + t, key)
    ensures forall i :: 1 <= i <= |t| ==> ([x] + t)[i] == t[i - 1]
  {
  }

  /** Insertion adds exactly one occurrence of `x`. */
  lemma {:induction false} InsertDescPermutes<T>(x: T, s: seq<T>, key: T -> real)
    requires SortedDesc(s, key)
    ensures multiset(InsertDesc(x, s, key)) == multiset(s) + multiset{x}
  {
    if s != [] && key(s[0]) > key(x) {
      InsertDescPermutes(x, s[1..], key);
      HeadTail(s);
    }
  }

  /** A stable sort by `key`, largest key first. */
  function SortDesc<T>(s: seq<T>, key: T -> real): (r: seq<T>)
    ensures |r| == |s|
    ensures multiset(r) == multiset(s)
    ensures SortedDesc(r, key)
  {
    if s == [] then []
    else
      var t := SortDesc(s[1..], key);
      InsertDescPermutes(s[0], t, key);
      HeadTail(s);
      InsertDesc(s[0], t, key)
  }

  /** The elements of `s` whose key is exactly `k`, in their order in `s`. */
  function WithKey<T>(s: seq<T>, key: T -> real, k: real): seq<T> {
    if s == [] then []
    else (if key(s[0]) == k then [s[0]] else []) + WithKey(s[1..], key, k)
  }

  /** One step of `WithKey` on a sequence that starts with `x`. */
  lemma WithKeyCons<T>(x: T, s: seq<T>, key: T -> real, k: real)
    ensures WithKey([x] + s, key, k) == (if key(x) == k then [x] else []) + WithKey(s, key, k)
  {
    TailOfAppend([x], s);
  }

  lemma {:induction false} InsertWithKey<T>(x: T, s: seq<T>, key: T -> real, k: real)
    requires SortedDesc(s, key)
    ensures WithKey(InsertDesc(x, s, key), key, k) ==
            (if key(x) == k then [x] else []) + WithKey(s, key, k)
  {
    WithKeyCons(x, s, key, k);
    if s != [] && key(s[0]) > key(x) {
      var t := InsertDesc(x, s[1..], key);
      var head := if key(s[0]) == k then [s[0]] else [];
      var xs := if key(x) == k then [x] else [];
      WithKeyCons(s[0], t, key, k);
      InsertWithKey(x, s[1..], key, k);
      WithKeyCons(s[0], s[1..], key, k);
      assert [s[0]] + s[1..] == s;
      // At most one of the two heads is non-empty: s[0] has a larger key than x.
      if xs == [] {
        assert xs + WithKey(s[1..], key, k) == WithKey(s[1..], key, k);
        assert xs + (head + WithKey(s[1..], key, k)) == head + WithKey(s[1..], key, k);
      } else {
        assert head == [];
        assert head + (xs + WithKey(s[1..], key, k)) == xs + WithKey(s[1..], key, k);
        assert head + WithKey(s[1..], key, k) == WithKey(s[1..], key, k);
      }
    }
  }

  /**
   * Stability: for every key value, the elements carrying it appear in the
   * sorted sequence in the same order as in the input.
   */
  lemma {:induction false} SortDescStable<T>(s: seq<T>, key: T -> real, k: real)
    ensures WithKey(SortDesc(s, key), key, k) == WithKey(s, key, k)
  {
    if s != [] {
      SortDescStable(s[1..], key, k);
      InsertWithKey(s[0], SortDesc(s[1..], key), key, k);
    }
  }

  /** When every key is `k`, selecting key `k` keeps everything. */
  lemma {:induction false} WithKeyAll<T>(s: seq<T>, key: T -> real, k: real)
    requires forall i :: 0 <= i < |s| ==> key(s[i]) == k
    ensures WithKey(s, key, k) == s
  {
    if s != [] {
      WithKeyAll(s[1..], key, k);
    }
  }

  /** Sorting a sequence whose keys are all equal leaves it as it is. */
  lemma SortDescEqualKeys<T>(s: seq<T>, key: T -> real, k: real)
    requires forall i :: 0 <= i < |s| ==> key(s[i]) == k
    ensures SortDesc(s, key) == s
  {
    var r := SortDesc(s, key);
    forall i | 0 <= i < |r| ensures key(r[i]) == k {
      assert r[i] in multiset(s);
    }
    SortDescStable(s, key, k);
    WithKeyAll(s, key, k);
    WithKeyAll(r, key, k);
  }

  /**
   * Keeping the first `n` of a sorted sequence keeps the best: no element
   * left out has a greater key than an element kept.
   */
  lemma TakeSortedKeepsBest<T>(s: seq<T>, key: T -> real, n: nat)
    requires SortedDesc(s, key)
    ensures forall y :: y in multiset(s) - multiset(Take(s, n)) ==>
              forall x :: x in Take(s, n) ==> key(x) >= key(y)
  {
    var t := Take(s, n);
    var rest := s[|t|..];
    SplitAt(s, |t|);
    assert multiset(s) - multiset(t) == multiset(rest);
    forall y | y in multiset(rest)
      ensures forall x :: x in t ==> key(x) >= key(y)
    {
      var j :| 0 <= j < |rest| && rest[j] == y;
      forall x | x in t ensures key(x) >= key(y) {
        var i :| 0 <= i < |t| && t[i] == x;
        assert s[i] == x && s[|t| + j] == y;
      }
    }
  }

  /** Filtering with a predicate every element satisfies keeps the sequence. */
  lemma {:induction false} FilterKeepsAll<T>(s: seq<T>, p: T -> bool)
    requires forall i :: 0 <= i < |s| ==> p(s[i])
    ensures Filter(s, p) == s
  {
    if s != [] {
      FilterKeepsAll(s[1..], p);
    }
  }

  /** Filtering drops an element exactly when some element fails the predicate. */
  lemma {:induction false} FilterKeepsLength<T>(s: seq<T>, p: T -> bool)
    ensures |Filter(s, p)| == |s| <==> forall i :: 0 <= i < |s| ==> p(s[i])
  {
    if s != [] {
      FilterKeepsLength(s[1..], p);
      if |Filter(s, p)| == |s| {
        assert p(s[0]);
        forall i | 1 <= i < |s| ensures p(s[i]) {
          assert s[i] == s[1..][i - 1];
        }
      } else if forall i :: 0 <= i < |s| ==> p(s[i]) {
        FilterKeepsAll(s, p);
      }
    }
  }

  /** Every kept element is an element of the input. */
  lemma FilterFrom<T>(s: seq<T>, p: T -> bool)
    ensures forall i :: 0 <= i < |Filter(s, p)| ==> Filter(s, p)[i] in s
  {
    var r := Filter(s, p);
    forall i | 0 <= i < |r| ensures r[i] in s {
      assert r[i] in multiset(r);
    }
  }

  /** A sub-multiset's elements are elements of the larger list. */
  lemma SubMultisetFrom<T>(a: seq<T>, b: seq<T>)
    requires multiset(a) <= multiset(b)
    ensures forall i :: 0 <= i < |a| ==> a[i] in b
  {
    forall i | 0 <= i < |a| ensures a[i] in b {
      assert a[i] in multiset(a);
    }
  }

  /** One step of `Filter`: the first element, if kept, followed by the filtered rest. */
  lemma FilterCons<T>(s: seq<T>, p: T -> bool)
    requires s != []
    ensures Filter(s, p) == (if p(s[0]) then [s[0]] else []) + Filter(s[1..], p)
  {
  }

  /** Filtering distributes over concatenation: the kept elements stay in their order. */
  lemma {:induction false} FilterAppend<T>(a: seq<T>, b: seq<T>, p: T -> bool)
    ensures Filter(a + b, p) == Filter(a, p) + Filter(b, p)
  {
    if a == [] {
      assert a + b == b;
    } else {
      TailOfAppend(a, b);
      FilterCons(a + b, p);
      FilterCons(a, p);
      FilterAppend(a[1..], b, p);
      AppendAssoc(if p(a[0]) then [a[0]] else [], Filter(a[1..], p), Filter(b, p));
    }
  }

  /**
   * `s.filter(p)`, sorted by `key` (largest first), cut to `n`: the `n`
   * best elements satisfying `p`. Everything kept satisfies `p`, and an
   * element satisfying `p` is left out only when `n` elements were kept,
   * none of them with a smaller key.
   */
  function Top<T>(s: seq<T>, p: T -> bool, key: T -> real, n: nat): (r: seq<T>)
    ensures |r| <= n
    ensures forall i :: 0 <= i < |r| ==> p(r[i])
    ensures SortedDesc(r, key)
    ensures multiset(r) <= multiset(s)
    ensures forall k :: 0 <= k < |s| && p(s[k]) && s[k] !in r ==>
              |r| == n && forall i :: 0 <= i < |r| ==> key(r[i]) >= key(s[k])
  {
    TopKeeps(s, p, key, n);
    TopComplete(s, p, key, n);
    Take(SortDesc(Filter(s, p), key), n)
  }

  lemma TopKeeps<T>(s: seq<T>, p: T -> bool, key: T -> real, n: nat)
    ensures forall i :: 0 <= i < |Take(SortDesc(Filter(s, p), key), n)| ==> p(Take(SortDesc(Filter(s, p), key), n)[i])
    ensures SortedDesc(Take(SortDesc(Filter(s, p), key), n), key)
    ensures multiset(Take(SortDesc(Filter(s, p), key), n)) <= multiset(s)
  {
    var f := Filter(s, p);
    var sorted := SortDesc(f, key);
    var r := Take(sorted, n);
    SplitAt(sorted, |r|);
    forall i | 0 <= i < |r| ensures p(r[i]) {
      assert r[i] == sorted[i] && sorted[i] in multiset(f);
    }
  }

  lemma TopComplete<T>(s: seq<T>, p: T -> bool, key: T -> real, n: nat)
    ensures forall k :: 0 <= k < |s| && p(s[k]) && s[k] !in Take(SortDesc(Filter(s, p), key), n) ==>
              |Take(SortDesc(Filter(s, p), key), n)| == n &&
              forall i :: 0 <= i < |Take(SortDesc(Filter(s, p), key), n)| ==>
                key(Take(SortDesc(Filter(s, p), key), n)[i]) >= key(s[k])
  {
    var f := Filter(s, p);
    var sorted := SortDesc(f, key);
    var r := Take(sorted, n);
    TakeSortedKeepsBest(sorted, key, n);
    forall k | 0 <= k < |s| && p(s[k]) && s[k] !in r
      ensures |r| == n && forall i :: 0 <= i < |r| ==> key(r[i]) >= key(s[k])
    {
      var y := s[k];
      assert y in multiset(f);
      assert y in multiset(sorted) - multiset(r);
      forall i | 0 <= i < |r| ensures key(r[i]) >= key(y) {
        assert r[i] in r;
      }
    }
  }
}

=== FILE: note_editor.dfy ===
/**
 * The note editor page: the title and content being edited, the
 * unsaved-changes flag, the debounced autosave, the explicit save (which
 * creates the note when it is new) and the summarise button.
 *
 * The debounced function is a single pending slot in which the last call
 * wins; `FireAutosave` is the moment its timer runs out. Requests are
 * recorded in `sent` and their outcomes are parameters.
 */
module NoteEditor {
  import opened Wrappers
  import opened Text
  import opened Http
  import RichText
  import Store

  /** What a save sends: the title and the content. */
  datatype Draft = Draft(title: string, content: RichText.Content)

  datatype Request =
    | CreateRequest(draft: Draft)
    | UpdateRequest(id: string, draft: Draft)
    | SummarizeRequest(noteId: string, content: RichText.Content)

  datatype Notice = NoteCreated | NoteSaved | SaveError | SaveFirst | SummaryGenerated | SummaryError

  /** A new document: one empty paragraph. */
  function DefaultContent(): seq<RichText.Node> {
    [RichText.Element("p", [RichText.Leaf("")])]
  }

  /** The title a new note is created with: `title || "Untitled"`. */
  function CreateTitle(title: string): (t: string)
    ensures t != ""
    ensures title != "" ==> t == title
    ensures title == "" ==> t == "Untitled"
  {
    if title == "" then "Untitled" else title
  }

  datatype SaveAction = Create | Update(id: string) | Neither

  /** Which branch `handleSave` takes: create only for a new note without an id, update whenever an id is set. */
  function SaveBranch(isNew: bool, noteId: Option<string>): (a: SaveAction)
    ensures a == Create <==> isNew && !Truthy(noteId)
    ensures a.Update? <==> Truthy(noteId)
    ensures a.Update? ==> a.id == noteId.value
    ensures a == Neither <==> !isNew && !Truthy(noteId)
  {
    if isNew && !Truthy(noteId) then Create
    else if Truthy(noteId) then Update(noteId.value)
    else Neither
  }

  class Editor {
    const isNew: bool
    var title: string
    /** The stored content as loaded (kept even when it is not an array), or the blocks edited since. */
    var content: RichText.Content
    var hasChanges: bool
    var noteId: Option<string>
    var isSaving: bool
    var isSummarizing: bool
    var summary: string
    /** The debounced call waiting for its timer: the id and the data it was given. */
    var pending: Option<(string, Draft)>
    var sent: seq<Request>
    var notices: seq<Notice>
    /** The address the router was sent to, if any. */
    var location: Option<string>

    /** The editor opened on an existing note or on a blank one. */
    constructor (note: Option<Store.Note>, isNew: bool)
      ensures this.isNew == isNew
      ensures title == (if note.Some? then note.value.title else "")
      ensures content == (if note.Some? && (note.value.content.Blocks? || note.value.content.truthy)
                          then note.value.content else RichText.Blocks(DefaultContent()))
      ensures noteId == (if note.Some? then Some(note.value.id) else None)
      ensures summary == (if note.Some? then OrElse(note.value.summary, "") else "")
      ensures !hasChanges && !isSaving && !isSummarizing
      ensures pending == None && sent == [] && notices == [] && location == None
    {
      this.isNew := isNew;
      title := if note.Some? then note.value.title else "";
      content := if note.Some? && (note.value.content.Blocks? || note.value.content.truthy)
                 then note.value.content else RichText.Blocks(DefaultContent());
      noteId := if note.Some? then Some(note.value.id) else None;
      summary := if note.Some? then OrElse(note.value.summary, "") else "";
      hasChanges := false;
      isSaving := false;
      isSummarizing := false;
      pending := None;
      sent := [];
      notices := [];
      location := None;
    }

    method TitleChange(value: string)
      modifies this
      ensures title == value && hasChanges
      ensures content == old(content) && noteId == old(noteId) && pending == old(pending) && sent == old(sent)
      ensures notices == old(notices) && location == old(location) && summary == old(summary)
      ensures isSaving == old(isSaving) && isSummarizing == old(isSummarizing)
    {
      title := value;
      hasChanges := true;
    }

    method ContentChange(value: seq<RichText.Node>)
      modifies this
      ensures content == RichText.Blocks(value) && hasChanges
      ensures title == old(title) && noteId == old(noteId) && pending == old(pending) && sent == old(sent)
      ensures notices == old(notices) && location == old(location) && summary == old(summary)
      ensures isSaving == old(isSaving) && isSummarizing == old(isSummarizing)
    {
      content := RichText.Blocks(value);
      hasChanges := true;
    }

    /**
     * The autosave effect, run after a render in which one of its inputs
     * changed: with unsaved changes and an id it calls the debounced save,
     * replacing any call still waiting.
     */
    method AutosaveEffect()
      modifies this
      ensures pending == if hasChanges && Truthy(noteId) then Some((noteId.value, Draft(title, content))) else old(pending)
      ensures title == old(title) && content == old(content) && hasChanges == old(hasChanges)
      ensures noteId == old(noteId) && sent == old(sent) && notices == old(notices)
      ensures location == old(location) && summary == old(summary)
      ensures isSaving == old(isSaving) && isSummarizing == old(isSummarizing)
    {
      if hasChanges && Truthy(noteId) {
        pending := Some((noteId.value, Draft(title, content)));
      }
    }

    /**
     * The debounce timer runs out: the waiting call, if any, sends a PATCH
     * with the data it was given (not the current one). Once the request
     * resolves the changes count as saved, whatever its status; a thrown
     * request leaves them unsaved.
     */
    method FireAutosave(r: Step<int>)
      modifies this
      ensures pending == None
      ensures old(pending).None? || old(pending).value.0 == "" ==> sent == old(sent) && hasChanges == old(hasChanges)
      ensures old(pending).Some? && old(pending).value.0 != "" ==>
                sent == old(sent) + [UpdateRequest(old(pending).value.0, old(pending).value.1)]
      ensures old(pending).Some? && old(pending).value.0 != "" ==>
                hasChanges == (old(hasChanges) && r.Threw?)
      ensures title == old(title) && content == old(content) && noteId == old(noteId) && notices == old(notices)
      ensures location == old(location) && summary == old(summary)
      ensures isSaving == old(isSaving) && isSummarizing == old(isSummarizing)
    {
      if pending.None? {
        return;
      }
      var (id, data) := pending.value;
      pending := None;
      if id == "" {
        return;
      }
      sent := sent + [UpdateRequest(id, data)];
      if r.Done? {
        hasChanges := false;
      }
    }

    method BeginSave()
      modifies this
      ensures isSaving
      ensures title == old(title) && content == old(content) && hasChanges == old(hasChanges)
      ensures noteId == old(noteId) && sent == old(sent) && notices == old(notices)
      ensures pending == old(pending) && location == old(location) && summary == old(summary)
      ensures isSummarizing == old(isSummarizing)
    {
      isSaving := true;
    }

    /**
     * The body of `handleSave` after the flag is raised. A new note without
     * an id is created (the reply's JSON being the new id), which adopts
     * the id and moves to its page; otherwise a note with an id is updated.
     * A failure shows an error and leaves the changes unsaved; when neither
     * branch runs the changes are still marked saved. Saving ends on every
     * path.
     */
    method FinishSave(r: Step<Response<string>>)
      modifies this
      ensures !isSaving
      ensures title == old(title) && content == old(content) && pending == old(pending)
      ensures summary == old(summary) && isSummarizing == old(isSummarizing)
      ensures !(SaveBranch(isNew, old(noteId)) == Create && Succeeded(r)) ==> location == old(location)
      ensures SaveBranch(isNew, old(noteId)) == Create ==>
                sent == old(sent) + [CreateRequest(Draft(CreateTitle(title), content))]
      ensures SaveBranch(isNew, old(noteId)) == Create && Succeeded(r) ==>
                && noteId == Some(Payload(r)) && location == Some("/notes/" + Payload(r))
                && !hasChanges && notices == old(notices) + [NoteCreated]
      ensures SaveBranch(isNew, old(noteId)).Update? ==>
                sent == old(sent) + [UpdateRequest(old(noteId).value, Draft(title, content))]
      ensures SaveBranch(isNew, old(noteId)).Update? && r.Done? && r.value.ok ==>
                !hasChanges && notices == old(notices) + [NoteSaved] && noteId == old(noteId)
      ensures SaveBranch(isNew, old(noteId)) == Neither ==>
                sent == old(sent) && !hasChanges && notices == old(notices) && noteId == old(noteId)
      ensures Failed(SaveBranch(isNew, old(noteId)), r) ==>
                hasChanges == old(hasChanges) && notices == old(notices) + [SaveError] && noteId == old(noteId)
    {
      match SaveBranch(isNew, noteId) {
        case Create =>
          sent := sent + [CreateRequest(Draft(CreateTitle(title), content))];
          if !Succeeded(r) {
            notices := notices + [SaveError];
          } else {
            var id := Payload(r);
            noteId := Some(id);
            location := Some("/notes/" + id);
            notices := notices + [NoteCreated];
            hasChanges := false;
          }
        case Update(id) =>
          sent := sent + [UpdateRequest(id, Draft(title, content))];
          if r.Threw? || !r.value.ok {
            notices := notices + [SaveError];
          } else {
            notices := notices + [NoteSaved];
            hasChanges := false;
          }
        case Neither =>
          hasChanges := false;
      }
      isSaving := false;
    }

    /** `handleSave`. */
    method HandleSave(r: Step<Response<string>>)
      modifies this
      ensures !isSaving
      ensures !Failed(SaveBranch(isNew, old(noteId)), r) ==> !hasChanges
      ensures Failed(SaveBranch(isNew, old(noteId)), r) ==> hasChanges == old(hasChanges)
      ensures title == old(title) && content == old(content) && pending == old(pending)
      ensures summary == old(summary) && isSummarizing == old(isSummarizing)
      ensures !(SaveBranch(isNew, old(noteId)) == Create && Succeeded(r)) ==> location == old(location)
      ensures SaveBranch(isNew, old(noteId)) == Create ==>
                sent == old(sent) + [CreateRequest(Draft(CreateTitle(title), content))]
      ensures SaveBranch(isNew, old(noteId)) == Create && Succeeded(r) ==>
                && noteId == Some(Payload(r)) && location == Some("/notes/" + Payload(r))
                && notices == old(notices) + [NoteCreated]
      ensures SaveBranch(isNew, old(noteId)).Update? ==>
                sent == old(sent) + [UpdateRequest(old(noteId).value, Draft(title, content))]
      ensures SaveBranch(isNew, old(noteId)).Update? && r.Done? && r.value.ok ==>
                notices == old(notices) + [NoteSaved] && noteId == old(noteId)
      ensures SaveBranch(isNew, old(noteId)) == Neither ==>
                sent == old(sent) && notices == old(notices) && noteId == old(noteId)
      ensures Failed(SaveBranch(isNew, old(noteId)), r) ==>
                notices == old(notices) + [SaveError] && noteId == old(noteId)
    {
      BeginSave();
      FinishSave(r);
    }

    /**
     * `handleAiSummarize`: without an id it only asks the user to save
     * first, before the summarising flag is touched; otherwise it posts the id and the content and shows the
     * summary that comes back.
     */
    method AiSummarize(r: Step<Response<string>>)
      modifies this
      ensures !Truthy(old(noteId)) ==>
                && sent == old(sent) && notices == old(notices) + [SaveFirst] && summary == old(summary)
                && isSummarizing == old(isSummarizing)
      ensures Truthy(old(noteId)) ==> !isSummarizing
      ensures Truthy(old(noteId)) ==> sent == old(sent) + [SummarizeRequest(old(noteId).value, content)]
      ensures Truthy(old(noteId)) && Succeeded(r) ==>
                summary == Payload(r) && notices == old(notices) + [SummaryGenerated]
      ensures Truthy(old(noteId)) && !Succeeded(r) ==>
                summary == old(summary) && notices == old(notices) + [SummaryError]
      ensures title == old(title) && content == old(content) && hasChanges == old(hasChanges) && noteId == old(noteId)
      ensures pending == old(pending) && location == old(location) && isSaving == old(isSaving)
    {
      if !Truthy(noteId) {
        notices := notices + [SaveFirst];
        return;
      }
      isSummarizing := true;
      sent := sent + [SummarizeRequest(noteId.value, content)];
      if Succeeded(r) {
        summary := Payload(r);
        notices := notices + [SummaryGenerated];
      } else {
        notices := notices + [SummaryError];
      }
      isSummarizing := false;
    }
  }

  /** The save branch that ran ended in the catch block. */
  predicate Failed(a: SaveAction, r: Step<Response<string>>) {
    match a
    case Create => !Succeeded(r)
    case Update(_) => r.Threw? || !r.value.ok
    case Neither => false
  }

  /**
   * The autosave sequence: after an edit of a note with an id, the effect
   * and the timer send the edited title with the current content, and a
   * resolved request (even a rejected status) clears the unsaved flag.
   */
  method EditThenAutosave(e: Editor, value: string, status: int)
    requires Truthy(e.noteId)
    modifies e
    ensures e.sent == old(e.sent) + [UpdateRequest(old(e.noteId).value, Draft(value, old(e.content)))]
    ensures !e.hasChanges && e.pending == None
  {
    e.TitleChange(value);
    e.AutosaveEffect();
    e.FireAutosave(Done(status));
  }
}

=== FILE: notes_route.dfy ===
/**
 * `GET /api/notes` (list the caller's notes under a filter) and
 * `POST /api/notes` (create a note).
 */
module NotesRoute {
  import opened Wrappers
  import opened Text
  import opened Http
  import RichText
  import Listing
  import opened Store

  // ---------------------------------------------------------------------
  // GET: the `where` clause
  // ---------------------------------------------------------------------

  /** The query object handed to the store; `None` fields are absent. */
  datatype Where = Where(
    userId: string,
    isArchived: bool,
    isFavorite: Option<bool>,
    folderId: Option<string>,
    search: Option<string>)

  /**
   * What the listing promises, stated directly on a note: the caller's
   * notes, archived iff the filter is "archive", favourites only under
   * "favorites", in the given folder when one is named, and matching the
   * query in title or plain text (case-insensitively) when one is given.
   */
  predicate Selected(n: Note, userId: string, folderId: Option<string>, filter: Option<string>, query: Option<string>) {
    && n.userId == userId
    && n.isArchived == (filter == Some("archive"))
    && (filter == Some("favorites") ==> n.isFavorite)
    && (Truthy(folderId) ==> n.folderId == folderId)
    && (Truthy(query) ==>
          ContainsIgnoreCase(n.title, query.value) ||
          (n.plainText.Some? && ContainsIgnoreCase(n.plainText.value, query.value)))
  }

  /** How the store evaluates a `where` clause on one row. */
  predicate Matches(w: Where, n: Note) {
    && n.userId == w.userId
    && n.isArchived == w.isArchived
    && (w.isFavorite.Some? ==> n.isFavorite == w.isFavorite.value)
    && (w.folderId.Some? ==> n.folderId == w.folderId)
    && (w.search.Some? ==>
          ContainsIgnoreCase(n.title, w.search.value) ||
          (n.plainText.Some? && ContainsIgnoreCase(n.plainText.value, w.search.value)))
  }

  /**
   * Builds the clause field by field: archive flag from the filter,
   * "favorites" forcing favourite and not archived, then the folder and the
   * query when they are truthy (an empty parameter adds nothing).
   */
  method BuildWhere(userId: string, folderId: Option<string>, filter: Option<string>, query: Option<string>)
    returns (w: Where)
    ensures w.userId == userId
    ensures w.isArchived == (filter == Some("archive"))
    ensures w.isFavorite == if filter == Some("favorites") then Some(true) else None
    ensures w.folderId == if Truthy(folderId) then folderId else None
    ensures w.search == if Truthy(query) then query else None
  {
    w := Where(userId, filter == Some("archive"), None, None, None);
    if filter == Some("favorites") {
      w := w.(isFavorite := Some(true), isArchived := false);
    }
    if Truthy(folderId) {
      w := w.(folderId := folderId);
    }
    if Truthy(query) {
      w := w.(search := query);
    }
  }

  /** A clause built by `BuildWhere` matches exactly the selected notes. */
  lemma WhereAgrees(w: Where, userId: string, folderId: Option<string>, filter: Option<string>, query: Option<string>, n: Note)
    requires w.userId == userId
    requires w.isArchived == (filter == Some("archive"))
    requires w.isFavorite == if filter == Some("favorites") then Some(true) else None
    requires w.folderId == if Truthy(folderId) then folderId else None
    requires w.search == if Truthy(query) then query else None
    ensures Matches(w, n) <==> Selected(n, userId, folderId, filter, query)
  {
  }

  function UpdatedAt(n: Note): real {
    n.updatedAt as real
  }

  datatype GetReply = GetUnauthorized | Listed(notes: seq<Note>) {
    function Status(): int {
      if GetUnauthorized? then 401 else 200
    }
  }

  /**
   * `GET /api/notes?folderId&filter&q`: 401 without a user; otherwise
   * exactly the selected notes, most recently updated first.
   */
  method Get(db: Db, userId: Option<string>, folderId: Option<string>, filter: Option<string>, query: Option<string>)
    returns (reply: GetReply)
    ensures reply.GetUnauthorized? <==> !SignedIn(userId)
    ensures reply.Listed? ==> forall i :: 0 <= i < |reply.notes| ==>
              Selected(reply.notes[i], userId.value, folderId, filter, query)
    ensures reply.Listed? ==> forall k :: 0 <= k < |db.notes| && Selected(db.notes[k], userId.value, folderId, filter, query) ==>
              db.notes[k] in reply.notes
    ensures reply.Listed? ==> multiset(reply.notes) <= multiset(db.notes)
    ensures reply.Listed? ==> Listing.SortedDesc(reply.notes, UpdatedAt)
  {
    if !SignedIn(userId) {
      return GetUnauthorized;
    }
    var w := BuildWhere(userId.value, folderId, filter, query);
    var p := n => Matches(w, n);
    var found := Listing.Filter(db.notes, p);
    var sorted := Listing.SortDesc(found, UpdatedAt);
    forall i | 0 <= i < |sorted|
      ensures Selected(sorted[i], userId.value, folderId, filter, query)
    {
      assert sorted[i] in multiset(found);
      WhereAgrees(w, userId.value, folderId, filter, query, sorted[i]);
    }
    forall k | 0 <= k < |db.notes| && Selected(db.notes[k], userId.value, folderId, filter, query)
      ensures db.notes[k] in sorted
    {
      WhereAgrees(w, userId.value, folderId, filter, query, db.notes[k]);
      assert db.notes[k] in multiset(found);
    }
    reply := Listed(sorted);
  }

  // ---------------------------------------------------------------------
  // POST
  // ---------------------------------------------------------------------

  /** The fields of the request body the handler reads (tags left out). */
  datatype PostBody = PostBody(title: Option<string>, content: RichText.Content, folderId: Option<string>)

  datatype PostReply = PostUnauthorized | Created(note: Note) | PostFailed {
    function Status(): int {
      match this
      case PostUnauthorized => 401
      case Created(_) => 201
      case PostFailed => 500
    }
  }

  /**
   * `POST /api/notes`: 401 and no change without a user; otherwise the user
   * row is ensured, and a note is created with title `title || "Untitled"`
   * and plain text derived from the content. A body that does not parse,
   * or content the extractor throws on, is a 500 with no note created.
   */
  method Post(db: Db, userId: Option<string>, body: Body<PostBody>, newId: string, now: int)
    returns (reply: PostReply)
    requires db.Valid()
    requires forall k :: 0 <= k < |db.notes| ==> db.notes[k].id != newId
    modifies db
    ensures db.Valid()
    ensures reply.PostUnauthorized? <==> !SignedIn(userId)
    ensures !SignedIn(userId) ==> db.users == old(db.users)
    ensures SignedIn(userId) && userId.value in old(db.users) ==> db.users == old(db.users)
    ensures SignedIn(userId) && userId.value !in old(db.users) ==>
              db.users == old(db.users)[userId.value := User(userId.value, "")]
    ensures reply.Created? <==>
              SignedIn(userId) && body.Parsed? && RichText.ExtractPlainText(body.value.content).Some?
    ensures reply.PostFailed? <==>
              SignedIn(userId) && !(body.Parsed? && RichText.ExtractPlainText(body.value.content).Some?)
    ensures reply.Created? ==>
              && reply.note.id == newId
              && reply.note.title == OrElse(body.value.title, "Untitled")
              && reply.note.title != ""
              && reply.note.content == body.value.content
              && reply.note.plainText == RichText.ExtractPlainText(body.value.content)
              && reply.note.userId == userId.value
              && reply.note.folderId == body.value.folderId
              && reply.note.summary.None? && !reply.note.isFavorite && !reply.note.isArchived
              && reply.note.createdAt == now && reply.note.updatedAt == now
              && db.notes == old(db.notes) + [reply.note]
    ensures !reply.Created? ==> db.notes == old(db.notes)
    ensures db.subscriptions == old(db.subscriptions)
  {
    if !SignedIn(userId) {
      return PostUnauthorized;
    }
    db.UpsertUser(userId.value);
    if body.Unparsable? {
      return PostFailed;
    }
    var plainText := RichText.ExtractPlainText(body.value.content);
    if plainText.None? {
      return PostFailed;
    }
    var note := Note(newId, OrElse(body.value.title, "Untitled"), body.value.content, plainText, None,
                     userId.value, body.value.folderId, false, false, now, now);
    db.CreateNote(note);
    reply := Created(note);
  }
}

=== FILE: plate_components.dfy ===
/**
 * The editor's element components receive the editor framework's props
 * and must not pass its internal props on to DOM elements
 * (`filterPlateProps`); the link element reads its URL before filtering.
 */
module PlateComponents {
  import opened Wrappers

  /**
   * A prop value: `undefined`, a string, a node object with an optional
   * `url`, a plain object of DOM attributes (what `attributes` holds), the
   * class list `cn(base, extra)` merges, or any other value.
   */
  datatype PropValue =
    | Undefined
    | Str(s: string)
    | NodeValue(url: Option<string>)
    | Attributes(fields: map<string, PropValue>)
    | Classes(base: string, extra: PropValue)
    | Other(id: nat)

  type Props = map<string, PropValue>

  /** The framework's internal props. */
  const Internal: set<string> := {
    "setOption", "setOptions", "getOption", "getOptions", "useOption", "api", "tf",
    "transforms", "editor", "element", "leaf", "text", "path", "nodeProps"}

  /** Props every filtered result carries, `undefined` when the input lacks them. */
  const Kept: set<string> := {"attributes", "children", "className"}

  /**
   * `filterPlateProps`: drops every internal prop, keeps everything else as
   * it was, and always has the three kept keys.
   */
  function FilterPlateProps(props: Props): (r: Props)
    ensures forall k :: k in Internal ==> k !in r
    ensures forall k :: k in Kept ==> k in r
    ensures forall k :: k in props && k !in Internal ==> k in r && r[k] == props[k]
    ensures forall k :: k in Kept && k !in props ==> r[k] == Undefined
    ensures forall k :: k in r ==> k in props || k in Kept
  {
    map k | k in (props.Keys - Internal) + Kept :: if k in props then props[k] else Undefined
  }

  /** Filtering twice is filtering once. */
  lemma FilterIdempotent(props: Props)
    ensures FilterPlateProps(FilterPlateProps(props)) == FilterPlateProps(props)
  {
    var once := FilterPlateProps(props);
    var twice := FilterPlateProps(once);
    assert twice.Keys == once.Keys;
  }

  /** The keys an object spread `{...v}` adds: a plain object's own keys, nothing for anything else. */
  function Spread(v: PropValue): map<string, PropValue> {
    if v.Attributes? then v.fields else map[]
  }

  /** A prop, or `undefined` when absent. */
  function Get(props: Props, k: string): PropValue {
    if k in props then props[k] else Undefined
  }

  /** The props left after filtering and taking the kept ones apart: neither internal nor kept. */
  predicate Passed(props: Props, k: string) {
    k in props && k !in Internal && k !in Kept
  }

  const LinkClasses := "text-primary underline underline-offset-4 hover:text-primary/80"

  /** The attributes the anchor is written with before the two spreads. */
  const FixedKeys: set<string> := {"href", "target", "rel", "className"}

  /** What `LinkElement` renders: the anchor's attributes and its children. */
  datatype Anchor = Anchor(attrs: Props, children: PropValue)

  /**
   * `LinkElement`: `href` is `element?.url`, read from the props before they
   * are filtered, since filtering removes `element`. The anchor is written
   * with `href`, `target`, `rel` and the merged `className`, then
   * `{...attributes}`, then the remaining props; a later attribute of the
   * same name wins, so a passed `href` replaces the element's URL.
   */
  function LinkElement(props: Props): (a: Anchor)
    ensures forall k :: k in a.attrs <==> k in FixedKeys || k in Spread(Get(props, "attributes")) || Passed(props, k)
    ensures forall k :: Passed(props, k) ==> a.attrs[k] == props[k]
    ensures forall k :: k in Spread(Get(props, "attributes")) && !Passed(props, k) ==>
              a.attrs[k] == Spread(Get(props, "attributes"))[k]
    ensures !Passed(props, "href") && "href" !in Spread(Get(props, "attributes")) ==>
              a.attrs["href"] == (if "element" in props && props["element"].NodeValue? && props["element"].url.Some?
                                  then Str(props["element"].url.value) else Undefined)
    ensures "className" !in Spread(Get(props, "attributes")) ==>
              a.attrs["className"] == Classes(LinkClasses, Get(props, "className"))
    ensures "target" !in Spread(Get(props, "attributes")) && !Passed(props, "target") ==> a.attrs["target"] == Str("_blank")
    ensures "rel" !in Spread(Get(props, "attributes")) && !Passed(props, "rel") ==>
              a.attrs["rel"] == Str("noopener noreferrer")
    ensures a.children == Get(props, "children")
  {
    var href := if "element" in props && props["element"].NodeValue? && props["element"].url.Some?
                then Str(props["element"].url.value) else Undefined;
    var filtered := FilterPlateProps(props);
    var rest := map k | k in filtered.Keys - Kept :: filtered[k];
    RestIsPassed(props, filtered, rest);
    var written := map["href" := href, "target" := Str("_blank"), "rel" := Str("noopener noreferrer"),
                       "className" := Classes(LinkClasses, filtered["className"])];
    assert written.Keys == FixedKeys;
    LaterWins(written, Spread(filtered["attributes"]), rest);
    Anchor(written + Spread(filtered["attributes"]) + rest, filtered["children"])
  }

  /** The props left after taking the kept ones out of the filtered props are the passed ones, unchanged. */
  lemma RestIsPassed(props: Props, filtered: Props, rest: Props)
    requires filtered == FilterPlateProps(props)
    requires rest == map k | k in filtered.Keys - Kept :: filtered[k]
    ensures forall k :: k in rest <==> Passed(props, k)
    ensures forall k :: k in rest ==> rest[k] == props[k]
    ensures forall k :: k in Kept ==> filtered[k] == Get(props, k)
  {
  }

  /** In `{...w, ...sp, ...rest}` a key takes its value from the last map that holds it. */
  lemma LaterWins(w: Props, sp: Props, rest: Props)
    ensures forall k :: k in w + sp + rest <==> k in w || k in sp || k in rest
    ensures forall k :: k in rest ==> (w + sp + rest)[k] == rest[k]
    ensures forall k :: k in sp && k !in rest ==> (w + sp + rest)[k] == sp[k]
    ensures forall k :: k in w && k !in sp && k !in rest ==> (w + sp + rest)[k] == w[k]
  {
  }

  /** A passed `href` overrides the element's URL: the spread comes after `href={element?.url}`. */
  lemma PassedHrefWins(props: Props, url: string, v: PropValue)
    ensures LinkElement(props["element" := NodeValue(Some(url))]["href" := v]).attrs["href"] == v
  {
    var p := props["element" := NodeValue(Some(url))]["href" := v];
    assert "href" !in Internal && "href" !in Kept;
    assert Passed(p, "href");
  }

  /** Reading the URL after filtering would always lose it. */
  lemma FilteredLinkHasNoElement(props: Props)
    ensures "element" !in FilterPlateProps(props)
  {
  }
}

=== FILE: push_subscribe_route.dfy ===
/**
 * `POST /api/push/subscribe`: stores a browser's Web Push subscription for
 * the caller, one row per push endpoint.
 */
module PushSubscribeRoute {
  import opened Wrappers
  import opened Text
  import opened Http
  import opened Store

  datatype Keys = Keys(p256dh: Option<string>, auth: Option<string>)

  /** The `subscription` field of the body; absent fields are `None`. */
  datatype Subscription = Subscription(endpoint: Option<string>, keys: Option<Keys>)

  datatype SubscribeReply = Unauthorized | Invalid | Subscribed | Failed {
    function Status(): int {
      match this
      case Unauthorized => 401
      case Invalid => 400
      case Subscribed => 200
      case Failed => 500
    }
  }

  /** A usable subscription: an endpoint and both keys, each a non-empty string. */
  predicate WellFormed(s: Option<Subscription>) {
    && s.Some?
    && Truthy(s.value.endpoint)
    && s.value.keys.Some?
    && Truthy(s.value.keys.value.p256dh)
    && Truthy(s.value.keys.value.auth)
  }

  /**
   * The handler: 401 without a user and 500 for a body that does not parse,
   * both changing nothing; 400 for a missing or incomplete subscription,
   * also changing nothing; otherwise the user row is ensured and the
   * endpoint's row holds exactly the given keys and the caller as owner,
   * replacing whatever the endpoint held before.
   */
  method Subscribe(db: Db, userId: Option<string>, body: Body<Option<Subscription>>)
    returns (reply: SubscribeReply)
    requires db.Valid()
    modifies db
    ensures db.Valid()
    ensures db.notes == old(db.notes)
    ensures reply.Unauthorized? <==> !SignedIn(userId)
    ensures reply.Failed? <==> SignedIn(userId) && body.Unparsable?
    ensures reply.Invalid? <==> SignedIn(userId) && body.Parsed? && !WellFormed(body.value)
    ensures reply.Subscribed? ==>
              var s := body.value.value;
              && userId.value in db.users
              && db.subscriptions == old(db.subscriptions)[s.endpoint.value :=
                   PushSubscription(s.endpoint.value, s.keys.value.p256dh.value, s.keys.value.auth.value, userId.value)]
    ensures !reply.Subscribed? ==> db.users == old(db.users) && db.subscriptions == old(db.subscriptions)
  {
    if !SignedIn(userId) {
      return Unauthorized;
    }
    if body.Unparsable? {
      return Failed;
    }
    if !WellFormed(body.value) {
      return Invalid;
    }
    var s := body.value.value;
    db.UpsertUser(userId.value);
    db.UpsertSubscription(s.endpoint.value, s.keys.value.p256dh.value, s.keys.value.auth.value, userId.value);
    reply := Subscribed;
  }
}

=== FILE: push_test_route.dfy ===
/**
 * `POST /api/push/test`: sends a test notification to every push
 * subscription of the caller and reports how many deliveries failed.
 *
 * The VAPID keys come from the environment and are parameters. The push
 * service is `delivered(subscription)`: whether the send to that
 * subscription is fulfilled (`Promise.allSettled` waits for all of them).
 */
module PushTestRoute {
  import opened Wrappers
  import opened Text
  import opened Http
  import Listing
  import opened Store

  datatype TestBody = TestBody(title: Option<string>, message: Option<string>, url: Option<string>)

  /** The JSON payload every subscription receives. */
  datatype Payload = Payload(title: string, message: string, url: string)

  datatype TestReply =
    | Unauthorized
    | KeysMissing
    | NoSubscriptions
    | AllFailed
    | Sent(sent: nat, failed: nat)
  {
    function Status(): int {
      match this
      case Unauthorized => 401
      case KeysMissing => 400
      case NoSubscriptions => 404
      case AllFailed => 500
      case Sent(_, _) => 200
    }
  }

  /**
   * The payload: a body that does not parse counts as `{}`; each field
   * falls back to its default when falsy.
   */
  function TestPayload(body: Body<TestBody>): (p: Payload)
    ensures body.Unparsable? ==> p == Payload("Notely", "Your test notification is working.", "/notes")
    ensures body.Parsed? ==>
              && p.title == OrElse(body.value.title, "Notely")
              && p.message == OrElse(body.value.message, "Your test notification is working.")
              && p.url == OrElse(body.value.url, "/notes")
    ensures p.title != "" && p.message != "" && p.url != ""
  {
    var b := if body.Parsed? then body.value else TestBody(None, None, None);
    Payload(OrElse(b.title, "Notely"), OrElse(b.message, "Your test notification is working."),
            OrElse(b.url, "/notes"))
  }

  /** The rejected sends, in subscription order. */
  function Rejected(subs: seq<PushSubscription>, delivered: PushSubscription -> bool): seq<PushSubscription> {
    Listing.Filter(subs, s => !delivered(s))
  }

  /** One `sendNotification` call: the subscription addressed and the payload sent to it. */
  datatype Send = Send(subscription: PushSubscription, payload: Payload)

  /** The reply and the sends the handler made, in subscription order. */
  datatype TestOutcome = TestOutcome(reply: TestReply, sends: seq<Send>)

  /** `subscriptions.map(sub => sendNotification(sub, payload))`. */
  function Sends(subs: seq<PushSubscription>, p: Payload): (r: seq<Send>)
    ensures |r| == |subs| && forall i :: 0 <= i < |subs| ==> r[i] == Send(subs[i], p)
  {
    seq(|subs|, i requires 0 <= i < |subs| => Send(subs[i], p))
  }

  /**
   * The handler, given the caller's subscriptions `subs` as the store
   * returns them. Sends are attempted only when there is a user, both keys
   * and at least one subscription, one per subscription, all with the
   * payload made from the body. The reply is 500 exactly when every send
   * is rejected; otherwise it counts all sends and the rejected ones, and at
   * least one send went through.
   */
  function PushTest(userId: Option<string>, publicKey: Option<string>, privateKey: Option<string>,
                    body: Body<TestBody>, subs: seq<PushSubscription>,
                    delivered: PushSubscription -> bool): (o: TestOutcome)
    ensures o.reply.Unauthorized? <==> !SignedIn(userId)
    ensures o.reply.KeysMissing? <==> SignedIn(userId) && !(Truthy(publicKey) && Truthy(privateKey))
    ensures o.reply.NoSubscriptions? <==> SignedIn(userId) && Truthy(publicKey) && Truthy(privateKey) && subs == []
    ensures o.reply.AllFailed? <==>
              SignedIn(userId) && Truthy(publicKey) && Truthy(privateKey) && subs != [] &&
              forall i :: 0 <= i < |subs| ==> !delivered(subs[i])
    ensures o.reply.Sent? ==> o.reply.sent == |subs| && o.reply.failed == |Rejected(subs, delivered)|
    ensures o.reply.Sent? ==> o.reply.failed < o.reply.sent && exists i :: 0 <= i < |subs| && delivered(subs[i])
    ensures o.sends != [] <==> SignedIn(userId) && Truthy(publicKey) && Truthy(privateKey) && subs != []
    ensures o.sends != [] ==>
              |o.sends| == |subs| && forall i :: 0 <= i < |subs| ==> o.sends[i] == Send(subs[i], TestPayload(body))
  {
    if !SignedIn(userId) then TestOutcome(Unauthorized, [])
    else if !(Truthy(publicKey) && Truthy(privateKey)) then TestOutcome(KeysMissing, [])
    else if subs == [] then TestOutcome(NoSubscriptions, [])
    else
      var sends := Sends(subs, TestPayload(body));
      var rejected := Rejected(subs, delivered);
      Listing.FilterKeepsLength(subs, s => !delivered(s));
      if |rejected| == |subs| then TestOutcome(AllFailed, sends)
      else TestOutcome(Sent(|subs|, |rejected|), sends)
  }
}

=== FILE: rich_text.dfy ===
/**
 * The plain-text projection of a note's rich-text content
 * (`extractPlainText`). The notes, summarize and complete routes each carry
 * an identical copy of it; this module is the one definition all three use.
 *
 * Content arrives as untyped JSON. The extractor only ever looks at two
 * properties of a node, `text` (is it a string?) and `children` (is it an
 * array?), so a node is modelled by exactly those, plus the block `type`
 * that the share-target route writes. An array element that is `null` or
 * `undefined` is `Null`: reading `node.text` on it throws a TypeError.
 */
module RichText {
  import opened Wrappers
  import opened Text

  datatype Node =
    | Null
    | Value(kind: Option<string>, text: Option<string>, childrenIsArray: bool, children: seq<Node>)

  /**
   * The `content` field: not an array (`truthy` tells a present object or
   * string from a missing or falsy value), or an array of nodes.
   */
  datatype Content = NotArray(truthy: bool) | Blocks(nodes: seq<Node>)

  /** A text leaf `{ text: t }`. */
  function Leaf(t: string): Node {
    Value(None, Some(t), false, [])
  }

  /** An element `{ type: kind, children: children }`. */
  function Element(kind: string, children: seq<Node>): Node {
    Value(Some(kind), None, true, children)
  }

  /**
   * `extractText(node)`: a string `text` wins, else the children's
   * extractions joined with no separator, else "". `None` stands for the
   * TypeError thrown when the traversal reaches a `null` node.
   */
  function ExtractText(n: Node): (r: Option<string>)
    ensures n.Value? && n.text.Some? ==> r == n.text
    ensures r.None? ==> n.Null? || (n.text.None? && n.childrenIsArray)
    ensures r.Some? && n.Value? && n.text.None? && n.childrenIsArray ==>
              forall i :: 0 <= i < |n.children| ==>
                ExtractText(n.children[i]).Some? && Contains(r.value, ExtractText(n.children[i]).value)
  {
    match n
    case Null => None
    case Value(_, text, childrenIsArray, children) =>
      if text.Some? then text
      else if childrenIsArray then
        match ExtractAll(children)
        case None => None
        case Some(parts) =>
          JoinContainsAll(parts, "");
          Some(Join(parts, ""))
      else Some("")
  }

  /** `nodes.map(extractText)`: every node's extraction, or the first throw. */
  function ExtractAll(ns: seq<Node>): (r: Option<seq<string>>)
    ensures r.Some? <==> forall i :: 0 <= i < |ns| ==> ExtractText(ns[i]).Some?
    ensures r.Some? ==> |r.value| == |ns|
    ensures r.Some? ==> forall i :: 0 <= i < |ns| ==> r.value[i] == ExtractText(ns[i]).value
  {
    if ns == [] then Some([])
    else
      match ExtractText(ns[0])
      case None => None
      case Some(h) =>
        match ExtractAll(ns[1..])
        case None => None
        case Some(t) =>
          assert forall i :: 1 <= i < |ns| ==> ns[i] == ns[1..][i - 1];
          Some([h] + t)
  }

  /**
   * `extractPlainText(content)`: "" for non-array content; otherwise the
   * top-level blocks' extractions joined by "\n" and trimmed.
   */
  function ExtractPlainText(c: Content): (r: Option<string>)
    ensures c.NotArray? ==> r == Some("")
    ensures r.Some? ==> NoEdgeWhitespace(r.value)
    ensures c.Blocks? ==> (r.Some? <==> ExtractAll(c.nodes).Some?)
    ensures c.Blocks? && r.Some? ==> exists i :: CutFrom(Join(ExtractAll(c.nodes).value, "\n"), r.value, i)
  {
    match c
    case NotArray(_) => Some("")
    case Blocks(nodes) =>
      match ExtractAll(nodes)
      case None => None
      case Some(parts) => Some(Trim(Join(parts, "\n")))
  }

  // ---------------------------------------------------------------------
  // Properties
  // ---------------------------------------------------------------------

  /** A node with a string `text` yields exactly that text, whatever its children. */
  lemma LeafWins(kind: Option<string>, t: string, childrenIsArray: bool, children: seq<Node>)
    ensures ExtractText(Value(kind, Some(t), childrenIsArray, children)) == Some(t)
  {
  }

  /** A node with neither a string `text` nor a `children` array yields "". */
  lemma BareNodeIsEmpty(kind: Option<string>)
    ensures ExtractText(Value(kind, None, false, [])) == Some("")
  {
  }

  /** The traversal reaches a `null`: the condition under which the extractor throws. */
  predicate ReachesNull(n: Node) {
    match n
    case Null => true
    case Value(_, text, childrenIsArray, children) =>
      text.None? && childrenIsArray && exists i :: 0 <= i < |children| && ReachesNull(children[i])
  }

  /** The extractor fails exactly when it reaches a `null` node. */
  lemma {:induction false} ExtractTextFailsIffNull(n: Node)
    ensures ExtractText(n).None? <==> ReachesNull(n)
  {
    match n
    case Null =>
    case Value(_, text, childrenIsArray, children) =>
      if text.None? && childrenIsArray {
        forall i | 0 <= i < |children|
          ensures ExtractText(children[i]).None? <==> ReachesNull(children[i])
        {
          ExtractTextFailsIffNull(children[i]);
        }
      }
  }

  /** Joining two lists of parts with "" is concatenating their joins. */
  lemma {:induction false} JoinEmptyAppend(a: seq<string>, b: seq<string>)
    ensures Join(a + b, "") == Join(a, "") + Join(b, "")
  {
    if a == [] {
      assert a + b == b;
    } else if |a| == 1 {
      if b != [] {
        assert (a + b)[1..] == b;
      }
    } else {
      assert (a + b)[1..] == a[1..] + b;
      JoinEmptyAppend(a[1..], b);
    }
  }

  lemma {:induction false} ExtractAllAppend(a: seq<Node>, b: seq<Node>)
    requires ExtractAll(a).Some? && ExtractAll(b).Some?
    ensures ExtractAll(a + b) == Some(ExtractAll(a).value + ExtractAll(b).value)
  {
    var ab := a + b;
    assert forall i :: 0 <= i < |ab| ==> ExtractText(ab[i]).Some? by {
      forall i | 0 <= i < |ab| ensures ExtractText(ab[i]).Some? {
        if i < |a| { assert ab[i] == a[i]; } else { assert ab[i] == b[i - |a|]; }
      }
    }
    var r := ExtractAll(ab).value;
    var s := ExtractAll(a).value + ExtractAll(b).value;
    assert |r| == |s|;
    forall i | 0 <= i < |r| ensures r[i] == s[i] {
      if i < |a| { assert ab[i] == a[i]; } else { assert ab[i] == b[i - |a|]; }
    }
    assert r == s;
  }

  /**
   * Inline children concatenate with no separator: splitting an element's
   * children in two splits its extraction in two, in order.
   */
  lemma ElementConcatenates(kind: Option<string>, a: seq<Node>, b: seq<Node>)
    requires ExtractAll(a).Some? && ExtractAll(b).Some?
    ensures ExtractText(Value(kind, None, true, a + b)) ==
            Some(ExtractText(Value(kind, None, true, a)).value + ExtractText(Value(kind, None, true, b)).value)
  {
    ExtractAllAppend(a, b);
    JoinEmptyAppend(ExtractAll(a).value, ExtractAll(b).value);
  }

  /** Wrapping a node in an element of its own does not change its text. */
  lemma WrapperIsTransparent(kind: string, n: Node)
    ensures ExtractText(Element(kind, [n])) == ExtractText(n)
  {
  }

  /** `[{type:"p",children:[{text:"Hello "},{text:"world"}]}]` projects to "Hello world". */
  lemma HelloWorldExample()
    ensures ExtractPlainText(Blocks([Element("p", [Leaf("Hello "), Leaf("world")])])) == Some("Hello world")
  {
    var inner := [Leaf("Hello "), Leaf("world")];
    assert ExtractAll(inner).value == ["Hello ", "world"];
    assert ["Hello ", "world"][1..] == ["world"];
    assert Join(["Hello ", "world"], "") == "Hello world";
    assert ExtractAll([Element("p", inner)]).value == ["Hello world"];
    TrimNoEdge("Hello world");
  }

  /** Two paragraphs "A" and "B" project to "A\nB". */
  lemma TwoBlocksExample()
    ensures ExtractPlainText(Blocks([Element("p", [Leaf("A")]), Element("p", [Leaf("B")])])) == Some("A\nB")
  {
    var blocks := [Element("p", [Leaf("A")]), Element("p", [Leaf("B")])];
    assert ExtractText(blocks[0]) == Some("A");
    assert ExtractText(blocks[1]) == Some("B");
    assert ExtractAll(blocks).value == ["A", "B"];
    assert ["A", "B"][1..] == ["B"];
    assert Join(["A", "B"], "\n") == "A\nB";
    TrimNoEdge("A\nB");
  }
}

=== FILE: search_route.dfy ===
/**
 * `POST /api/ai/search`: a case-insensitive text search over the caller's
 * live notes, or a semantic search that ranks them by embedding similarity
 * to the query.
 *
 * Embeddings and cosine similarity are not computed here: `similarity(text)`
 * stands for the cosine similarity between the query's embedding and the
 * embedding of `text` (`None` when that embedding call throws), and
 * `queryEmbeds` says whether embedding the query itself succeeds. The
 * language model is `generate(prompt)`, `None` when it throws.
 */
module SearchRoute {
  import opened Wrappers
  import opened Text
  import opened Http
  import Listing
  import opened Store

  datatype SearchBody = SearchBody(query: Option<string>, useAi: Option<bool>)

  /** A candidate note with its similarity to the query. */
  datatype Scored = Scored(note: Note, similarity: real)

  /** A result of the semantic search: the note and `Math.round(similarity * 100)`. */
  datatype Ranked = Ranked(note: Note, relevanceScore: int)

  datatype SearchReply =
    | Unauthorized
    | QueryRequired
    | TextResults(notes: seq<Note>)
    | SemanticResults(ranked: seq<Ranked>, aiResponse: Option<string>)
    | Failed
  {
    function Status(): int {
      match this
      case Unauthorized => 401
      case QueryRequired => 400
      case TextResults(_) => 200
      case SemanticResults(_, _) => 200
      case Failed => 500
    }
  }

  /** The reply and how many calls the route made to the embedding model and the language model. */
  datatype Outcome = Outcome(reply: SearchReply, embedCalls: nat, generateCalls: nat)

  /** A query is accepted when it is present and has a non-whitespace character. */
  predicate QueryAccepted(query: Option<string>) {
    query.Some? && !AllWhitespace(query.value)
  }

  /** That is the route's test `!query || query.trim().length === 0`, negated. */
  lemma QueryAcceptedIsTrimTest(query: Option<string>)
    ensures QueryAccepted(query) <==> Truthy(query) && Trim(query.value) != ""
  {
    TrimEmptyIffBlank(query.GetOr(""));
  }

  // ---------------------------------------------------------------------
  // Text search
  // ---------------------------------------------------------------------

  /** The `where` of the text search: own, not archived, query in title or plain text. */
  predicate TextMatch(userId: string, query: string, n: Note) {
    && n.userId == userId
    && !n.isArchived
    && (ContainsIgnoreCase(n.title, query) ||
        (n.plainText.Some? && ContainsIgnoreCase(n.plainText.value, query)))
  }

  /** Both sides are lower-cased, so the case the query is typed in does not matter. */
  lemma TextMatchIgnoresQueryCase(userId: string, query: string, n: Note)
    ensures TextMatch(userId, query, n) <==> TextMatch(userId, Lower(query), n)
  {
    LowerIdempotent(query);
  }

  function UpdatedAt(n: Note): real {
    n.updatedAt as real
  }

  const TextLimit := 20

  /**
   * `textSearch`: the matching notes, most recently updated first, at most
   * 20 of them, and none left out that was updated later than one kept.
   */
  function TextSearch(notes: seq<Note>, userId: string, query: string): (r: seq<Note>)
    ensures |r| <= TextLimit
    ensures forall i :: 0 <= i < |r| ==> TextMatch(userId, query, r[i])
    ensures Listing.SortedDesc(r, UpdatedAt)
    ensures multiset(r) <= multiset(notes)
    ensures forall k :: 0 <= k < |notes| && TextMatch(userId, query, notes[k]) && notes[k] !in r ==>
              |r| == TextLimit && forall i :: 0 <= i < |r| ==> r[i].updatedAt >= notes[k].updatedAt
  {
    Listing.Top(notes, n => TextMatch(userId, query, n), UpdatedAt, TextLimit)
  }

  // ---------------------------------------------------------------------
  // Semantic search
  // ---------------------------------------------------------------------

  /** The semantic candidates: own, not archived, with a plain text. */
  predicate Candidate(userId: string, n: Note) {
    n.userId == userId && !n.isArchived && n.plainText.Some?
  }

  /**
   * The candidate query: the caller's unarchived notes that have a plain
   * text, in storage order.
   */
  function Candidates(notes: seq<Note>, userId: string): (r: seq<Note>)
    ensures forall i :: 0 <= i < |r| ==> r[i].userId == userId && !r[i].isArchived && r[i].plainText.Some?
    ensures forall k :: 0 <= k < |notes| && Candidate(userId, notes[k]) ==> notes[k] in r
    ensures multiset(r) <= multiset(notes)
  {
    Listing.Filter(notes, n => Candidate(userId, n))
  }

  const EmbedLimit := 8000

  /** What gets embedded for a note: its title and plain text, cut to 8000 characters. */
  function EmbedInput(n: Note): (s: string)
    ensures |s| <= EmbedLimit && |s| <= |EmbedSource(n)|
    ensures s == EmbedSource(n)[..|s|]
    ensures |EmbedSource(n)| <= EmbedLimit ==> s == EmbedSource(n)
  {
    Listing.Take(EmbedSource(n), EmbedLimit)
  }

  /** `${note.title}\n${note.plainText || ""}`. */
  function EmbedSource(n: Note): string {
    n.title + "\n" + OrElse(n.plainText, "")
  }

  /** `Promise.all` over the candidates: every score in order, or `None` as soon as one embedding throws. */
  function ScoreAll(notes: seq<Note>, similarity: string -> Option<real>): (r: Option<seq<Scored>>)
    ensures r.Some? <==> forall i :: 0 <= i < |notes| ==> similarity(EmbedInput(notes[i])).Some?
    ensures r.Some? ==> |r.value| == |notes|
    ensures r.Some? ==> forall i :: 0 <= i < |notes| ==>
              r.value[i] == Scored(notes[i], similarity(EmbedInput(notes[i])).value)
  {
    if notes == [] then Some([])
    else
      match similarity(EmbedInput(notes[0]))
      case None => None
      case Some(s) =>
        match ScoreAll(notes[1..], similarity)
        case None => None
        case Some(rest) =>
          assert forall i :: 1 <= i < |notes| ==> notes[i] == notes[1..][i - 1];
          Some([Scored(notes[0], s)] + rest)
  }

  const Threshold: real := 0.3
  const SemanticLimit := 10

  function Similarity(s: Scored): real {
    s.similarity
  }

  predicate Relevant(s: Scored) {
    s.similarity > Threshold
  }

  /**
   * `filter(similarity > 0.3).sort((a, b) => b.similarity - a.similarity).slice(0, 10)`.
   */
  function TopMatches(scored: seq<Scored>): (r: seq<Scored>)
    ensures |r| <= SemanticLimit
    ensures forall i :: 0 <= i < |r| ==> Relevant(r[i])
    ensures Listing.SortedDesc(r, Similarity)
    ensures multiset(r) <= multiset(scored)
    ensures forall k :: 0 <= k < |scored| && Relevant(scored[k]) && scored[k] !in r ==>
              |r| == SemanticLimit && forall i :: 0 <= i < |r| ==> r[i].similarity >= scored[k].similarity
  {
    Listing.Top(scored, Relevant, Similarity, SemanticLimit)
  }

  /** `Math.round`: the nearest integer, halves rounded up. */
  function Round(x: real): (n: int)
    ensures n as real - 0.5 <= x < n as real + 0.5
  {
    (x + 0.5).Floor
  }

  function ToRanked(s: Scored): (r: Ranked)
    ensures r.note == s.note
  {
    Ranked(s.note, Round(s.similarity * 100.0))
  }

  /** `.map(({ note, similarity }) => ({ ...note, relevanceScore }))`. */
  function RankAll(top: seq<Scored>): (r: seq<Ranked>)
    ensures |r| == |top| && forall i :: 0 <= i < |top| ==> r[i] == ToRanked(top[i])
  {
    if top == [] then [] else [ToRanked(top[0])] + RankAll(top[1..])
  }

  /** The top matches with their relevance scores: at most ten, each scored at least 30, each one of the scored notes. */
  function Rank(scored: seq<Scored>): (r: seq<Ranked>)
    ensures |r| <= SemanticLimit
    ensures forall i :: 0 <= i < |r| ==> r[i].relevanceScore >= 30
    ensures forall i :: 0 <= i < |r| ==> exists k :: 0 <= k < |scored| && scored[k].note == r[i].note
  {
    var top := TopMatches(scored);
    Listing.SubMultisetFrom(top, scored);
    RankAll(top)
  }

  function Titles(ranked: seq<Ranked>): (titles: seq<string>)
    ensures |titles| == |ranked| && forall i :: 0 <= i < |ranked| ==> titles[i] == ranked[i].note.title
  {
    if ranked == [] then [] else [ranked[0].note.title] + Titles(ranked[1..])
  }

  /** The prompt asking the model to explain the results. */
  function ExplainPrompt(query: string, ranked: seq<Ranked>): (p: string)
    ensures StartsWith(p, "User searched for: \"" + query + "\"")
    ensures forall i :: 0 <= i < |ranked| ==> Contains(p, ranked[i].note.title)
  {
    var head := "User searched for: \"" + query + "\"\nFound " + NatToString(|ranked|) +
                " relevant notes with titles: ";
    var titles := Titles(ranked);
    JoinContainsAll(titles, ", ");
    forall i | 0 <= i < |ranked| ensures Contains(head + Join(titles, ", "), ranked[i].note.title) {
      var j :| OccursAt(Join(titles, ", "), titles[i], j);
      OccursInSuffix(head, Join(titles, ", "), titles[i], j);
    }
    head + Join(titles, ", ")
  }

  /**
   * `semanticSearch`: no candidates is an empty list with no model call at
   * all; otherwise one embedding for the query and one per candidate, then
   * the ranked top matches, explained by the model only when there is at
   * least one.
   */
  function SemanticSearch(notes: seq<Note>, userId: string, query: string, queryEmbeds: bool,
                          similarity: string -> Option<real>, generate: string -> Option<string>): (o: Outcome)
    ensures Candidates(notes, userId) == [] ==> o == Outcome(SemanticResults([], None), 0, 0)
    ensures Candidates(notes, userId) != [] && o.reply.SemanticResults? ==>
              && queryEmbeds
              && ScoreAll(Candidates(notes, userId), similarity).Some?
              && o.reply.ranked == Rank(ScoreAll(Candidates(notes, userId), similarity).value)
    ensures Candidates(notes, userId) != [] ==>
              o.embedCalls == (if queryEmbeds then 1 + |Candidates(notes, userId)| else 1)
    ensures o.reply.Failed? <==>
              && Candidates(notes, userId) != []
              && (|| !queryEmbeds
                  || ScoreAll(Candidates(notes, userId), similarity).None?
                  || (var ranked := Rank(ScoreAll(Candidates(notes, userId), similarity).value);
                      ranked != [] && generate(ExplainPrompt(query, ranked)).None?))
    ensures o.reply.SemanticResults? && o.reply.ranked == [] ==> o.generateCalls == 0
    ensures o.reply.SemanticResults? && o.reply.ranked != [] ==>
              o.generateCalls == 1 && o.reply.aiResponse == generate(ExplainPrompt(query, o.reply.ranked))
    ensures Candidates(notes, userId) != [] && o.reply.SemanticResults? && o.reply.ranked == [] ==>
              o.reply.aiResponse == Some("")
    ensures o.reply.SemanticResults? || o.reply.Failed?
    ensures o.generateCalls <= 1
  {
    var candidates := Candidates(notes, userId);
    if candidates == [] then Outcome(SemanticResults([], None), 0, 0)
    else if !queryEmbeds then Outcome(Failed, 1, 0)
    else
      match ScoreAll(candidates, similarity)
      case None => Outcome(Failed, 1 + |candidates|, 0)
      case Some(scored) =>
        var ranked := Rank(scored);
        if ranked == [] then Outcome(SemanticResults([], Some("")), 1 + |candidates|, 0)
        else
          match generate(ExplainPrompt(query, ranked))
          case None => Outcome(Failed, 1 + |candidates|, 1)
          case Some(text) => Outcome(SemanticResults(ranked, Some(text)), 1 + |candidates|, 1)
  }

  /**
   * The handler: 401 without a user, 500 when the body does not parse,
   * 400 for a missing or blank query, then the semantic search when
   * `useAi` is true and the text search otherwise (`useAi` defaults to false).
   */
  function Search(notes: seq<Note>, userId: Option<string>, body: Body<SearchBody>, queryEmbeds: bool,
                  similarity: string -> Option<real>, generate: string -> Option<string>): (o: Outcome)
    ensures o.reply.Unauthorized? <==> !SignedIn(userId)
    ensures o.reply.QueryRequired? <==> SignedIn(userId) && body.Parsed? && !QueryAccepted(body.value.query)
    ensures o.reply.TextResults? <==>
              SignedIn(userId) && body.Parsed? && QueryAccepted(body.value.query) && body.value.useAi != Some(true)
    ensures o.reply.TextResults? ==> o.reply.notes == TextSearch(notes, userId.value, body.value.query.value)
    ensures o.reply.SemanticResults? ==>
              SignedIn(userId) && body.Parsed? && QueryAccepted(body.value.query) && body.value.useAi == Some(true) &&
              o == SemanticSearch(notes, userId.value, body.value.query.value, queryEmbeds, similarity, generate)
    ensures !o.reply.SemanticResults? && !o.reply.Failed? ==> o.embedCalls == 0 && o.generateCalls == 0
  {
    if !SignedIn(userId) then Outcome(Unauthorized, 0, 0)
    else if body.Unparsable? then Outcome(Failed, 0, 0)
    else if !QueryAccepted(body.value.query) then Outcome(QueryRequired, 0, 0)
    else if body.value.useAi.GetOr(false) then
      SemanticSearch(notes, userId.value, body.value.query.value, queryEmbeds, similarity, generate)
    else Outcome(TextResults(TextSearch(notes, userId.value, body.value.query.value)), 0, 0)
  }

  // ---------------------------------------------------------------------
  // Properties of the ranking
  // ---------------------------------------------------------------------

  /**
   * Equally similar notes keep their candidate order through the sort
   * (besides the properties `Listing.Top` promises: above the threshold,
   * most similar first, at most ten, nothing relevant left out that beats
   * one kept).
   */
  lemma TopMatchesStable(scored: seq<Scored>, k: real)
    ensures Listing.WithKey(Listing.SortDesc(Listing.Filter(scored, Relevant), Similarity), Similarity, k) ==
            Listing.WithKey(Listing.Filter(scored, Relevant), Similarity, k)
  {
    Listing.SortDescStable(Listing.Filter(scored, Relevant), Similarity, k);
  }

  /** A relevant similarity (above 0.3, at most 1) scores between 30 and 100. */
  lemma RelevanceScoreBounds(s: Scored)
    requires Relevant(s) && s.similarity <= 1.0
    ensures 30 <= ToRanked(s).relevanceScore <= 100
  {
  }

  /** Rounding keeps the order: the relevance scores never increase down the list. */
  lemma {:induction false} RoundMonotone(x: real, y: real)
    requires x >= y
    ensures Round(x) >= Round(y)
  {
  }

  lemma RankedScoresDescend(scored: seq<Scored>)
    ensures forall i, j :: 0 <= i < j < |Rank(scored)| ==> Rank(scored)[i].relevanceScore >= Rank(scored)[j].relevanceScore
  {
    var top := TopMatches(scored);
    forall i, j | 0 <= i < j < |top| ensures ToRanked(top[i]).relevanceScore >= ToRanked(top[j]).relevanceScore {
      RoundMonotone(top[i].similarity * 100.0, top[j].similarity * 100.0);
    }
  }

  /** Similarities 0.9, 0.5, 0.3, 0.1 keep the first two, scored 90 and 50 (0.3 is not above the threshold). */
  lemma ThresholdExample(a: Note, b: Note, c: Note, d: Note)
    ensures Rank([Scored(a, 0.9), Scored(b, 0.5), Scored(c, 0.3), Scored(d, 0.1)]) ==
            [Ranked(a, 90), Ranked(b, 50)]
  {
    var scored := [Scored(a, 0.9), Scored(b, 0.5), Scored(c, 0.3), Scored(d, 0.1)];
    var relevant := [Scored(a, 0.9), Scored(b, 0.5)];
    ThresholdTop(scored, relevant);
    RankTwo(a, b);
  }

  lemma ThresholdTop(scored: seq<Scored>, relevant: seq<Scored>)
    requires |scored| == 4 && |relevant| == 2
    requires scored[0].similarity == 0.9 && scored[1].similarity == 0.5
    requires scored[2].similarity == 0.3 && scored[3].similarity == 0.1
    requires relevant == scored[..2]
    ensures TopMatches(scored) == relevant
  {
    ThresholdFilter(scored, relevant);
    TwoSorted(relevant);
    assert Listing.Take(relevant, SemanticLimit) == relevant;
  }

  lemma RankTwo(a: Note, b: Note)
    ensures RankAll([Scored(a, 0.9), Scored(b, 0.5)]) == [Ranked(a, 90), Ranked(b, 50)]
  {
    assert Round(0.9 * 100.0) == 90;
    assert Round(0.5 * 100.0) == 50;
  }

  lemma ThresholdFilter(scored: seq<Scored>, relevant: seq<Scored>)
    requires |scored| == 4 && |relevant| == 2
    requires scored[0].similarity == 0.9 && scored[1].similarity == 0.5
    requires scored[2].similarity == 0.3 && scored[3].similarity == 0.1
    requires relevant == scored[..2]
    ensures Listing.Filter(scored, Relevant) == relevant
  {
    assert scored[3..][1..] == [];
    assert Listing.Filter(scored[3..], Relevant) == [];
    assert scored[2..][1..] == scored[3..];
    assert Listing.Filter(scored[2..], Relevant) == [];
    assert scored[1..][1..] == scored[2..];
    assert Listing.Filter(scored[1..], Relevant) == [scored[1]];
    assert Listing.Filter(scored, Relevant) == [scored[0]] + [scored[1]];
  }

  lemma TwoSorted(relevant: seq<Scored>)
    requires |relevant| == 2 && relevant[0].similarity >= relevant[1].similarity
    ensures Listing.SortDesc(relevant, Similarity) == relevant
  {
    assert relevant[1..] == [relevant[1]];
    assert Listing.SortDesc([relevant[1]], Similarity) == [relevant[1]];
  }

  /**
   * Equally similar relevant candidates come out in candidate order: the
   * first ten of them (all of them when there are fewer).
   */
  lemma TiesKeepCandidateOrder(scored: seq<Scored>, k: real)
    requires k > Threshold
    requires forall i :: 0 <= i < |scored| ==> scored[i].similarity == k
    ensures TopMatches(scored) == scored[..if |scored| <= SemanticLimit then |scored| else SemanticLimit]
  {
    assert forall i :: 0 <= i < |scored| ==> Relevant(scored[i]);
    Listing.FilterKeepsAll(scored, Relevant);
    assert forall i :: 0 <= i < |scored| ==> Similarity(scored[i]) == k;
    Listing.SortDescEqualKeys(scored, Similarity, k);
  }
}

=== FILE: service_worker.dfy ===
/**
 * The service worker's two event handlers: `push` turns a push message into
 * a notification, `notificationclick` brings the user to the notification's
 * page, focusing a window that already shows it when there is one.
 */
module ServiceWorker {
  import opened Wrappers
  import opened Text

  /** A push message: no payload, a payload that is not JSON, or JSON fields. */
  datatype PushData =
    | NoData
    | NotJson
    | Fields(title: Option<string>, message: Option<string>, url: Option<string>)

  const Icon := "/icon-192x192.png"

  datatype Notification = Notification(title: string, body: string, icon: string, badge: string, url: string)

  /**
   * The `push` handler: a missing payload counts as `{}`, each field falls
   * back to its default, and a payload that is not JSON is caught and shows
   * nothing.
   */
  function OnPush(data: PushData): (n: Option<Notification>)
    ensures n.None? <==> data.NotJson?
    ensures data.NoData? ==> n == Some(Notification("Notely", "You have a new notification.", Icon, Icon, "/notes"))
    ensures data.Fields? ==>
              n == Some(Notification(OrElse(data.title, "Notely"), OrElse(data.message, "You have a new notification."),
                                     Icon, Icon, OrElse(data.url, "/notes")))
    ensures n.Some? ==> n.value.title != "" && n.value.body != "" && n.value.url != ""
  {
    match data
    case NotJson => None
    case NoData => Some(Notification("Notely", "You have a new notification.", Icon, Icon, "/notes"))
    case Fields(title, message, url) =>
      Some(Notification(OrElse(title, "Notely"), OrElse(message, "You have a new notification."),
                        Icon, Icon, OrElse(url, "/notes")))
  }

  /** A window client: its URL and whether it can be focused. */
  datatype Client = Client(url: string, focusable: bool)

  datatype ClickAction = Focus(index: nat) | OpenWindow(url: string) | Nothing

  /** The client the click handler focuses: it shows `url` and can be focused. */
  predicate Focusable(c: Client, url: string) {
    Contains(c.url, url) && c.focusable
  }

  /**
   * The `notificationclick` handler once the notification is closed: the
   * target is the notification's URL, or "/notes"; the first window client
   * whose URL contains it and that can be focused is focused; failing that a
   * new window is opened when the browser allows it, else nothing happens.
   */
  method OnNotificationClick(dataUrl: Option<string>, clients: seq<Client>, canOpenWindow: bool)
    returns (action: ClickAction)
    ensures action.Focus? ==>
              && action.index < |clients|
              && Focusable(clients[action.index], OrElse(dataUrl, "/notes"))
              && forall j :: 0 <= j < action.index ==> !Focusable(clients[j], OrElse(dataUrl, "/notes"))
    ensures !action.Focus? ==> forall j :: 0 <= j < |clients| ==> !Focusable(clients[j], OrElse(dataUrl, "/notes"))
    ensures action.OpenWindow? <==>
              canOpenWindow && forall j :: 0 <= j < |clients| ==> !Focusable(clients[j], OrElse(dataUrl, "/notes"))
    ensures action.OpenWindow? ==> action.url == OrElse(dataUrl, "/notes")
  {
    var url := OrElse(dataUrl, "/notes");
    var i := 0;
    while i < |clients|
      invariant 0 <= i <= |clients|
      invariant forall j :: 0 <= j < i ==> !Focusable(clients[j], url)
    {
      if Contains(clients[i].url, url) && clients[i].focusable {
        return Focus(i);
      }
      i := i + 1;
    }
    if canOpenWindow {
      return OpenWindow(url);
    }
    return Nothing;
  }
}

=== FILE: share_target.dfy ===
/**
 * `POST /share-target`: the operating system's share sheet posts a form with
 * `title`, `text` and `url`; the route turns it into a note whose content is
 * a heading plus up to two paragraphs, and redirects the browser.
 *
 * This route computes the note's plain text with its own, shallower
 * extractor: it looks only one level down, and only at children's `text`.
 */
module ShareTarget {
  import opened Wrappers
  import opened Text
  import opened Http
  import opened RichText
  import opened Store

  /** The form fields; `None` is a field that is absent. */
  datatype Form = Form(title: Option<string>, text: Option<string>, url: Option<string>)

  // ---------------------------------------------------------------------
  // The shallow extractor
  // ---------------------------------------------------------------------

  /** `typeof child.text === "string" ? child.text : ""`; `None` when `child` is null. */
  function ChildText(child: Node): (r: Option<string>)
    ensures r.None? <==> child.Null?
    ensures child.Value? && child.text.Some? ==> r == child.text
    ensures child.Value? && child.text.None? ==> r == Some("")
  {
    match child
    case Null => None
    case Value(_, text, _, _) => if text.Some? then text else Some("")
  }

  /** `children.map(...)`: every child's text, or `None` when one of them is null. */
  function ChildTexts(children: seq<Node>): (r: Option<seq<string>>)
    ensures r.Some? <==> forall i :: 0 <= i < |children| ==> children[i].Value?
    ensures r.Some? ==> |r.value| == |children|
    ensures r.Some? ==> forall i :: 0 <= i < |children| ==> r.value[i] == ChildText(children[i]).value
  {
    if children == [] then Some([])
    else
      match ChildText(children[0])
      case None => None
      case Some(h) =>
        match ChildTexts(children[1..])
        case None => None
        case Some(t) =>
          assert forall i :: 1 <= i < |children| ==> children[i] == children[1..][i - 1];
          Some([h] + t)
  }

  /**
   * One block: when it has a non-empty `children` array, its children's
   * texts joined with no separator, else "". The block's own `text` is
   * never read. `None` is the TypeError on a null block or null child.
   */
  function BlockText(block: Node): (r: Option<string>)
    ensures r.None? <==>
              block.Null? || (block.childrenIsArray && exists i :: 0 <= i < |block.children| && block.children[i].Null?)
    ensures block.Value? && !(block.childrenIsArray && |block.children| > 0) ==> r == Some("")
    ensures r.Some? && block.childrenIsArray ==>
              forall i :: 0 <= i < |block.children| ==> Contains(r.value, ChildText(block.children[i]).value)
  {
    match block
    case Null => None
    case Value(_, _, childrenIsArray, children) =>
      if childrenIsArray && |children| > 0 then
        match ChildTexts(children)
        case None => None
        case Some(parts) =>
          JoinContainsAll(parts, "");
          Some(Join(parts, ""))
      else Some("")
  }

  function BlockTexts(blocks: seq<Node>): (r: Option<seq<string>>)
    ensures r.Some? <==> forall i :: 0 <= i < |blocks| ==> BlockText(blocks[i]).Some?
    ensures r.Some? ==> |r.value| == |blocks|
    ensures r.Some? ==> forall i :: 0 <= i < |blocks| ==> r.value[i] == BlockText(blocks[i]).value
  {
    if blocks == [] then Some([])
    else
      match BlockText(blocks[0])
      case None => None
      case Some(h) =>
        match BlockTexts(blocks[1..])
        case None => None
        case Some(t) =>
          assert forall i :: 1 <= i < |blocks| ==> blocks[i] == blocks[1..][i - 1];
          Some([h] + t)
  }

  /** The blocks' texts joined by "\n" and trimmed. */
  function ShallowPlainText(blocks: seq<Node>): (r: Option<string>)
    ensures r.Some? ==> NoEdgeWhitespace(r.value)
    ensures r.Some? <==> BlockTexts(blocks).Some?
    ensures r.Some? ==> exists i :: CutFrom(Join(BlockTexts(blocks).value, "\n"), r.value, i)
  {
    match BlockTexts(blocks)
    case None => None
    case Some(parts) => Some(Trim(Join(parts, "\n")))
  }

  /**
   * The shape on which the shallow and the full extractor agree: a block
   * with no string `text` whose children are non-null and are leaves or
   * carry no `children` array of their own.
   */
  predicate ShallowShaped(block: Node) {
    match block
    case Null => true
    case Value(_, text, childrenIsArray, children) =>
      text.None? &&
      (childrenIsArray ==> forall i :: 0 <= i < |children| ==>
         children[i].Value? && (children[i].text.Some? || !children[i].childrenIsArray))
  }

  lemma BlockTextAgrees(block: Node)
    requires ShallowShaped(block)
    ensures BlockText(block) == ExtractText(block)
  {
    match block
    case Null =>
    case Value(_, _, childrenIsArray, children) =>
      if childrenIsArray {
        forall i | 0 <= i < |children| ensures ExtractText(children[i]) == ChildText(children[i]) {
          if children[i].text.None? {
            BareNodeIsEmpty(children[i].kind);
          }
        }
        var deep := ExtractAll(children);
        var shallow := ChildTexts(children);
        assert deep.Some? && shallow.Some?;
        assert deep.value == shallow.value;
      }
  }

  /**
   * On blocks of that shape the shallow extractor computes exactly the
   * plain text the notes route would compute for the same content.
   */
  lemma ShallowAgreesWithFull(blocks: seq<Node>)
    requires forall i :: 0 <= i < |blocks| ==> ShallowShaped(blocks[i])
    ensures ShallowPlainText(blocks) == ExtractPlainText(Blocks(blocks))
  {
    forall i | 0 <= i < |blocks| ensures BlockText(blocks[i]) == ExtractText(blocks[i]) {
      BlockTextAgrees(blocks[i]);
    }
    var deep := ExtractAll(blocks);
    var shallow := BlockTexts(blocks);
    assert deep.Some? <==> shallow.Some?;
    if deep.Some? {
      assert deep.value == shallow.value;
    }
  }

  // ---------------------------------------------------------------------
  // Building the note
  // ---------------------------------------------------------------------

  /** The lines the note's text is made of: the title, the text if any, the source URL if any. */
  function SharedLines(title: string, text: string, url: string): (lines: seq<string>)
    ensures 1 <= |lines| <= 3 && lines[0] == title
  {
    [title] + (if text != "" then [text] else []) + (if url != "" then ["Source: " + url] else [])
  }

  /**
   * The content: an "h2" heading with the title, then a paragraph with the
   * text when it is non-empty, then a paragraph "Source: <url>" when the URL
   * is non-empty. The heading is always pushed, so the route's fallback for
   * an empty block list is never taken and is not modelled.
   */
  method BuildBlocks(title: string, text: string, url: string) returns (blocks: seq<Node>)
    ensures |blocks| == |SharedLines(title, text, url)|
    ensures blocks[0] == Element("h2", [Leaf(title)])
    ensures forall i :: 1 <= i < |blocks| ==> blocks[i] == Element("p", [Leaf(SharedLines(title, text, url)[i])])
  {
    blocks := [];
    blocks := blocks + [Element("h2", [Leaf(title)])];
    if text != "" {
      blocks := blocks + [Element("p", [Leaf(text)])];
    }
    if url != "" {
      blocks := blocks + [Element("p", [Leaf("Source: " + url)])];
    }
  }

  /** The blocks built from the lines `lines`, each a single leaf inside an element. */
  lemma LineBlocksText(blocks: seq<Node>, lines: seq<string>)
    requires |blocks| == |lines|
    requires forall i :: 0 <= i < |blocks| ==>
               blocks[i].Value? && blocks[i].kind.Some? && blocks[i] == Element(blocks[i].kind.value, [Leaf(lines[i])])
    ensures forall i :: 0 <= i < |blocks| ==> ShallowShaped(blocks[i])
    ensures ShallowPlainText(blocks) == Some(Trim(Join(lines, "\n")))
  {
    forall i | 0 <= i < |blocks| ensures ShallowShaped(blocks[i]) && BlockText(blocks[i]) == Some(lines[i]) {
      var c := ChildTexts([Leaf(lines[i])]);
      assert c.Some? && c.value[0] == lines[i];
      assert c.value == [lines[i]];
    }
    assert BlockTexts(blocks).value == lines;
  }

  /** Where the browser is sent. */
  const SignIn := "/sign-in?redirect_url=/notes"
  const ShareFailed := "/notes?share=failed"

  /**
   * The handler: without a user, a redirect to sign-in and no change;
   * a form that does not parse, a redirect to the failure page with no note
   * created; otherwise the user row is ensured, one note is created and the
   * browser is sent to it. The title defaults to "Shared item" and so is
   * never empty; the note's plain text is its lines joined by "\n", trimmed,
   * which is also what the full extractor would produce for the content.
   */
  method Share(db: Db, userId: Option<string>, form: Body<Form>, newId: string, now: int)
    returns (location: string)
    requires db.Valid()
    requires forall k :: 0 <= k < |db.notes| ==> db.notes[k].id != newId
    modifies db
    ensures db.Valid()
    ensures db.subscriptions == old(db.subscriptions)
    ensures !SignedIn(userId) ==> location == SignIn && db.users == old(db.users) && db.notes == old(db.notes)
    ensures SignedIn(userId) && form.Unparsable? ==>
              location == ShareFailed && db.users == old(db.users) && db.notes == old(db.notes)
    ensures SignedIn(userId) && form.Parsed? && userId.value in old(db.users) ==> db.users == old(db.users)
    ensures SignedIn(userId) && form.Parsed? && userId.value !in old(db.users) ==>
              db.users == old(db.users)[userId.value := User(userId.value, "")]
    ensures SignedIn(userId) && form.Parsed? ==>
              var title := OrElse(form.value.title, "Shared item");
              var lines := SharedLines(title, OrElse(form.value.text, ""), OrElse(form.value.url, ""));
              && location == "/notes/" + newId
              && |db.notes| == |old(db.notes)| + 1
              && db.notes[..|old(db.notes)|] == old(db.notes)
              && var note := db.notes[|old(db.notes)|];
              && note.id == newId
              && note.userId == userId.value
              && note.title == title
              && note.title != ""
              && note.content.Blocks? && |note.content.nodes| == |lines|
              && note.content.nodes[0] == Element("h2", [Leaf(title)])
              && (forall i :: 1 <= i < |lines| ==> note.content.nodes[i] == Element("p", [Leaf(lines[i])]))
              && note.plainText == Some(Trim(Join(lines, "\n")))
              && note.plainText == ExtractPlainText(note.content)
              && note.summary.None? && note.folderId.None? && !note.isFavorite && !note.isArchived
              && note.createdAt == now && note.updatedAt == now
  {
    if !SignedIn(userId) {
      return SignIn;
    }
    if form.Unparsable? {
      return ShareFailed;
    }
    var sharedTitle := OrElse(form.value.title, "Shared item");
    var sharedText := OrElse(form.value.text, "");
    var sharedUrl := OrElse(form.value.url, "");
    db.UpsertUser(userId.value);
    var blocks := BuildBlocks(sharedTitle, sharedText, sharedUrl);
    var lines := SharedLines(sharedTitle, sharedText, sharedUrl);
    LineBlocksText(blocks, lines);
    ShallowAgreesWithFull(blocks);
    var plainText := ShallowPlainText(blocks);
    var note := Note(newId, OrElse(Some(sharedTitle), "Untitled"), Blocks(blocks), plainText, None,
                     userId.value, None, false, false, now, now);
    db.CreateNote(note);
    location := "/notes/" + note.id;
  }
}

=== FILE: slash_command_menu.dfy ===
/**
 * The editor's slash-command menu: typing "/" at the start of a line or
 * after a space opens a menu of block types filtered by the text typed
 * after the slash; the arrow keys move the selection (wrapping around),
 * Enter or Tab applies the selected item, which first deletes the slash
 * and the search text.
 *
 * The editor is reduced to the text before the cursor in the current
 * block, which `deleteBackward` shortens by one character, and the list of
 * block types applied.
 */
module SlashCommandMenu {
  import opened Wrappers
  import opened Text
  import Listing

  /** A menu entry: its key, the label (`caption`) and description shown, and the block type it applies. */
  datatype Item = Item(key: string, caption: string, description: string, blockType: string)

  const Items: seq<Item> := [
    Item("p", "Text", "Just start writing with plain text", "p"),
    Item("h1", "Heading 1", "Big section heading", "h1"),
    Item("h2", "Heading 2", "Medium section heading", "h2"),
    Item("h3", "Heading 3", "Small section heading", "h3"),
    Item("ul", "Bulleted list", "Create a simple bulleted list", "ul"),
    Item("ol", "Numbered list", "Create a list with numbering", "ol"),
    Item("blockquote", "Quote", "Capture a quote", "blockquote"),
    Item("code_block", "Code", "Capture a code snippet", "code_block"),
    Item("hr", "Divider", "Visually divide blocks", "hr")
  ]

  predicate Matches(item: Item, search: string) {
    ContainsIgnoreCase(item.caption, search) || ContainsIgnoreCase(item.description, search)
  }

  /** `filteredItems`: the items whose label or description contains the search, ignoring case. */
  function FilterItems(items: seq<Item>, search: string): (r: seq<Item>)
    ensures |r| <= |items|
  {
    Listing.Filter(items, (item: Item) => Matches(item, search))
  }

  /** The filtered items are exactly the menu's items that match the search. */
  lemma FilterItemsSelects(items: seq<Item>, search: string)
    ensures forall i :: 0 <= i < |FilterItems(items, search)| ==>
              FilterItems(items, search)[i] in items && Matches(FilterItems(items, search)[i], search)
    ensures forall i :: 0 <= i < |items| && Matches(items[i], search) ==> items[i] in FilterItems(items, search)
  {
    Listing.FilterFrom(items, (item: Item) => Matches(item, search));
  }

  /** The text left after deleting backwards `n` times: its last `n` characters gone, or nothing left. */
  function DropLast(text: string, n: nat): (r: string)
    ensures |r| == if n <= |text| then |text| - n else 0
    ensures r == text[..|r|]
  {
    if n <= |text| then text[..|text| - n] else []
  }

  /** An empty search keeps every item, in the menu's order. */
  lemma EmptySearchKeepsAll(items: seq<Item>)
    ensures FilterItems(items, "") == items
  {
    forall i | 0 <= i < |items| ensures Matches(items[i], "") {
      ContainsEmpty(items[i].caption);
    }
    Listing.FilterKeepsAll(items, (item: Item) => Matches(item, ""));
  }

  /** The slash may open the menu when nothing precedes it on the line, or a space or a line break does. */
  predicate OpensAfter(prefix: string) {
    prefix == [] || prefix[|prefix| - 1] == ' ' || prefix[|prefix| - 1] == '\n'
  }

  /**
   * `checkForSlashCommand`'s test on the text before the cursor: the text
   * after its last "/" when that slash may open the menu, `None` when there
   * is no slash or the last one follows some other character.
   */
  function Trigger(textBeforeCursor: string): (r: Option<string>)
    ensures r.Some? ==> |r.value| < |textBeforeCursor|
    ensures r.Some? ==>
              var k := |textBeforeCursor| - |r.value| - 1;
              && textBeforeCursor == textBeforeCursor[..k] + "/" + r.value
              && OpensAfter(textBeforeCursor[..k])
              && '/' !in r.value
  {
    var slashIndex := LastIndexOf(textBeforeCursor, '/');
    if slashIndex == -1 then None
    else
      var charBeforeSlash := if slashIndex > 0 then textBeforeCursor[slashIndex - 1] else ' ';
      if charBeforeSlash == ' ' || charBeforeSlash == '\n' || slashIndex == 0 then
        var afterSlash := textBeforeCursor[slashIndex + 1..];
        assert textBeforeCursor == textBeforeCursor[..slashIndex] + "/" + afterSlash;
        assert forall j :: 0 <= j < |afterSlash| ==> afterSlash[j] == textBeforeCursor[slashIndex + 1 + j];
        Some(afterSlash)
      else None
  }

  /** The converse: a slash that may open the menu, followed by slash-free text, yields that text. */
  lemma TriggerFinds(prefix: string, search: string)
    requires OpensAfter(prefix) && '/' !in search
    ensures Trigger(prefix + "/" + search) == Some(search)
  {
    var t := prefix + "/" + search;
    assert t[|prefix|] == '/';
    var k := LastIndexOf(t, '/');
    assert forall j :: |prefix| < j < |t| ==> t[j] == search[j - |prefix| - 1];
    assert k == |prefix|;
    assert t[..k] == prefix;
    assert t[k + 1..] == search;
  }

  /** A slash glued to a word does not open the menu. */
  lemma NoTriggerInsideWord(prefix: string, c: char, search: string)
    requires c != ' ' && c != '\n' && c != '/' && '/' !in search
    ensures Trigger(prefix + [c] + "/" + search) == None
  {
    var t := prefix + [c] + "/" + search;
    var k := LastIndexOf(t, '/');
    assert t[|prefix| + 1] == '/';
    assert forall j :: |prefix| + 1 < j < |t| ==> t[j] == search[j - |prefix| - 2];
    assert k == |prefix| + 1;
    assert t[k - 1] == c;
  }

  datatype Key = Escape | ArrowDown | ArrowUp | Enter | Tab | Backspace | OtherKey

  /** The keys the open menu handles itself; their key-up does not re-check the trigger. */
  predicate Navigation(k: Key) {
    k == ArrowDown || k == ArrowUp || k == Enter || k == Tab || k == Escape
  }

  class Menu {
    /** The item table the menu filters. */
    const items: seq<Item>
    var isOpen: bool
    var search: string
    var selectedIndex: int
    /** The text before the cursor in the current block. */
    var text: string
    /** The block types applied, in order. */
    var applied: seq<string>

    /**
     * A closed menu has an empty search; the selection is never below -1,
     * and in an open menu it is 0 or inside the filtered list, and -1 only
     * when that list is empty.
     */
    predicate Valid()
      reads this
    {
      && (!isOpen ==> search == "")
      && -1 <= selectedIndex
      && (isOpen ==> selectedIndex == 0 || selectedIndex < |FilterItems(items, search)|)
      && (isOpen && selectedIndex == -1 ==> |FilterItems(items, search)| == 0)
    }

    /** The menu is drawn only when it is open and something matches. */
    predicate Visible()
      reads this
    {
      isOpen && |FilterItems(items, search)| > 0
    }

    constructor (items: seq<Item>, text: string)
      ensures Valid() && !isOpen && search == "" && selectedIndex == 0
      ensures this.items == items && this.text == text && applied == []
    {
      this.items := items;
      isOpen := false;
      search := "";
      selectedIndex := 0;
      this.text := text;
      applied := [];
    }

    /**
     * `checkForSlashCommand`: a valid trigger opens the menu on the text
     * after the slash with the first item selected; otherwise an open menu
     * closes and forgets its search.
     */
    method CheckForSlashCommand()
      requires Valid()
      modifies this
      ensures Valid()
      ensures Trigger(text).Some? ==> isOpen && search == Trigger(text).value && selectedIndex == 0
      ensures Trigger(text).None? ==> !isOpen && search == "" && selectedIndex == old(selectedIndex)
      ensures text == old(text) && applied == old(applied)
    {
      var t := Trigger(text);
      if t.Some? {
        search := t.value;
        selectedIndex := 0;
        if !isOpen {
          isOpen := true;
        }
        return;
      }
      if isOpen {
        isOpen := false;
        search := "";
      }
    }

    /**
     * Deletes the slash and the search text one character at a time, applies
     * the item's block type and closes the menu. Without a selection in the
     * editor nothing happens.
     */
    method ExecuteCommand(item: Item, hasSelection: bool)
      requires Valid()
      modifies this
      ensures Valid()
      ensures !hasSelection ==>
                isOpen == old(isOpen) && search == old(search) && selectedIndex == old(selectedIndex)
      ensures !hasSelection ==> text == old(text) && applied == old(applied)
      ensures hasSelection ==> !isOpen && search == "" && selectedIndex == 0
      ensures hasSelection ==> applied == old(applied) + [item.blockType]
      ensures hasSelection ==>
                text == DropLast(old(text), |old(search)| + 1)
    {
      if !hasSelection {
        return;
      }
      var deleteCount := |search| + 1;
      var i := 0;
      while i < deleteCount
        invariant 0 <= i <= deleteCount
        invariant text == DropLast(old(text), i)
        invariant applied == old(applied)
      {
        if text != [] {
          text := text[..|text| - 1];
        }
        i := i + 1;
      }
      applied := applied + [item.blockType];
      isOpen := false;
      search := "";
      selectedIndex := 0;
    }

    /**
     * The key handler while the menu is open: Escape closes it, the arrows
     * move the selection with wrap-around, Enter and Tab apply the selected
     * item when the list is not empty, Backspace re-checks the trigger.
     */
    method KeyDown(key: Key, hasSelection: bool)
      requires Valid()
      modifies this
      ensures Valid()
      ensures !old(isOpen) ==>
                && isOpen == old(isOpen) && search == old(search) && selectedIndex == old(selectedIndex)
                && text == old(text) && applied == old(applied)
      ensures old(isOpen) && key == Escape ==> !isOpen && search == "" && selectedIndex == old(selectedIndex)
      ensures old(isOpen) && (key == Escape || key == ArrowDown || key == ArrowUp || key == Backspace || key == OtherKey) ==>
                text == old(text) && applied == old(applied)
      ensures old(isOpen) && key == ArrowDown ==>
                selectedIndex == (if old(selectedIndex) < |FilterItems(items, old(search))| - 1 then old(selectedIndex) + 1 else 0)
      ensures old(isOpen) && key == ArrowUp ==>
                selectedIndex == (if old(selectedIndex) > 0 then old(selectedIndex) - 1 else |FilterItems(items, old(search))| - 1)
      ensures old(isOpen) && (key == ArrowDown || key == ArrowUp) ==> isOpen && search == old(search)
      ensures old(isOpen) && (key == Enter || key == Tab) && |FilterItems(items, old(search))| > 0 && hasSelection ==>
                && 0 <= old(selectedIndex) < |FilterItems(items, old(search))|
                && applied == old(applied) + [FilterItems(items, old(search))[old(selectedIndex)].blockType]
                && !isOpen
                && text == DropLast(old(text), |old(search)| + 1)
      ensures old(isOpen) && (key == Enter || key == Tab) && |FilterItems(items, old(search))| > 0 && !hasSelection ==>
                && isOpen && search == old(search) && selectedIndex == old(selectedIndex)
                && text == old(text) && applied == old(applied)
      ensures old(isOpen) && (key == Enter || key == Tab) && |FilterItems(items, old(search))| == 0 ==>
                && isOpen && search == old(search) && selectedIndex == old(selectedIndex)
                && text == old(text) && applied == old(applied)
      ensures old(isOpen) && key == Backspace && Trigger(old(text)).Some? ==>
                isOpen && search == Trigger(old(text)).value && selectedIndex == 0
      ensures old(isOpen) && key == Backspace && Trigger(old(text)).None? ==>
                !isOpen && search == "" && selectedIndex == old(selectedIndex)
      ensures old(isOpen) && key == OtherKey ==>
                isOpen && search == old(search) && selectedIndex == old(selectedIndex)
    {
      if !isOpen {
        return;
      }
      var filteredItems := FilterItems(items, search);
      if key == Escape {
        isOpen := false;
        search := "";
        return;
      }
      if key == ArrowDown || key == ArrowUp {
        MoveSelection(key == ArrowDown);
        return;
      }
      if (key == Enter || key == Tab) && |filteredItems| > 0 {
        ExecuteCommand(filteredItems[selectedIndex], hasSelection);
        return;
      }
      if key == Backspace {
        CheckForSlashCommand();
      }
    }

    /** The arrow keys of an open menu: one step down or up, wrapping around at either end. */
    method MoveSelection(down: bool)
      requires Valid() && isOpen
      modifies this
      ensures Valid() && isOpen && search == old(search) && text == old(text) && applied == old(applied)
      ensures down ==>
                selectedIndex == (if old(selectedIndex) < |FilterItems(items, search)| - 1 then old(selectedIndex) + 1 else 0)
      ensures !down ==>
                selectedIndex == (if old(selectedIndex) > 0 then old(selectedIndex) - 1 else |FilterItems(items, search)| - 1)
    {
      var n := |FilterItems(items, search)|;
      if down {
        selectedIndex := if selectedIndex < n - 1 then selectedIndex + 1 else 0;
      } else {
        selectedIndex := if selectedIndex > 0 then selectedIndex - 1 else n - 1;
      }
    }

    /** Key-up re-checks the trigger, except for the keys an open menu handles itself. */
    method KeyUp(key: Key)
      requires Valid()
      modifies this
      ensures Valid()
      ensures old(isOpen) && Navigation(key) ==>
                search == old(search) && selectedIndex == old(selectedIndex) && isOpen
      ensures !(old(isOpen) && Navigation(key)) && Trigger(text).Some? ==>
                isOpen && search == Trigger(text).value && selectedIndex == 0
      ensures !(old(isOpen) && Navigation(key)) && Trigger(text).None? ==>
                !isOpen && search == "" && selectedIndex == old(selectedIndex)
      ensures text == old(text) && applied == old(applied)
    {
      if isOpen && Navigation(key) {
        return;
      }
      CheckForSlashCommand();
    }

    /** Hovering a drawn item selects it. */
    method HoverItem(index: nat)
      requires Valid() && Visible() && index < |FilterItems(items, search)|
      modifies this
      ensures Valid() && selectedIndex == index
      ensures isOpen == old(isOpen) && search == old(search) && text == old(text) && applied == old(applied)
    {
      selectedIndex := index;
    }

    /** Pressing a drawn item applies that item, whatever is selected. */
    method PressItem(index: nat, hasSelection: bool)
      requires Valid() && Visible() && index < |FilterItems(items, search)|
      modifies this
      ensures Valid()
      ensures hasSelection ==> applied == old(applied) + [FilterItems(items, old(search))[index].blockType]
      ensures hasSelection ==>
                && text == DropLast(old(text), |old(search)| + 1)
                && !isOpen && search == "" && selectedIndex == 0
      ensures !hasSelection ==>
                && applied == old(applied) && text == old(text)
                && isOpen == old(isOpen) && search == old(search) && selectedIndex == old(selectedIndex)
    {
      ExecuteCommand(FilterItems(items, search)[index], hasSelection);
    }

    /**
     * A mouse press outside the menu closes it, but only while the menu is
     * drawn: otherwise its element is not mounted, the handler finds no
     * element to test against and does nothing, and an open menu with no
     * matches stays open.
     */
    method ClickOutside()
      requires Valid()
      modifies this
      ensures Valid()
      ensures old(Visible()) ==> !isOpen && search == ""
      ensures !old(Visible()) ==> isOpen == old(isOpen) && search == old(search)
      ensures selectedIndex == old(selectedIndex) && text == old(text) && applied == old(applied)
    {
      if Visible() {
        EmptySearchKeepsAll(items);
        isOpen := false;
        search := "";
      }
    }

    /** The effect run when the list shrinks: a selection past its end moves to the last item (or 0). */
    method ClampSelection()
      requires Valid()
      modifies this
      ensures Valid()
      ensures old(selectedIndex) >= |FilterItems(items, search)| ==>
                selectedIndex == (if |FilterItems(items, search)| - 1 > 0 then |FilterItems(items, search)| - 1 else 0)
      ensures old(selectedIndex) < |FilterItems(items, search)| ==> selectedIndex == old(selectedIndex)
      ensures isOpen == old(isOpen) && search == old(search) && text == old(text) && applied == old(applied)
    {
      var n := |FilterItems(items, search)|;
      if selectedIndex >= n {
        selectedIndex := if n - 1 > 0 then n - 1 else 0;
      }
    }
  }

  /**
   * Typing "/" and a search on an empty line, then pressing Enter: the
   * slash and the search are gone from the text and the first matching
   * item's block type is applied.
   */
  method TypeAndPick(m: Menu, prefix: string, search: string)
    requires m.Valid() && OpensAfter(prefix) && '/' !in search
    requires m.text == prefix + "/" + search
    requires |FilterItems(m.items, search)| > 0
    modifies m
    ensures m.text == prefix
    ensures m.applied == old(m.applied) + [FilterItems(m.items, search)[0].blockType]
    ensures !m.isOpen
  {
    TriggerFinds(prefix, search);
    m.CheckForSlashCommand();
    assert m.isOpen && m.search == search && m.selectedIndex == 0;
    m.KeyDown(Enter, true);
    assert (prefix + "/" + search)[..|prefix|] == prefix;
  }
}

=== FILE: store.dfy ===
/**
 * The persistent records the routes read and write, and the database that
 * holds them. The ORM's tables become fields of one object: `users` and
 * `subscriptions` are keyed tables (by user id and by push endpoint),
 * `notes` keeps the rows in storage order.
 */
module Store {
  import opened Wrappers
  import RichText

  /** A note row, as described by the `Note` interface (relations left out). */
  datatype Note = Note(
    id: string,
    title: string,
    content: RichText.Content,
    plainText: Option<string>,
    summary: Option<string>,
    userId: string,
    folderId: Option<string>,
    isFavorite: bool,
    isArchived: bool,
    createdAt: int,
    updatedAt: int)

  datatype User = User(id: string, email: string)

  datatype PushSubscription = PushSubscription(endpoint: string, p256dh: string, auth: string, userId: string)

  /** No two notes share an id. */
  ghost predicate DistinctIds(notes: seq<Note>) {
    forall i, j :: 0 <= i < j < |notes| ==> notes[i].id != notes[j].id
  }

  /** The index of the first note with `id` owned by `userId`, if any. */
  function FindOwned(notes: seq<Note>, id: string, userId: string): (r: Option<nat>)
    ensures r.Some? ==> r.value < |notes| && notes[r.value].id == id && notes[r.value].userId == userId
    ensures r.Some? ==> forall k :: 0 <= k < r.value ==> !(notes[k].id == id && notes[k].userId == userId)
    ensures r.None? ==> forall k :: 0 <= k < |notes| ==> !(notes[k].id == id && notes[k].userId == userId)
  {
    if notes == [] then None
    else if notes[0].id == id && notes[0].userId == userId then Some(0)
    else
      match FindOwned(notes[1..], id, userId)
      case None => None
      case Some(k) => Some(k + 1)
  }

  class Db {
    var users: map<string, User>
    var notes: seq<Note>
    var subscriptions: map<string, PushSubscription>

    /** Every row sits under its own key, and note ids are unique. */
    ghost predicate Valid()
      reads this
    {
      && (forall id :: id in users ==> users[id].id == id)
      && (forall e :: e in subscriptions ==> subscriptions[e].endpoint == e)
      && DistinctIds(notes)
    }

    constructor ()
      ensures Valid()
      ensures users == map[] && notes == [] && subscriptions == map[]
    {
      users, notes, subscriptions := map[], [], map[];
    }

    /**
     * `db.user.upsert({ where: { id }, create: { id, email: "" }, update: {} })`:
     * creates the user with an empty e-mail when absent, else changes nothing.
     */
    method UpsertUser(id: string)
      requires Valid()
      modifies this
      ensures Valid()
      ensures id in users
      ensures id in old(users) ==> users == old(users)
      ensures id !in old(users) ==> users == old(users)[id := User(id, "")]
      ensures notes == old(notes) && subscriptions == old(subscriptions)
    {
      if id !in users {
        users := users[id := User(id, "")];
      }
    }

    /** `db.note.create`: stores a new row under a fresh id. */
    method CreateNote(n: Note)
      requires Valid()
      requires forall k :: 0 <= k < |notes| ==> notes[k].id != n.id
      modifies this
      ensures Valid()
      ensures notes == old(notes) + [n]
      ensures users == old(users) && subscriptions == old(subscriptions)
    {
      notes := notes + [n];
    }

    /**
     * `db.note.update({ where: { id, userId }, data: { summary } })`: sets the
     * summary of the note matching both id and owner and bumps `updatedAt`;
     * `found` is false (the ORM throws) when no row matches.
     */
    method UpdateSummary(id: string, userId: string, summary: string, now: int) returns (found: bool)
      requires Valid()
      modifies this
      ensures Valid()
      ensures found <==> FindOwned(old(notes), id, userId).Some?
      ensures found ==> var k := FindOwned(old(notes), id, userId).value;
                        notes == old(notes)[k := old(notes)[k].(summary := Some(summary), updatedAt := now)]
      ensures !found ==> notes == old(notes)
      ensures users == old(users) && subscriptions == old(subscriptions)
    {
      var k := FindOwned(notes, id, userId);
      found := k.Some?;
      if found {
        notes := notes[k.value := notes[k.value].(summary := Some(summary), updatedAt := now)];
      }
    }

    /**
     * `db.pushSubscription.upsert` keyed by endpoint: afterwards the endpoint
     * holds exactly the given keys and owner, whether it existed or not.
     */
    method UpsertSubscription(endpoint: string, p256dh: string, auth: string, userId: string)
      requires Valid()
      modifies this
      ensures Valid()
      ensures subscriptions == old(subscriptions)[endpoint := PushSubscription(endpoint, p256dh, auth, userId)]
      ensures users == old(users) && notes == old(notes)
    {
      subscriptions := subscriptions[endpoint := PushSubscription(endpoint, p256dh, auth, userId)];
    }
  }
}

=== FILE: summarize_route.dfy ===
/**
 * `POST /api/ai/summarize`: summarises a note's plain text with the
 * language model and, when a note id is given, stores the summary on the
 * caller's note. The model is a parameter: `generate(prompt)` is its
 * answer, `None` when the call throws.
 */
module SummarizeRoute {
  import opened Wrappers
  import opened Text
  import opened Http
  import RichText
  import opened Store

  datatype SummarizeBody = SummarizeBody(noteId: Option<string>, content: RichText.Content)

  datatype SummarizeReply = Unauthorized | TooShort | Summarized(summary: string) | Failed {
    function Status(): int {
      match this
      case Unauthorized => 401
      case TooShort => 400
      case Summarized(_) => 200
      case Failed => 500
    }
  }

  const MinLength := 50

  /**
   * The gate `!plainText || plainText.length < 50`, negated: the empty
   * check is subsumed by the length check, so a text passes exactly when it
   * has at least 50 characters.
   */
  function LongEnough(plainText: string): (b: bool)
    ensures b <==> |plainText| >= MinLength
  {
    !(plainText == "" || |plainText| < MinLength)
  }

  const SummarizePrefix := "Summarize this note:\n\n"

  function Prompt(plainText: string): (p: string)
    ensures StartsWith(p, SummarizePrefix) && p[|SummarizePrefix|..] == plainText
  {
    SummarizePrefix + plainText
  }

  /**
   * The handler. `prompt` is the prompt sent to the model, `None` when the
   * model is not called. A summary is returned only when the model answers
   * and, for a truthy `noteId`, the caller owns that note; it is then stored
   * on that note. Every other path leaves the notes as they were.
   */
  method Summarize(db: Db, userId: Option<string>, body: Body<SummarizeBody>,
                   generate: string -> Option<string>, now: int)
    returns (reply: SummarizeReply, prompt: Option<string>)
    requires db.Valid()
    modifies db
    ensures db.Valid()
    ensures db.users == old(db.users) && db.subscriptions == old(db.subscriptions)
    ensures reply.Unauthorized? <==> !SignedIn(userId)
    ensures reply.TooShort? <==>
              && SignedIn(userId) && body.Parsed?
              && RichText.ExtractPlainText(body.value.content).Some?
              && !LongEnough(RichText.ExtractPlainText(body.value.content).value)
    ensures prompt.Some? <==>
              && SignedIn(userId) && body.Parsed?
              && RichText.ExtractPlainText(body.value.content).Some?
              && LongEnough(RichText.ExtractPlainText(body.value.content).value)
    ensures prompt.Some? ==> prompt.value == Prompt(RichText.ExtractPlainText(body.value.content).value)
    ensures reply.Summarized? <==>
              && prompt.Some? && generate(prompt.value).Some?
              && (Truthy(body.value.noteId) ==> FindOwned(old(db.notes), body.value.noteId.value, userId.value).Some?)
    ensures reply.Summarized? ==> generate(prompt.value) == Some(reply.summary)
    ensures reply.Summarized? && Truthy(body.value.noteId) ==>
              var k := FindOwned(old(db.notes), body.value.noteId.value, userId.value).value;
              db.notes == old(db.notes)[k := old(db.notes)[k].(summary := Some(reply.summary), updatedAt := now)]
    ensures !(reply.Summarized? && Truthy(body.value.noteId)) ==> db.notes == old(db.notes)
  {
    prompt := None;
    if !SignedIn(userId) {
      return Unauthorized, prompt;
    }
    if body.Unparsable? {
      return Failed, prompt;
    }
    var plainText := RichText.ExtractPlainText(body.value.content);
    if plainText.None? {
      return Failed, prompt;
    }
    if !LongEnough(plainText.value) {
      return TooShort, prompt;
    }
    prompt := Some(Prompt(plainText.value));
    var summary := generate(prompt.value);
    if summary.None? {
      return Failed, prompt;
    }
    if Truthy(body.value.noteId) {
      var found := db.UpdateSummary(body.value.noteId.value, userId.value, summary.value, now);
      if !found {
        return Failed, prompt;
      }
    }
    reply := Summarized(summary.value);
  }

  /** A text of exactly 50 characters is long enough; one of 49 is not. */
  lemma LengthBoundary(a: string, b: string)
    requires |a| == 50 && |b| == 49
    ensures LongEnough(a) && !LongEnough(b)
  {
  }
}

=== FILE: text.dfy ===
/**
 * The JavaScript string primitives the application relies on: `trim`,
 * `join`, `includes`, `toLowerCase`, `lastIndexOf`, `padStart`, number to
 * decimal text, and the truthiness of optional strings (`s || fallback`).
 */
module Text {
  import opened Wrappers

  // ---------------------------------------------------------------------
  // Truthiness of a string that may be missing (`null`/`undefined`)
  // ---------------------------------------------------------------------

  /** A string value is truthy in JavaScript iff it is present and non-empty. */
  predicate Truthy(s: Option<string>) {
    s.Some? && s.value != ""
  }

  /** `s || fallback` for an optional string. */
  function OrElse(s: Option<string>, fallback: string): (r: string)
    ensures Truthy(s) ==> r == s.value
    ensures !Truthy(s) ==> r == fallback
    ensures fallback != "" ==> r != ""
  {
    if s.Some? && s.value != "" then s.value else fallback
  }

  // ---------------------------------------------------------------------
  // trim
  // ---------------------------------------------------------------------

  /**
   * The characters `String.prototype.trim` removes: ECMAScript's
   * WhiteSpace and LineTerminator code points.
   */
  predicate IsWhitespace(c: char) {
    c == '\t' || c == '\n' || c == '\U{000B}' || c == '\U{000C}' ||
    c == '\r' || c == ' ' || c == '\U{00A0}' || c == '\U{1680}' ||
    ('\U{2000}' <= c <= '\U{200A}') || c == '\U{2028}' || c == '\U{2029}' ||
    c == '\U{202F}' || c == '\U{205F}' || c == '\U{3000}' || c == '\U{FEFF}'
  }

  predicate AllWhitespace(s: string) {
    forall i :: 0 <= i < |s| ==> IsWhitespace(s[i])
  }

  /** Neither the first nor the last character is whitespace. */
  predicate NoEdgeWhitespace(s: string) {
    s == [] || (!IsWhitespace(s[0]) && !IsWhitespace(s[|s| - 1]))
  }

  /** The index of the first non-whitespace character of `s` at or after `i`, or `|s|`. */
  function SkipForward(s: string, i: nat): (j: nat)
    requires i <= |s|
    ensures i <= j <= |s|
    ensures forall k :: i <= k < j ==> IsWhitespace(s[k])
    ensures j == |s| || !IsWhitespace(s[j])
    decreases |s| - i
  {
    if i < |s| && IsWhitespace(s[i]) then SkipForward(s, i + 1) else i
  }

  /** Walking back from `j`, no further than `lo`: the end of the last non-whitespace character. */
  function SkipBackward(s: string, lo: nat, j: nat): (e: nat)
    requires lo <= j <= |s|
    ensures lo <= e <= j
    ensures forall k :: e <= k < j ==> IsWhitespace(s[k])
    ensures e == lo || !IsWhitespace(s[e - 1])
  {
    if lo < j && IsWhitespace(s[j - 1]) then SkipBackward(s, lo, j - 1) else j
  }

  /** `r` is `s` with `i` characters cut before it and only whitespace cut on either side. */
  predicate CutFrom(s: string, r: string, i: int) {
    && 0 <= i <= |s| - |r|
    && (forall k :: 0 <= k < |r| ==> r[k] == s[i + k])
    && (forall k :: 0 <= k < i ==> IsWhitespace(s[k]))
    && (forall k :: i + |r| <= k < |s| ==> IsWhitespace(s[k]))
  }

  /**
   * `s.trim()`: the longest slice of `s` that neither starts nor ends with
   * whitespace, obtained by cutting whitespace-only margins.
   */
  function Trim(s: string): (r: string)
    ensures NoEdgeWhitespace(r)
    ensures exists i :: CutFrom(s, r, i)
  {
    var i := SkipForward(s, 0);
    var e := SkipBackward(s, i, |s|);
    var r := s[i..e];
    assert CutFrom(s, r, i);
    r
  }

  /** A string without edge whitespace is its own trim. */
  lemma TrimNoEdge(s: string)
    requires NoEdgeWhitespace(s)
    ensures Trim(s) == s
  {
  }

  /** The trim is empty exactly when the string is blank. */
  lemma TrimEmptyIffBlank(s: string)
    ensures Trim(s) == "" <==> AllWhitespace(s)
  {
    var r := Trim(s);
    var i :| CutFrom(s, r, i);
    if r == "" {
      forall k | 0 <= k < |s| ensures IsWhitespace(s[k]) {
      }
    }
  }

  /** Trimming twice is trimming once. */
  lemma TrimIdempotent(s: string)
    ensures Trim(Trim(s)) == Trim(s)
  {
    TrimNoEdge(Trim(s));
  }

  // ---------------------------------------------------------------------
  // join
  // ---------------------------------------------------------------------

  /** `parts.join(sep)`. */
  function Join(parts: seq<string>, sep: string): string {
    if parts == [] then ""
    else if |parts| == 1 then parts[0]
    else parts[0] + sep + Join(parts[1..], sep)
  }

  // ---------------------------------------------------------------------
  // includes, toLowerCase, lastIndexOf
  // ---------------------------------------------------------------------

  predicate StartsWith(s: string, prefix: string) {
    |prefix| <= |s| && s[..|prefix|] == prefix
  }

  /** `t` occurs in `s` starting at index `i`. */
  predicate OccursAt(s: string, t: string, i: int) {
    0 <= i <= |s| - |t| && s[i..i + |t|] == t
  }

  /** `s.includes(t)`: `t` occurs in `s` at some position. */
  function Contains(s: string, t: string): (b: bool)
    ensures b <==> exists i :: OccursAt(s, t, i)
  {
    if StartsWith(s, t) then
      assert OccursAt(s, t, 0);
      true
    else if s == [] then
      false
    else
      var b := Contains(s[1..], t);
      assert b ==> exists i :: OccursAt(s, t, i) by {
        if b {
          var j :| OccursAt(s[1..], t, j);
          assert s[j + 1..j + 1 + |t|] == s[1..][j..j + |t|];
          assert OccursAt(s, t, j + 1);
        }
      }
      assert (exists i :: OccursAt(s, t, i)) ==> b by {
        if exists i :: OccursAt(s, t, i) {
          var i :| OccursAt(s, t, i);
          assert i != 0;
          assert s[1..][i - 1..i - 1 + |t|] == s[i..i + |t|];
          assert OccursAt(s[1..], t, i - 1);
        }
      }
      b
  }

  /** An occurrence in `b` is an occurrence in `a + b`, shifted by `|a|`. */
  lemma OccursInSuffix(a: string, b: string, t: string, j: int)
    requires OccursAt(b, t, j)
    ensures OccursAt(a + b, t, |a| + j)
  {
    assert (a + b)[|a| + j..|a| + j + |t|] == b[j..j + |t|];
  }

  /** Every part occurs in the joined string. */
  lemma {:induction false} JoinContains(parts: seq<string>, sep: string, k: nat)
    requires k < |parts|
    ensures Contains(Join(parts, sep), parts[k])
  {
    var r := Join(parts, sep);
    if |parts| == 1 {
      assert OccursAt(r, parts[0], 0);
    } else if k == 0 {
      assert r == parts[0] + (sep + Join(parts[1..], sep));
      assert OccursAt(r, parts[0], 0);
    } else {
      var rest := Join(parts[1..], sep);
      JoinContains(parts[1..], sep, k - 1);
      var j :| OccursAt(rest, parts[k], j);
      assert r == (parts[0] + sep) + rest;
      OccursInSuffix(parts[0] + sep, rest, parts[k], j);
    }
  }

  lemma JoinContainsAll(parts: seq<string>, sep: string)
    ensures forall k :: 0 <= k < |parts| ==> Contains(Join(parts, sep), parts[k])
  {
    forall k | 0 <= k < |parts| ensures Contains(Join(parts, sep), parts[k]) {
      JoinContains(parts, sep, k);
    }
  }

  /** `toLowerCase` on one character (ASCII letters only). */
  function LowerChar(c: char): (r: char)
    ensures 'A' <= c <= 'Z' ==> r as int == c as int + 32
    ensures !('A' <= c <= 'Z') ==> r == c
  {
    if 'A' <= c <= 'Z' then (c as int + 32) as char else c
  }

  function Lower(s: string): (r: string)
    ensures |r| == |s| && forall i :: 0 <= i < |s| ==> r[i] == LowerChar(s[i])
  {
    if s == [] then [] else [LowerChar(s[0])] + Lower(s[1..])
  }

  /** Lowering twice is lowering once. */
  lemma LowerIdempotent(s: string)
    ensures Lower(Lower(s)) == Lower(s)
  {
    assert forall i :: 0 <= i < |s| ==> LowerChar(LowerChar(s[i])) == LowerChar(s[i]);
  }

  /** `s.toLowerCase().includes(t.toLowerCase())`. */
  predicate ContainsIgnoreCase(s: string, t: string) {
    Contains(Lower(s), Lower(t))
  }

  /** The empty string occurs in every string, whatever the case. */
  lemma ContainsEmpty(s: string)
    ensures Contains(s, "") && ContainsIgnoreCase(s, "")
  {
    assert OccursAt(s, "", 0);
    assert OccursAt(Lower(s), Lower(""), 0);
  }

  /** `s.lastIndexOf(c)`: the last index holding `c`, or -1 when there is none. */
  function LastIndexOf(s: string, c: char): (r: int)
    ensures -1 <= r < |s|
    ensures r == -1 <==> c !in s
    ensures r >= 0 ==> s[r] == c && forall j :: r < j < |s| ==> s[j] != c
  {
    if s == [] then -1
    else if s[|s| - 1] == c then |s| - 1
    else
      var r := LastIndexOf(s[..|s| - 1], c);
      assert s == s[..|s| - 1] + [s[|s| - 1]];
      r
  }

  // ---------------------------------------------------------------------
  // Decimal text of natural numbers
  // ---------------------------------------------------------------------

  predicate IsDigit(c: char) {
    '0' <= c <= '9'
  }

  function DigitChar(d: nat): (c: char)
    requires d < 10
    ensures IsDigit(c) && c as int - '0' as int == d
  {
    ('0' as int + d) as char
  }

  /** The value of a string of decimal digits. */
  function DecimalValue(s: string): nat
    requires forall i :: 0 <= i < |s| ==> IsDigit(s[i])
  {
    if s == [] then 0
    else
      assert IsDigit(s[|s| - 1]);
      DecimalValue(s[..|s| - 1]) * 10 + (s[|s| - 1] as int - '0' as int)
  }

  /** `String(n)` for a natural number: its shortest decimal text. */
  function NatToString(n: nat): (r: string)
    ensures |r| >= 1 && forall i :: 0 <= i < |r| ==> IsDigit(r[i])
    ensures DecimalValue(r) == n
    ensures |r| > 1 ==> r[0] != '0'
  {
    if n < 10 then [DigitChar(n)]
    else
      var prefix := NatToString(n / 10);
      var r := prefix + [DigitChar(n % 10)];
      assert r[..|r| - 1] == prefix;
      r
  }

  /** `s.padStart(width, pad)` for a single pad character. */
  function PadStart(s: string, width: nat, pad: char): (r: string)
    ensures |r| == if |s| >= width then |s| else width
    ensures r[|r| - |s|..] == s
    ensures forall i :: 0 <= i < |r| - |s| ==> r[i] == pad
  {
    if |s| >= width then s else seq(width - |s|, _ => pad) + s
  }

  /** `c.repeat(n)` for one character. */
  function Repeat(c: char, n: nat): (r: string)
    ensures |r| == n && forall i :: 0 <= i < n ==> r[i] == c
  {
    seq(n, _ => c)
  }
}

=== FILE: transcribe_route.dfy ===
/**
 * `POST /api/ai/transcribe`: validates an uploaded recording, stores it in
 * blob storage, transcribes it with the speech-to-text service and maps the
 * service's failures to error codes.
 *
 * The form parser, the blob store and the speech service are parameters:
 * each either completes with a value or throws.
 */
module TranscribeRoute {
  import opened Wrappers
  import opened Text
  import opened Http

  /** What the handler reads of the uploaded `audio` entry. */
  datatype AudioFile = AudioFile(name: string, size: nat, mimeType: string)

  /** The speech service's answer: the text and, when it reports one, the language. */
  datatype Transcription = Transcription(text: string, language: Option<string>)

  datatype ErrorCode = QuotaExceeded | RateLimited | TranscriptionFailed | ProcessingFailed

  datatype TranscribeReply =
    | Unauthorized
    | NoAudio
    | TooLarge
    | InvalidFormat
    | Transcribed(transcription: string, language: string, audioUrl: string, audioSize: nat)
    | Error(code: ErrorCode)
  {
    function Status(): int {
      match this
      case Unauthorized => 401
      case NoAudio => 400
      case TooLarge => 400
      case InvalidFormat => 400
      case Transcribed(_, _, _, _) => 200
      case Error(code) => if code == QuotaExceeded || code == RateLimited then 429 else 500
    }

    /** The `error` text of the JSON reply. */
    function Message(): (m: string)
      ensures |m| == 0 <==> this.Transcribed?
      ensures this == Error(QuotaExceeded) ==> Contains(m, "quota")
    {
      match this
      case Unauthorized => "Unauthorized"
      case NoAudio => "No audio file provided"
      case TooLarge => "Audio file too large. Maximum 10 minutes allowed."
      case InvalidFormat => "Invalid audio format. Supported: " + Join(AllowedTypes, ", ")
      case Transcribed(_, _, _, _) => ""
      case Error(QuotaExceeded) =>
        QuotaMessageMentionsQuota();
        QuotaMessage
      case Error(RateLimited) => "Too many requests. Please wait a moment and try again."
      case Error(TranscriptionFailed) =>
        "Audio transcription failed. Please try again with a clearer recording."
      case Error(ProcessingFailed) => "Failed to process audio. Please try again."
    }
  }

  const QuotaMessage := "AI service " + "quota" + " exceeded. Please check your OpenAI API billing and usage limits."

  /** The quota reply's text names the quota. */
  lemma QuotaMessageMentionsQuota()
    ensures Contains(QuotaMessage, "quota")
  {
    assert OccursAt(QuotaMessage, "quota", |"AI service "|);
  }

  /** 10 MiB. */
  const MaxSize: nat := 10 * 1024 * 1024

  const AllowedTypes: seq<string> :=
    ["audio/webm", "audio/mp4", "audio/mpeg", "audio/mp3", "audio/wav", "audio/ogg"]

  /**
   * The catch block: an API error with status 429 or code
   * "insufficient_quota" is a quota failure; one with code
   * "rate_limit_exceeded" a rate limit; otherwise an `Error` whose message
   * mentions "audio" is a transcription failure, and anything else a
   * processing failure.
   */
  function Classify(e: Thrown): (c: ErrorCode)
    ensures c == QuotaExceeded <==>
              e.status.Some? && (e.status.value == 429 || e.code == Some("insufficient_quota"))
    ensures c == RateLimited <==>
              e.status.Some? && e.status.value != 429 && e.code == Some("rate_limit_exceeded")
    ensures c == TranscriptionFailed ==> e.message.Some? && Contains(e.message.value, "audio")
    ensures c == ProcessingFailed ==> e.message.None? || !Contains(e.message.value, "audio")
  {
    if e.status.Some? && (e.status.value == 429 || e.code == Some("insufficient_quota")) then QuotaExceeded
    else if e.status.Some? && e.code == Some("rate_limit_exceeded") then RateLimited
    else if e.message.Some? && Contains(e.message.value, "audio") then TranscriptionFailed
    else ProcessingFailed
  }

  /**
   * The handler. The guards run in order (identity, form, presence, size,
   * type) and the first that fails decides the reply; the upload and the
   * transcription run only on a valid file, and anything thrown on the way
   * is classified.
   */
  function Transcribe(userId: Option<string>, form: Step<Option<AudioFile>>,
                      upload: Step<string>, speech: Step<Transcription>): (r: TranscribeReply)
    ensures r.Unauthorized? <==> !SignedIn(userId)
    ensures r.NoAudio? <==> SignedIn(userId) && form == Done(None)
    ensures r.TooLarge? <==> SignedIn(userId) && form.Done? && form.value.Some? && form.value.value.size > MaxSize
    ensures r.InvalidFormat? <==>
              SignedIn(userId) && form.Done? && form.value.Some? && form.value.value.size <= MaxSize &&
              form.value.value.mimeType !in AllowedTypes
    ensures r.Transcribed? ==>
              && form.Done? && form.value.Some?
              && form.value.value.size <= MaxSize && form.value.value.mimeType in AllowedTypes
              && upload.Done? && speech.Done?
              && r == Transcribed(speech.value.text, OrElse(speech.value.language, "unknown"),
                                  upload.value, form.value.value.size)
    ensures r.Error? ==> SignedIn(userId)
    ensures r.Error? ==>
              || (form.Threw? && r.code == Classify(form.error))
              || (form.Done? && upload.Threw? && r.code == Classify(upload.error))
              || (form.Done? && upload.Done? && speech.Threw? && r.code == Classify(speech.error))
  {
    if !SignedIn(userId) then Unauthorized
    else
      match form
      case Threw(e) => Error(Classify(e))
      case Done(audio) =>
        if audio.None? then NoAudio
        else if audio.value.size > MaxSize then TooLarge
        else if audio.value.mimeType !in AllowedTypes then InvalidFormat
        else
          match upload
          case Threw(e) => Error(Classify(e))
          case Done(url) =>
            match speech
            case Threw(e) => Error(Classify(e))
            case Done(t) => Transcribed(t.text, OrElse(t.language, "unknown"), url, audio.value.size)
  }

  /** A file of exactly 10 MiB passes the size check; one byte more does not. */
  lemma SizeBoundary(userId: string, t: string)
    requires userId != "" && t in AllowedTypes
    ensures !Transcribe(Some(userId), Done(Some(AudioFile("a", MaxSize, t))), Threw(Thrown(None, None, None)), Done(Transcription("", None))).TooLarge?
    ensures Transcribe(Some(userId), Done(Some(AudioFile("a", MaxSize + 1, t))), Threw(Thrown(None, None, None)), Done(Transcription("", None))).TooLarge?
  {
  }

  /** Status 429 is a quota failure even when the code says rate limit: the quota test comes first. */
  lemma QuotaBeforeRateLimit(m: Option<string>)
    ensures Classify(Thrown(Some(429), Some("rate_limit_exceeded"), m)) == QuotaExceeded
  {
  }

  /** Every error reply is a 429 or a 500. */
  lemma ErrorStatuses(c: ErrorCode)
    ensures Error(c).Status() == 429 || Error(c).Status() == 500
    ensures Error(c).Status() == 429 <==> (c == QuotaExceeded || c == RateLimited)
  {
  }
}

=== FILE: use_notes.dfy ===
/**
 * The `useNotes` hook: the client's copy of the note list, with a loading
 * flag and an error message, and the operations that call the notes API
 * and update the list from its replies.
 *
 * Each request is a parameter: a `Step` that throws (network failure) or
 * resolves to a `Response`. An operation that throws in the source leaves
 * the list as it was and reports failure through its `None` or `false`
 * result.
 */
module UseNotes {
  import opened Wrappers
  import opened Text
  import opened Http
  import opened Store
  import Listing

  /** The query string of `fetchNotes`: `filter` and `q` are set only when truthy. */
  function Params(filter: Option<string>, query: Option<string>): (p: seq<(string, string)>)
    ensures ("filter", filter.GetOr("")) in p <==> Truthy(filter)
    ensures ("q", query.GetOr("")) in p <==> Truthy(query)
    ensures forall i :: 0 <= i < |p| ==> p[i].0 == "filter" || p[i].0 == "q"
  {
    (if Truthy(filter) then [("filter", filter.value)] else []) +
    (if Truthy(query) then [("q", query.value)] else [])
  }

  const FetchFailed := "Failed to fetch notes"
  const Unknown := "An error occurred"

  /**
   * The message the catch block of `fetchNotes` stores: the `Error`'s
   * message (the non-ok case throws one with a fixed message), or a
   * fixed text for a thrown non-`Error`.
   */
  function FetchError(r: Step<Response<seq<Note>>>): (e: Option<string>)
    ensures e.None? <==> Succeeded(r)
    ensures r.Done? && !r.value.ok ==> e == Some(FetchFailed)
    ensures r.Threw? ==> e == Some(r.error.message.GetOr(Unknown))
    ensures r.Done? && r.value.ok && r.value.json.Threw? ==> e == Some(r.value.json.error.message.GetOr(Unknown))
  {
    match r
    case Threw(t) => Some(t.message.GetOr(Unknown))
    case Done(res) =>
      if !res.ok then Some(FetchFailed)
      else if res.json.Threw? then Some(res.json.error.message.GetOr(Unknown))
      else None
  }

  /** `prev.map(note => note.id === id ? updated : note)`. */
  function ReplaceById(s: seq<Note>, id: string, updated: Note): (r: seq<Note>)
    ensures |r| == |s|
    ensures forall i :: 0 <= i < |s| && s[i].id != id ==> r[i] == s[i]
    ensures forall i :: 0 <= i < |s| && s[i].id == id ==> r[i] == updated
  {
    if s == [] then []
    else [if s[0].id == id then updated else s[0]] + ReplaceById(s[1..], id, updated)
  }

  /** `prev.filter(note => note.id !== id)`. */
  function RemoveById(s: seq<Note>, id: string): (r: seq<Note>)
    ensures forall n :: n in r <==> n in s && n.id != id
    ensures |r| <= |s|
  {
    Listing.FilterFrom(s, (n: Note) => n.id != id);
    Listing.Filter(s, (n: Note) => n.id != id)
  }

  /** `notes.find(n => n.id === id)`, as an index: the first note with that id. */
  function FindById(s: seq<Note>, id: string): (k: Option<nat>)
    ensures k.Some? ==> k.value < |s| && s[k.value].id == id
    ensures k.Some? ==> forall j :: 0 <= j < k.value ==> s[j].id != id
    ensures k.None? <==> forall j :: 0 <= j < |s| ==> s[j].id != id
  {
    if s == [] then None
    else if s[0].id == id then Some(0)
    else match FindById(s[1..], id)
      case None => None
      case Some(k) => Some(k + 1)
  }

  /** Removal keeps the order of what remains: it works piece by piece. */
  lemma RemoveByIdAppend(a: seq<Note>, b: seq<Note>, id: string)
    ensures RemoveById(a + b, id) == RemoveById(a, id) + RemoveById(b, id)
  {
    Listing.FilterAppend(a, b, (n: Note) => n.id != id);
  }

  /** Deleting a note just created (with an id not yet in the list) restores the list. */
  lemma DeleteUndoesCreate(s: seq<Note>, created: Note)
    requires forall i :: 0 <= i < |s| ==> s[i].id != created.id
    ensures RemoveById([created] + s, created.id) == s
  {
    var p := (n: Note) => n.id != created.id;
    Listing.FilterAppend([created], s, p);
    Listing.FilterKeepsAll(s, p);
  }

  /** Deleting after an update gives what deleting alone gives. */
  lemma {:induction false} DeleteAfterUpdate(s: seq<Note>, id: string, updated: Note)
    requires updated.id == id
    ensures RemoveById(ReplaceById(s, id, updated), id) == RemoveById(s, id)
  {
    if s != [] {
      DeleteAfterUpdate(s[1..], id, updated);
      var p := (n: Note) => n.id != id;
      assert ReplaceById(s, id, updated) == [ReplaceById(s, id, updated)[0]] + ReplaceById(s[1..], id, updated);
      Listing.FilterAppend([ReplaceById(s, id, updated)[0]], ReplaceById(s[1..], id, updated), p);
      Listing.FilterAppend([s[0]], s[1..], p);
      Listing.HeadTail(s);
    }
  }

  /** A second update of the same id overrides the first, when the first reply keeps the id. */
  lemma UpdateTwice(s: seq<Note>, id: string, a: Note, b: Note)
    requires a.id == id
    ensures ReplaceById(ReplaceById(s, id, a), id, b) == ReplaceById(s, id, b)
  {
    var lhs, rhs := ReplaceById(ReplaceById(s, id, a), id, b), ReplaceById(s, id, b);
    assert forall i :: 0 <= i < |s| ==> lhs[i] == rhs[i];
  }

  /** Deleting twice is deleting once. */
  lemma DeleteIdempotent(s: seq<Note>, id: string)
    ensures RemoveById(RemoveById(s, id), id) == RemoveById(s, id)
  {
    var p := (n: Note) => n.id != id;
    Listing.FilterKeepsAll(RemoveById(s, id), p);
  }

  /** The body of the PATCH a shortcut sends. */
  datatype Patch = FavoritePatch(isFavorite: bool) | ArchivePatch(isArchived: bool)

  class NotesHook {
    var notes: seq<Note>
    var isLoading: bool
    var error: Option<string>

    /** The initial state: no notes, loading, no error. */
    constructor ()
      ensures notes == [] && isLoading && error == None
    {
      notes := [];
      isLoading := true;
      error := None;
    }

    /** The start of `fetchNotes`. */
    method BeginFetch()
      modifies this
      ensures isLoading && error == None && notes == old(notes)
    {
      isLoading := true;
      error := None;
    }

    /** The rest of `fetchNotes`: the list is replaced on success, the error set otherwise, and loading ends either way. */
    method EndFetch(r: Step<Response<seq<Note>>>)
      modifies this
      ensures !isLoading
      ensures Succeeded(r) ==> notes == Payload(r) && error == old(error)
      ensures !Succeeded(r) ==> notes == old(notes) && error == FetchError(r)
    {
      if Succeeded(r) {
        notes := Payload(r);
      } else {
        error := FetchError(r);
      }
      isLoading := false;
    }

    method FetchNotes(r: Step<Response<seq<Note>>>)
      modifies this
      ensures !isLoading && error == FetchError(r)
      ensures notes == if Succeeded(r) then Payload(r) else old(notes)
    {
      BeginFetch();
      EndFetch(r);
    }

    /** `createNote`: on success the server's note goes first; otherwise it throws and nothing changes. */
    method CreateNote(r: Step<Response<Note>>) returns (created: Option<Note>)
      modifies this
      ensures created.Some? <==> Succeeded(r)
      ensures created.Some? ==> created.value == Payload(r) && notes == [created.value] + old(notes)
      ensures created.None? ==> notes == old(notes)
      ensures isLoading == old(isLoading) && error == old(error)
    {
      if !Succeeded(r) {
        return None;
      }
      created := Some(Payload(r));
      notes := [created.value] + notes;
    }

    /** `updateNote`: on success every entry with that id becomes the server's note. */
    method UpdateNote(id: string, r: Step<Response<Note>>) returns (updated: Option<Note>)
      modifies this
      ensures updated.Some? <==> Succeeded(r)
      ensures updated.Some? ==> updated.value == Payload(r) && notes == ReplaceById(old(notes), id, updated.value)
      ensures updated.None? ==> notes == old(notes)
      ensures isLoading == old(isLoading) && error == old(error)
    {
      if !Succeeded(r) {
        return None;
      }
      updated := Some(Payload(r));
      notes := ReplaceById(notes, id, updated.value);
    }

    /** `deleteNote`: the body of the reply is not read; an ok status removes every entry with that id. */
    method DeleteNote(id: string, r: Step<Response<()>>) returns (deleted: bool)
      modifies this
      ensures deleted <==> r.Done? && r.value.ok
      ensures notes == if deleted then RemoveById(old(notes), id) else old(notes)
      ensures isLoading == old(isLoading) && error == old(error)
    {
      deleted := r.Done? && r.value.ok;
      if deleted {
        notes := RemoveById(notes, id);
      }
    }

    /** `toggleFavorite`: the given flag is sent as it is. */
    method ToggleFavorite(id: string, isFavorite: bool, r: Step<Response<Note>>)
      returns (sent: Patch, updated: Option<Note>)
      modifies this
      ensures sent == FavoritePatch(isFavorite)
      ensures updated.Some? <==> Succeeded(r)
      ensures notes == if updated.Some? then ReplaceById(old(notes), id, Payload(r)) else old(notes)
      ensures isLoading == old(isLoading) && error == old(error)
    {
      sent := FavoritePatch(isFavorite);
      updated := UpdateNote(id, r);
    }

    /**
     * `archiveNote`: the flag sent is the negation of the listed note's; for
     * an id not in the list nothing is sent and nothing changes.
     */
    method ArchiveNote(id: string, r: Step<Response<Note>>)
      returns (sent: Option<Patch>, updated: Option<Note>)
      modifies this
      ensures FindById(old(notes), id).None? ==> sent == None && updated == None && notes == old(notes)
      ensures FindById(old(notes), id).Some? ==>
                sent == Some(ArchivePatch(!old(notes)[FindById(old(notes), id).value].isArchived))
      ensures updated.Some? <==> sent.Some? && Succeeded(r)
      ensures notes == if updated.Some? then ReplaceById(old(notes), id, Payload(r)) else old(notes)
      ensures isLoading == old(isLoading) && error == old(error)
    {
      var k := FindById(notes, id);
      if k.None? {
        return None, None;
      }
      sent := Some(ArchivePatch(!notes[k.value].isArchived));
      updated := UpdateNote(id, r);
    }
  }
}

=== FILE: use_push.dfy ===
/**
 * The `usePush` hook: turns the configured VAPID public key into bytes,
 * asks for notification permission, subscribes the browser (or re-posts an
 * existing subscription) and sends a test notification, keeping a `status`
 * and an `error` message for the settings page.
 *
 * The browser and the network are parameters: each awaited call is a
 * `Step` that completes or throws.
 */
module UsePush {
  import opened Wrappers
  import opened Text
  import opened Http
  import opened Base64

  /**
   * `urlBase64ToUint8Array`: the decoded bytes copied one by one into a new
   * array; `None` when `atob` throws on the normalised string.
   */
  method UrlBase64ToUint8Array(key: string) returns (out: Option<array<Byte>>)
    ensures out.Some? <==> UrlBase64ToBytes(key).Some?
    ensures out.Some? ==> fresh(out.value) && out.value[..] == UrlBase64ToBytes(key).value
  {
    var rawData := UrlBase64ToBytes(key);
    if rawData.None? {
      return None;
    }
    var bytes := rawData.value;
    var outputArray := new Byte[|bytes|];
    var i := 0;
    while i < |bytes|
      invariant 0 <= i <= |bytes|
      invariant forall j :: 0 <= j < i ==> outputArray[j] == bytes[j]
    {
      outputArray[i] := bytes[i];
      i := i + 1;
    }
    assert outputArray[..] == bytes;
    return Some(outputArray);
  }

  datatype PushStatus = Idle | Prompt | Subscribed | Denied | Error

  /** What `Notification.requestPermission()` resolves to ("default" is `Dismissed`). */
  datatype Permission = Granted | Refused | Dismissed

  /**
   * The browser and the server as `subscribe` meets them: the configured
   * key, whether service workers and the Push API exist, and the outcome
   * of each awaited call. `existing` covers `serviceWorker.ready` and
   * `getSubscription()`; `post` is the `fetch` to the subscribe route, whose
   * status the hook never looks at.
   */
  datatype Browser = Browser(
    vapidKey: Option<string>,
    supported: bool,
    permission: Step<Permission>,
    existing: Step<bool>,
    pushSubscribe: Step<()>,
    post: Step<int>)

  const MissingKey := "Missing VAPID public key"
  const Unsupported := "Push not supported in this browser"
  const EnableFailed := "Failed to enable notifications"
  const TestFailed := "Failed to send test notification"

  /** The subscription is posted to the server: after permission is granted, for an existing or a new one. */
  predicate Posts(b: Browser) {
    && Truthy(b.vapidKey) && b.supported
    && b.permission == Done(Granted)
    && b.existing.Done?
    && (b.existing.value || (UrlBase64ToBytes(b.vapidKey.value).Some? && b.pushSubscribe.Done?))
  }

  /**
   * The status and error `subscribe` leaves behind. The guards run in order
   * and the first that fails decides; anything thrown after the support
   * check ends in `Error` with the generic message.
   */
  function SubscribeResult(b: Browser): (r: (PushStatus, Option<string>))
    ensures r == (Error, Some(MissingKey)) <==> !Truthy(b.vapidKey)
    ensures r == (Error, Some(Unsupported)) <==> Truthy(b.vapidKey) && !b.supported
    ensures r.0 == Denied <==> Truthy(b.vapidKey) && b.supported && b.permission == Done(Refused)
    ensures r.0 == Prompt <==> Truthy(b.vapidKey) && b.supported && b.permission == Done(Dismissed)
    ensures r.0 == Subscribed <==> Posts(b) && b.post.Done?
    ensures r.0 == Error <==> r.1.Some?
    ensures r.0 in {Denied, Prompt, Subscribed} ==> r.1 == None
    ensures r.0 != Idle
  {
    if !Truthy(b.vapidKey) then (Error, Some(MissingKey))
    else if !b.supported then (Error, Some(Unsupported))
    else
      match b.permission
      case Threw(_) => (Error, Some(EnableFailed))
      case Done(Refused) => (Denied, None)
      case Done(Dismissed) => (Prompt, None)
      case Done(Granted) =>
        match b.existing
        case Threw(_) => (Error, Some(EnableFailed))
        case Done(existing) =>
          if !existing && (UrlBase64ToBytes(b.vapidKey.value).None? || b.pushSubscribe.Threw?) then
            (Error, Some(EnableFailed))
          else if b.post.Threw? then (Error, Some(EnableFailed))
          else (Subscribed, None)
  }

  /** The server's answer to the subscription post does not matter, only whether the request went through. */
  lemma ResponseStatusIgnored(b: Browser, s1: int, s2: int)
    ensures SubscribeResult(b.(post := Done(s1))) == SubscribeResult(b.(post := Done(s2)))
  {
  }

  /** With a granted permission and an existing subscription, the key is never decoded: a malformed key still subscribes. */
  lemma ExistingSkipsKey(b: Browser)
    requires Truthy(b.vapidKey) && b.supported && b.permission == Done(Granted)
    requires b.existing == Done(true) && b.post.Done?
    requires UrlBase64ToBytes(b.vapidKey.value).None?
    ensures SubscribeResult(b).0 == Subscribed
  {
  }

  /** The hook's state. */
  class PushHook {
    var status: PushStatus
    var error: Option<string>

    constructor ()
      ensures status == Idle && error == None
    {
      status := Idle;
      error := None;
    }

    /**
     * `subscribe`: the error is cleared first, then each branch sets the
     * status (and an error message) it reaches. The key is converted just
     * before `pushManager.subscribe`, so a malformed key fails there.
     */
    method Subscribe(b: Browser)
      modifies this
      ensures (status, error) == SubscribeResult(b)
    {
      error := None;
      if !Truthy(b.vapidKey) {
        error := Some(MissingKey);
        status := Error;
        return;
      }
      if !b.supported {
        error := Some(Unsupported);
        status := Error;
        return;
      }
      if b.permission.Threw? {
        error := Some(EnableFailed);
        status := Error;
        return;
      }
      if b.permission.value == Refused {
        status := Denied;
        return;
      }
      if b.permission.value != Granted {
        status := Prompt;
        return;
      }
      if b.existing.Threw? {
        error := Some(EnableFailed);
        status := Error;
        return;
      }
      if !b.existing.value {
        var key := UrlBase64ToUint8Array(b.vapidKey.value);
        if key.None? || b.pushSubscribe.Threw? {
          error := Some(EnableFailed);
          status := Error;
          return;
        }
      }
      if b.post.Threw? {
        error := Some(EnableFailed);
        status := Error;
        return;
      }
      status := Subscribed;
    }

    /**
     * `sendTest`: a thrown request or a reply outside 200-299 sets the
     * error message; the status is never touched and success does not
     * clear an earlier error.
     */
    method SendTest(res: Step<int>)
      modifies this
      ensures status == old(status)
      ensures error == (if res.Threw? || !(200 <= res.value <= 299) then Some(TestFailed) else old(error))
    {
      if res.Threw? || !(200 <= res.value <= 299) {
        error := Some(TestFailed);
      }
    }
  }
}

=== FILE: voice_recorder.dfy ===
/**
 * The voice-note recorder component: a small state machine (idle,
 * recording, stopped, transcribing) with a one-second timer capped at ten
 * minutes, the duration display, and the mapping of transcription failures
 * to notifications.
 *
 * Component state becomes the fields of `Recorder`. The microphone, the
 * media recorder and the transcription request are outside the model: their
 * outcomes are parameters of the methods that receive them.
 */
module VoiceRecorder {
  import opened Wrappers
  import opened Text
  import TranscribeRoute

  datatype RecState = Idle | Recording | Stopped | Transcribing

  /** A notification shown to the user. */
  datatype Toast = Toast(title: string, description: string)

  const MaxDuration: nat := 600
  const WarningFrom: nat := 540

  /** How a transcription request ends, as the component observes it. */
  datatype Outcome =
    | Transcribed(transcription: string, language: Option<string>)
    /** The reply was not OK; `error` is the reply's `error` field. */
    | Rejected(error: Option<string>)
    /** Something was thrown on the way: an `Error` with a message, or (`None`) another value. */
    | Thrown(message: Option<string>)

  // ---------------------------------------------------------------------
  // Pure parts
  // ---------------------------------------------------------------------

  const QuotaToast := Toast("AI Service Unavailable",
                            "The AI service quota has been exceeded. Please try again later or contact support.")
  const RateLimitToast := Toast("Too Many Requests", "Please wait a moment before trying again.")
  const MaxReachedToast := Toast("Recording stopped", "Maximum duration of 10 minutes reached.")
  const MicDeniedToast := Toast("Microphone access denied",
                                "Please allow microphone access to record voice notes.")

  /**
   * The catch block of `transcribeAudio`: a message mentioning "quota" or
   * "429" is a quota notice, else one mentioning "rate limit" a rate-limit
   * notice, else the message itself is shown; a thrown non-`Error` gives the
   * generic notice.
   */
  function FailureToast(message: Option<string>): (t: Toast)
    ensures message.None? ==> t == Toast("Transcription failed", "Please try again")
    ensures message.Some? && (Contains(message.value, "quota") || Contains(message.value, "429")) ==> t == QuotaToast
    ensures message.Some? && !Contains(message.value, "quota") && !Contains(message.value, "429") ==>
              t == (if Contains(message.value, "rate limit") then RateLimitToast
                    else Toast("Transcription failed", message.value))
  {
    match message
    case None => Toast("Transcription failed", "Please try again")
    case Some(m) =>
      if Contains(m, "quota") || Contains(m, "429") then QuotaToast
      else if Contains(m, "rate limit") then RateLimitToast
      else Toast("Transcription failed", m)
  }

  /** The message of the error a failed request raises: `data.error || "Transcription failed"`. */
  function FailureMessage(o: Outcome): (r: Option<string>)
    requires !o.Transcribed?
    ensures o.Rejected? ==> r.Some? && r.value != ""
    ensures o.Rejected? && Truthy(o.error) ==> r == o.error
    ensures o.Rejected? && !Truthy(o.error) ==> r == Some("Transcription failed")
    ensures o.Thrown? ==> r == o.message
  {
    match o
    case Rejected(error) => Some(OrElse(error, "Transcription failed"))
    case Thrown(message) => message
  }

  /**
   * The server's quota reply reaches the user as the quota notice: its
   * message mentions "quota".
   */
  lemma ServerQuotaReplyIsQuotaNotice()
    ensures FailureToast(FailureMessage(Rejected(Some(TranscribeRoute.Error(TranscribeRoute.QuotaExceeded).Message())))) ==
            QuotaToast
  {
  }

  /** `formatDuration`: minutes, a colon, and the seconds padded to two digits. */
  function FormatDuration(seconds: nat): (r: string)
    ensures |r| >= 4 && r[|r| - 3] == ':'
    ensures forall i :: 0 <= i < |r| && i != |r| - 3 ==> IsDigit(r[i])
    ensures DecimalValue(r[..|r| - 3]) * 60 + DecimalValue(r[|r| - 2..]) == seconds
    ensures DecimalValue(r[|r| - 2..]) < 60
    ensures |r| > 4 ==> r[0] != '0'
  {
    var mins := NatToString(seconds / 60);
    var secs := PadStart(NatToString(seconds % 60), 2, '0');
    TwoDigits(seconds % 60);
    DigitPairValue(seconds % 60);
    var r := mins + ":" + secs;
    assert r[..|r| - 3] == mins;
    assert r[|r| - 2..] == secs;
    assert r[0] == mins[0];
    r
  }

  /** A number below 60 padded to two digits is its tens digit followed by its units digit. */
  lemma TwoDigits(n: nat)
    requires n < 60
    ensures PadStart(NatToString(n), 2, '0') == [DigitChar(n / 10), DigitChar(n % 10)]
  {
    if n < 10 {
      assert NatToString(n) == [DigitChar(n)];
    } else {
      assert NatToString(n / 10) == [DigitChar(n / 10)];
    }
  }

  /** Two digits read back as the number they spell. */
  lemma DigitPairValue(n: nat)
    requires n < 100
    ensures DecimalValue([DigitChar(n / 10), DigitChar(n % 10)]) == n
  {
    var p := [DigitChar(n / 10), DigitChar(n % 10)];
    assert p[..1] == [DigitChar(n / 10)];
    assert p[..1][..0] == [];
    assert DecimalValue(p[..1]) == n / 10;
  }

  // ---------------------------------------------------------------------
  // The component
  // ---------------------------------------------------------------------

  class Recorder {
    var state: RecState
    var duration: nat
    /** `mediaRecorderRef.current` is set. */
    var hasRecorder: bool
    /** `audioBlob` is set. */
    var hasBlob: bool
    /** The one-second interval is registered. */
    var timerRunning: bool
    /** The value of `state` in the render whose `stopRecording` the interval callback calls. */
    var capturedState: RecState
    var toasts: seq<Toast>
    /** The transcriptions handed to `onTranscriptionComplete`. */
    var delivered: seq<string>

    /**
     * The timer runs exactly while recording, the duration stays within the
     * cap and is zero when idle, and a stopped recording has its audio.
     */
    ghost predicate Valid()
      reads this
    {
      && (timerRunning <==> state == Recording)
      && (state == Recording ==> hasRecorder)
      && duration <= MaxDuration
      && (state == Idle ==> duration == 0)
      && (state == Stopped ==> hasBlob)
    }

    constructor ()
      ensures Valid()
      ensures state == Idle && duration == 0 && !hasBlob && toasts == [] && delivered == []
    {
      state, duration := Idle, 0;
      hasRecorder, hasBlob, timerRunning := false, false, false;
      capturedState := Idle;
      toasts, delivered := [], [];
    }

    /**
     * `startRecording`, offered in the idle state. Without the microphone
     * only a notice is shown; otherwise recording starts with the timer, and
     * the timer's callback keeps the `state` of this render.
     */
    method StartRecording(micGranted: bool)
      requires Valid() && state == Idle
      modifies this
      ensures Valid()
      ensures !micGranted ==> state == Idle && toasts == old(toasts) + [MicDeniedToast] && !timerRunning
      ensures micGranted ==> state == Recording && timerRunning && capturedState == Idle && toasts == old(toasts)
      ensures duration == old(duration) && hasBlob == old(hasBlob) && delivered == old(delivered)
    {
      if !micGranted {
        toasts := toasts + [MicDeniedToast];
        return;
      }
      hasRecorder := true;
      capturedState := state;
      state := Recording;
      timerRunning := true;
    }

    /**
     * `stopRecording` as defined in a render where `state` was `seen`: it acts
     * only when a recorder exists and `seen` is "recording", and then stops
     * the recorder and the timer; the recorder's stop event stores the audio.
     */
    method StopRecordingSeen(seen: RecState)
      requires Valid()
      requires seen == Recording ==> state == Recording
      modifies this
      ensures Valid()
      ensures hasRecorder && seen == Recording ==> state == Stopped && !timerRunning && hasBlob
      ensures !(hasRecorder && seen == Recording) ==>
                state == old(state) && timerRunning == old(timerRunning) && hasBlob == old(hasBlob)
      ensures duration == old(duration) && toasts == old(toasts) && delivered == old(delivered)
      ensures hasRecorder == old(hasRecorder) && capturedState == old(capturedState)
    {
      if hasRecorder && seen == Recording {
        state := Stopped;
        timerRunning := false;
        hasBlob := true;
      }
    }

    /** The stop button, bound to the current render's `stopRecording`. */
    method Stop()
      requires Valid() && state == Recording
      modifies this
      ensures Valid()
      ensures state == Stopped && !timerRunning && hasBlob
      ensures duration == old(duration) && toasts == old(toasts) && delivered == old(delivered)
    {
      StopRecordingSeen(state);
    }

    /**
     * One timer tick AS WRITTEN: at the cap it calls the `stopRecording` the
     * callback captured, which saw the idle state, so nothing stops; the
     * duration stays at the cap and the notice repeats every second.
     */
    method TickAsWritten()
      requires Valid() && timerRunning && capturedState == Idle
      modifies this
      ensures Valid()
      ensures old(duration) < MaxDuration ==> duration == old(duration) + 1 && toasts == old(toasts)
      ensures old(duration) >= MaxDuration ==> duration == MaxDuration && toasts == old(toasts) + [MaxReachedToast]
      ensures state == Recording && timerRunning && capturedState == Idle
      ensures delivered == old(delivered) && hasBlob == old(hasBlob)
    {
      if duration >= MaxDuration {
        StopRecordingSeen(capturedState);
        toasts := toasts + [MaxReachedToast];
        duration := MaxDuration;
      } else {
        duration := duration + 1;
      }
    }

    /**
     * One timer tick, corrected: at the cap it stops the recording through
     * the current state, so the timer ends and the audio is kept.
     */
    method Tick()
      requires Valid() && timerRunning
      modifies this
      ensures Valid()
      ensures old(duration) < MaxDuration ==>
                duration == old(duration) + 1 && state == Recording && timerRunning && toasts == old(toasts)
      ensures old(duration) >= MaxDuration ==>
                duration == MaxDuration && state == Stopped && !timerRunning && hasBlob &&
                toasts == old(toasts) + [MaxReachedToast]
      ensures delivered == old(delivered) && capturedState == old(capturedState)
    {
      if duration >= MaxDuration {
        StopRecordingSeen(state);
        toasts := toasts + [MaxReachedToast];
        duration := MaxDuration;
      } else {
        duration := duration + 1;
      }
    }

    /** `discardRecording`, offered in the stopped state: back to idle with nothing recorded. */
    method Discard()
      requires Valid() && state == Stopped
      modifies this
      ensures Valid()
      ensures state == Idle && duration == 0 && !hasBlob
      ensures toasts == old(toasts) && delivered == old(delivered)
    {
      hasBlob := false;
      duration := 0;
      state := Idle;
    }

    /** The first half of `transcribeAudio`: with audio present, the request starts. */
    method BeginTranscribe()
      requires Valid() && state == Stopped
      modifies this
      ensures Valid()
      ensures state == Transcribing && hasBlob
      ensures duration == old(duration) && toasts == old(toasts) && delivered == old(delivered)
    {
      if !hasBlob {
        return;
      }
      state := Transcribing;
    }

    /**
     * The second half: a transcription is delivered and the recorder resets
     * to idle; a failure shows its notice and returns to the stopped state
     * with the audio kept, so the user can retry.
     */
    method FinishTranscribe(outcome: Outcome)
      requires Valid() && state == Transcribing && hasBlob
      modifies this
      ensures Valid()
      ensures outcome.Transcribed? ==>
                && state == Idle && duration == 0 && !hasBlob
                && delivered == old(delivered) + [outcome.transcription]
                && toasts == old(toasts) +
                   [Toast("Transcription complete!", "Detected language: " + OrElse(outcome.language, "auto"))]
      ensures !outcome.Transcribed? ==>
                && state == Stopped && hasBlob && duration == old(duration)
                && delivered == old(delivered)
                && toasts == old(toasts) + [FailureToast(FailureMessage(outcome))]
    {
      match outcome
      case Transcribed(text, language) =>
        toasts := toasts + [Toast("Transcription complete!", "Detected language: " + OrElse(language, "auto"))];
        delivered := delivered + [text];
        hasBlob := false;
        duration := 0;
        state := Idle;
      case _ =>
        toasts := toasts + [FailureToast(FailureMessage(outcome))];
        state := Stopped;
    }
  }

  // ---------------------------------------------------------------------
  // The cap, as written and corrected
  // ---------------------------------------------------------------------

  /** The countdown is shown while recording past nine minutes. */
  predicate WarningShown(r: Recorder)
    reads r
  {
    r.state == Recording && r.duration > WarningFrom
  }

  /**
   * The countdown `MAX_DURATION - duration` the recorder shows is always
   * between 0 and 59: the warning needs more than 540 seconds, and the
   * recorder's invariant keeps the duration within the cap.
   */
  lemma WarningCountdown(r: Recorder)
    requires r.Valid() && WarningShown(r)
    ensures 0 <= MaxDuration - r.duration < 60
  {
  }

  /**
   * As written, a recording left running for 605 seconds is still
   * recording: the duration is pinned at 600 and the cap notice has been
   * shown five times.
   */
  method AsWrittenOverrun() returns (state: RecState, duration: nat, notices: nat)
    ensures state == Recording && duration == MaxDuration && notices == 5
  {
    var r := new Recorder();
    r.StartRecording(true);
    var i := 0;
    while i < MaxDuration + 5
      invariant 0 <= i <= MaxDuration + 5
      invariant r.Valid() && r.state == Recording && r.timerRunning && r.capturedState == Idle
      invariant r.duration == if i <= MaxDuration then i else MaxDuration
      invariant |r.toasts| == if i <= MaxDuration then 0 else i - MaxDuration
      invariant forall k :: 0 <= k < |r.toasts| ==> r.toasts[k] == MaxReachedToast
    {
      r.TickAsWritten();
      i := i + 1;
    }
    state, duration, notices := r.state, r.duration, |r.toasts|;
  }

  /**
   * Corrected, the 601st tick stops the recording: the timer ends, the
   * duration is 600, the audio is kept and the notice is shown once.
   */
  method CorrectedStopsAtCap() returns (state: RecState, duration: nat, timerRunning: bool, notices: nat)
    ensures state == Stopped && duration == MaxDuration && !timerRunning && notices == 1
  {
    var r := new Recorder();
    r.StartRecording(true);
    var i := 0;
    while i < MaxDuration
      invariant 0 <= i <= MaxDuration
      invariant r.Valid() && r.state == Recording && r.timerRunning
      invariant r.duration == i && r.toasts == []
    {
      r.Tick();
      i := i + 1;
    }
    r.Tick();
    state, duration, timerRunning, notices := r.state, r.duration, r.timerRunning, |r.toasts|;
  }
}

=== FILE: wrappers.dfy ===
/** Optional values, used for JavaScript's `null`/`undefined`. */
module Wrappers {

  datatype Option<+T> = None | Some(value: T) {

    /** The value, or `default` when there is none. */
    function GetOr(default: T): T {
      match this
      case Some(v) => v
      case None => default
    }
  }
}
